=== FILE: README.md ===
# Call-graph routing and type-layout walks, modelled in Dafny

This project models three pieces of hotsphink/sfink-tools.

- **`bin/traverse.py`** is an interactive explorer for a static call graph. It loads a
  graph of integer node ids into two adjacency maps, `callees` and `callers`, whose
  edges carry an optional `SUPPRESS_GC` marker. It then answers routing queries:
  - `findRoute`: one shortest call path;
  - `getManyRoutes`: several paths, spread over the callees the source leaves through;
  - `findRouteMulti`: one path from each of several sources;
  - `rootPaths`: paths from every root that reaches a node;
  - `reachable`: paths to every leaf a node reaches.
- **`conf/gdbinit.gecko.py`** holds the debugger helpers `find_nearest_index` and
  `find_nearest`. They look up the entry with the greatest key not above an address.
- **`conf/gdbinit.pahole.py`** is behind the `pahole` and `offset` debugger commands.
  - `traverse_type` flattens a struct or union type into a stream of events: a bracket pair
    per aggregate, one event per scalar member, one per hole between members.
  - `calc_sizeof` measures empty structs as 0 bytes.
  - `type_to_string` prefixes a type name with `struct` or `union`.
  - `offset` lists the events that overlap a byte range.

The Dafny modules follow that structure:

| module | file | models |
|---|---|---|
| `CallGraph` | callgraph.dfy | the two adjacency maps, the loader's edge update, paths |
| `ShortestRoute` | shortest.dfy | `findRoute` |
| `Sweeps` | sweeps.dfy | `rootPaths`, `reachable`, `findRouteMulti` |
| `ManyRoutes` | manyroutes.dfy | `getManyRoutes`, step 1 (labelling) and step 2 (walking back) |
| `Nearest` | nearest.dfy | `find_nearest_index`, `find_nearest`, Python's stable `sorted` |
| `GdbType` | gdbtype.dfy | the part of gdb's type objects the walk reads, `calc_sizeof`, `type_to_string` |
| `Pahole` | pahole.dfy | `traverse_type` and the filter of the `offset` command |

`bin/traverse.py` is Python 2, and its model follows Python 2 semantics; in particular
`dict.values()[0]` picks some value. The two debugger scripts run inside gdb's Python 3;
the parts modelled here behave the same under either version, except that `int(x / 8)`
truncates a true (floating-point) quotient, which `Pahole.TruncDiv8` models as exact
truncating division.
Iteration over a Python set or over dict keys promises no order, so the model takes each
element through an arbitrary choice (`CallGraph.Pick`). Nothing is promised that depends
on the order.

## Model

| member | source | states |
|---|---|---|
| CallGraph.AddEdge | bin/traverse.py:51-52 | one edge line writes the same marker into both maps, adds exactly that call edge, and keeps the two maps describing the same edges |
| CallGraph.AddEdges | bin/traverse.py:46-52 | loading a list of edge lines keeps the maps consistent; the calls afterwards are the calls before plus exactly the listed pairs |
| CallGraph.BackTrailOfCallersIsCallPath | bin/traverse.py:51-52 | in a consistently loaded graph, a path found by following `callers` backwards is a call path |
| ShortestRoute.FindRoute | bin/traverse.py:102-122 | the result is empty exactly when no route avoiding the avoid sets exists; otherwise it is a call path from `src` to `dst` stepping over no avoided node, no such route is shorter, and it visits no node twice; `[src]` when `src == dst` is found |
| ShortestRoute.ShortestNoDup | bin/traverse.py:102-122 | a route no other route undercuts visits no node twice (a repeated node's loop could be cut out) |
| ShortestRoute.Backtrack | bin/traverse.py:113-117 | following the recorded back edges from `dst` rebuilds exactly the path the search took to reach it |
| ShortestRoute.NoShorterRoute | bin/traverse.py:109-120 | once every node at depth below `d` has been expanded without seeing `dst`, every route has at least `d + 2` nodes |
| Sweeps.LeafRoutes | bin/traverse.py:372-420 | one route home per node without neighbours that the start reaches, each such node exactly once |
| Sweeps.RootPaths | bin/traverse.py:372-395 | the routes start at exactly the nodes with no callers that reach `dst` through `callers`, each once, each a back trail to `dst`; a `dst` without callers gives `[[dst]]` |
| Sweeps.Reachable | bin/traverse.py:397-420 | the routes start at exactly the leaves `src` reaches, each once; reversed, each is a call path from `src` |
| Sweeps.Hunt | bin/traverse.py:343-361 | the backward search finds exactly the sources that feed `dst`, with or without its early exit |
| Sweeps.FindRouteMulti | bin/traverse.py:342-370 | one route per source, from that source to `dst` along `callers`; the sources returned are exactly the listed ones that reach `dst` in one call or more |
| Sweeps.Enumerate | bin/traverse.py:364 | iterating over a set visits each element once |
| ManyRoutes.LabelAll | bin/traverse.py:163-180 | every record `callers[c][b] = v` is a real call edge `v -> c` avoiding `src` and `avoid`, keyed by a branch `b`; every callee of a branch or of a recorded node (other than `src` or an avoided node) is recorded; and the records admit a ranking in which following the record keyed by `b` from any node other than `b` reaches a node that also holds a record for `b` and ranks lower, so the walks of step 2 end |
| ManyRoutes.Fork | bin/traverse.py:236-246 | one committed walk per recorded branch still to do, each continuing from that branch's recorded caller with a copy of the path; exactly those branches leave the to-do set, and the log lists them in fork order |
| ManyRoutes.StepBack | bin/traverse.py:210-255 | one step back from `callee`: the `KeyError` of line 215 happens exactly when `callee` was never recorded; a single record is followed; a committed walk follows the record for its own branch and dies exactly when there is none; an uncommitted walk forks the recorded branches still to do and continues to a recorded caller exactly when some branch is still to do; a walk that has not stopped never raises `KeyError`, a committed one never dies, and every step lands on a node where the walk stops or one of lower rank |
| ManyRoutes.RunWalk | bin/traverse.py:196-264 | a walk never raises `KeyError` and ends; a committed walk always arrives, through its own branch; an uncommitted walk dies only once no branch is left to do; an arriving walk yields a route from `src` through a branch to the `dst` caller it started from; an uncommitted walk that starts at a branch arrives at once with `[src, callee] + path` reversed; the forks it queues are logged with their branches |
| ManyRoutes.Steps | bin/traverse.py:199-255 | the step loop ends (each step lowers the rank); it dies only for an uncommitted walk and only when no branch is left to do, and otherwise stops at `src` or at a branch the walk may stop at |
| ManyRoutes.WalkArrives | bin/traverse.py:257-264 | a walk that stops yields, reversed with `src` added, a route from `src` through a branch to its start; a committed walk's route goes through its own branch |
| ManyRoutes.TakeJob | bin/traverse.py:193-264 | the queue after one job is the rest of the queue followed by that job's forks, and the log grows by their branches; a committed job whose branch already has a route leaves everything else unchanged; any other committed job adds exactly one route, through its branch, and marks the branch done; an uncommitted job standing at a branch adds exactly the route `[src, branch] + path` reversed; every forked branch is still queued or already has a route; routes are only added and branches to do only removed; an uncommitted job adds a route or leaves no branch to do |
| ManyRoutes.RunJob | bin/traverse.py:199-264 | the same for a job that is not skipped |
| ManyRoutes.Drain | bin/traverse.py:193-264 | every route found from one `dst` caller ends with that caller and `dst`; a caller that is itself a branch gives exactly `[src, caller, dst]`; with some branch still to do, at least one route is found; every branch forked from this caller ends up with a route through it, and without a route nothing is forked |
| ManyRoutes.WalkBack | bin/traverse.py:182-266 | every route goes from `src` through a branch to a caller of `dst`, avoiding the avoid set and not returning to `src`; every branch that directly calls `dst` gives `[src, b, dst]`; each branch is forked at most once, and every forked branch has a route through it; some route is found whenever a caller of `dst` is walked from |
| ManyRoutes.FromCaller | bin/traverse.py:186-264 | a `dst` caller neither reached by step 1 nor a branch, or avoided, is skipped with no effect; a branch caller gives exactly `[src, caller, dst]`; once a caller is walked from, some route has been found |
| ManyRoutes.PathStartsWalk | bin/traverse.py:166-191 | every route of the promised kind ends at a caller of `dst` that step 1 recorded or that is a branch, so step 2 walks back from it |
| ManyRoutes.GetManyRoutes | bin/traverse.py:159-266 | `[[src]]` when `src == dst`; otherwise it never raises `KeyError` and always returns; every route is a call path from `src` through a branch to `dst` that avoids `avoid` and does not return to `src`; the result is empty exactly when no such route exists; every direct branch-to-`dst` route is present; every branch forked off has a route through it |
| ManyRoutes.BranchPathIsCallPath | bin/traverse.py:257-264 | in a consistently loaded graph, a route assembled by a backward walk is a call path |
| Nearest.FindNearestIndex | conf/gdbinit.gecko.py:3-11 | -1 up to the last index; every key before it is below the search key, its own is not above, and unless it equals the search key the next one is above |
| Nearest.SortedNearest | conf/gdbinit.gecko.py:3-4 | on sorted input: -1 exactly when every key is above the search key; otherwise the greatest key not above it, the first index when that key equals the search key |
| Nearest.SortBy | conf/gdbinit.gecko.py:14 | `sorted` returns a permutation of its input, ordered by key |
| Nearest.SortKeyed | conf/gdbinit.gecko.py:14 | `sorted` is stable: the elements sharing a key keep their input order |
| Nearest.NearestUnique | conf/gdbinit.gecko.py:3-11 | at most one element is nearest below a key: greatest key not above it, first of its key when equal, last of its key when below |
| Nearest.NearestOfSorted | conf/gdbinit.gecko.py:13-16 | the index found in the stable sorted copy is negative exactly when every key is above the search key, and otherwise picks the input's nearest element below the key |
| Nearest.FindNearest | conf/gdbinit.gecko.py:13-22 | `default` exactly when every key is above the search key; otherwise the element with the greatest key not above it, and among elements with that key (in input order) the first when it equals the search key, the last when it is below |
| Nearest.FindNearestInDict | conf/gdbinit.gecko.py:13-26 | the same over a dict's keys, answering with the value stored under the key found |
| GdbType.CalcSizeof | conf/gdbinit.pahole.py:45-53 | the measure is gdb's size unless gdb sizes a struct at one byte; a field-less such struct measures 0 |
| GdbType.EmptyStructMeasure | conf/gdbinit.pahole.py:48-53 | a struct gdb sizes at one byte measures 0 exactly when each of its fields measures 0 |
| GdbType.TypeToString | conf/gdbinit.pahole.py:29-41 | the result starts with the keyword and a space; it is the name itself when that already starts so, else the keyword, a space and the name |
| Pahole.Traverse | conf/gdbinit.pahole.py:55-141 | a scalar gives one event; an aggregate gives an opening event, deeper events only, and a matching closing event; none between when cut off by the depth limit; brackets balance; the node's event carries its type's name and the member name it was reached through (which events lie between the brackets: `Pahole.TraverseLayout`) |
| Pahole.TraverseAt | conf/gdbinit.pahole.py:56-90 | the same once typedefs are followed; the node's path and offsets are the ones passed in |
| Pahole.TraverseLayout | conf/gdbinit.pahole.py:89-141 | between the brackets of a struct or union that is not cut off lie, as its member events, for each non-static member in field order a hole where one is due and then the member's own event, named after the member's type, carrying the member's name (`<base>` for a base class) and the path below the node's, at the member's start and with its width |
| Pahole.TypeLayout | conf/gdbinit.pahole.py:143-149 | the root of a whole struct or union is never cut off, so its events hold the layout of all its non-static members from bit 0 on |
| Pahole.LayoutPaths | conf/gdbinit.pahole.py:58-67 | every member and hole event of a node sits on a path that extends the node's own |
| Pahole.Members | conf/gdbinit.pahole.py:92-138 | the member events of a struct follow each other from the running position, each starting where the one before ends once hole sizes are taken as signed; each is placed at the node's offset plus its own (which members and holes appear: `Pahole.MembersLayout`) |
| Pahole.MembersLayout | conf/gdbinit.pahole.py:94-138 | a node that is not cut off emits, for each non-static member from the current one on and in field order, a hole exactly when the member does not start at the running position, spanning the difference and naming that member, then the member's own event with its type's name, its name (`<base>` for a base class), its path, its start and its width; the running position moves as the loop moves it |
| Pahole.NegativeHole | conf/gdbinit.pahole.py:45-53 | a one-byte struct of two 4-bit `char` bit-fields measures 2 bytes, so a member placed after it at byte 1 is preceded by a hole of -8 bits |
| Pahole.MemberEvents | conf/gdbinit.pahole.py:103-135 | a member whose start differs from the running position is preceded by exactly one hole covering the difference; the member's event sits at that start with the member's width, names the member's type, and carries the member's name, or `<base>` for a base class, and its path below the node's |
| Pahole.HoleBefore | conf/gdbinit.pahole.py:105-119 | a hole event exists exactly when the member's start differs from the running position, and it spans the difference; it lies on the node's path and names the member it precedes and the enclosing type |
| Pahole.AllStaticSilent | conf/gdbinit.pahole.py:95-101 | a node cut off by the depth limit, or one whose remaining members are all static, produces no member events |
| Pahole.UnionNoHoles | conf/gdbinit.pahole.py:105-138 | a union whose non-static members all sit at bit 0 produces no hole events |
| Pahole.LayoutUnion | conf/gdbinit.pahole.py:105-138 | in a union whose members all sit at bit 0, every member starts at the running position 0 and leaves it there, so no hole is due |
| Pahole.TraverseType | conf/gdbinit.pahole.py:143-149 | the root event is at level 0, offset 0, path `this`, with the type's full size in bits |
| Pahole.AsWrittenIff | conf/gdbinit.pahole.py:242-258 | the filter as written reports an event with a non-empty computed byte range exactly when that range meets the scanned range |
| Pahole.SubByteMissed | conf/gdbinit.pahole.py:252-258 | as written, a 4-bit member at byte 0 is missed by a scan of bytes 0..7 (the corrected filter reports it); one at byte 1 is reported as `1..0`; a 12-bit member from bit 4 is missed by a scan of byte 1; a scan of width 0 still reports a member spanning it |
| Pahole.ReportedIff | conf/gdbinit.pahole.py:242-258 | the corrected filter reports an event exactly when one of its bits lies in one of the scanned bytes |
| Pahole.What | conf/gdbinit.pahole.py:259-263 | a member's row names its type; a hole's names the hole and its enclosing type, followed, exactly when there is a next member, by ` before field '<next member>'` |
| Pahole.RowFor | conf/gdbinit.pahole.py:252-264 | as written, a row spans the whole-byte range the command computes; corrected, it spans from the byte of the event's first bit to the byte of its last |
| Pahole.WholeBytesAgree | conf/gdbinit.pahole.py:252-258 | for members that start on a byte boundary and fill whole bytes, the corrected filter and rows agree with the ones as written |
| Pahole.Overlaps | conf/gdbinit.pahole.py:244-264 | under either filter, a row for every kept event, and every row from a kept event |
| Pahole.OffsetScan | conf/gdbinit.pahole.py:229-264 | no answer exactly when the type is not a struct or union; otherwise, with the filter as written, a row exactly for the events of the stripped type that the command's whole-byte test keeps over `offset .. offset + width - 1`, and with the corrected filter, for those with a bit in that range |

## Left out

- Loading the dump file, name resolution, the `Commander` shell, `describe`, and every `print` are left out. They are input and output around the graph, not routing logic.
- `gAvoid` becomes the parameter `standing` of `ShortestRoute.FindRoute`. `load_file` assigns a local of that name, so the global stays empty.
- `findRoute` also accepts a list of sources. Only the single-source call is modelled, which is how its one caller, the `route` command, uses it.
- The `boingo` step counter (traverse.py:183, 208-210) only prints; the model proves every walk ends, so it is left out.
- ManyRoutes.StepBack: the `KeyError` that `callers[callee]` (traverse.py:215) would raise is the outcome `NoBackEdge`; `RunWalk` proves it never occurs.
- The code after `return paths` in `getManyRoutes` (traverse.py:268 on) is unreachable and left out. So is the `if not choices` branch: a node with fewer than two recorded callers never reaches it.
- ManyRoutes.GetManyRoutes: which branches get a route, beyond those that call `dst` directly and those forked off, depends on the order of set iteration, so the model promises no more. The code does not promise one route per branch either: a branch that is neither forked nor a direct caller of `dst` may get none. What is promised in every order is that some route is found whenever one exists.
- The comment at traverse.py:229-233 says the continuing walk becomes "labeled". The code never labels it, and the model follows the code.
- `find_nearest` with a dict: a Python dict is modelled as its entries in insertion order, as a sequence of pairs. The model does not demand distinct keys; with a repeated key, `Nearest.Lookup` answers with the first entry's value, a case a real dict never presents.
- Nearest.SortedNearest: the docstring of `find_nearest_index` says the first of several equal keys wins. That holds only for entries whose key equals the search key. When the equal keys lie below the search key, the scan returns the last of them, and the model states what the code does.
- The JIT instruction-map command and the rest of `gdbinit.gecko.py` are outside this model.
- gdb's type lookup, `strip_typedefs` on real gdb objects, and the `printf` layout of `pahole` are out. A type is the `GdbType.Type` datatype.
- The `offset` command's argument parsing and the pointer-size default width are out. Width is a parameter.
- Pahole.TruncDiv8: Python's `int(x / 8)` goes through floating point. The model uses exact truncating division, which agrees for every offset below 2^53 bits.
- GdbType.CalcSizeof: its docstring promises gdb's size except that empty structs measure 0, but the code sums the fields of every struct gdb sizes at one byte, so a struct of bit-fields is measured at the sum of their types' sizes (`Pahole.NegativeHole`). The model follows the code; the traversal then reports a negative hole.
- Pahole.OffsetScan: the `'top_bitpos' not in info` test (pahole.py:247) never fires, since every event carries both keys. `info.get('name') or type_to_string(...)` is always the name, since every event has a non-empty one. Both are left out.
- GdbType.TypeToString: `type_to_string` uses `union` for every type that is not itself a struct, typedefs and scalars included. The model keeps this.

## Findings

| source | as written | input that shows it | evidently intended | confidence | as-written member | corrected member |
|---|---|---|---|---|---|---|
| conf/gdbinit.pahole.py:252-258 | the byte range of an event is `int(top/8)` to `int(top/8) + int(size/8) - 1`; a member narrower than a byte gets an empty range | a 4-bit bit-field at bit 0, scanned with `offset /8 0 S`: not reported although its bits lie in byte 0; the same field at bit 8 is reported as `overlap at byte 1..0` | report an event when one of its bits lies in a scanned byte, with the range running from the byte of its first bit to the byte of its last | not executed | Pahole.SubByteMissed | Pahole.ReportedIff |

`Pahole.OffsetScan` takes the filter as a parameter: `AsWritten` is the command as it stands,
`Intended` the corrected filter and byte ranges.

=== FILE: callgraph.dfy ===
/**
 The call graph the routing engine works on: two adjacency maps, `callees`
 (caller -> callee -> marker) and `callers` (callee -> caller -> marker),
 written together by the loader so that each describes the other.
 */
module CallGraph {

  /** Node ids as the loader assigns them. */
  type Node = int

  /** The edge marker: an ordinary edge, or one tagged `SUPPRESS_GC`. */
  datatype Marker = Plain | SuppressGc

  /** One direction of the graph: node -> neighbour -> marker. */
  type Adjacency = map<Node, map<Node, Marker>>

  datatype Graph = Graph(callees: Adjacency, callers: Adjacency)

  /** The neighbours of `n` in `adj`; a node without an entry has none. */
  function Succ(adj: Adjacency, n: Node): set<Node>
  {
    if n in adj then adj[n].Keys else {}
  }

  /** `b` is a neighbour of `a` in `adj`. */
  predicate Step(adj: Adjacency, a: Node, b: Node)
  {
    a in adj && b in adj[a]
  }

  /** `a` calls `b`. */
  predicate Calls(g: Graph, a: Node, b: Node)
  {
    Step(g.callees, a, b)
  }

  /** Every node that is some node's neighbour in `adj`. */
  function Targets(adj: Adjacency): set<Node>
  {
    set a, b | a in adj && b in adj[a] :: b
  }

  lemma SuccInTargets(adj: Adjacency, n: Node)
    ensures Succ(adj, n) <= Targets(adj)
  {
    forall b | b in Succ(adj, n)
      ensures b in Targets(adj)
    {
      assert n in adj && b in adj[n];
    }
  }

  /** A non-empty set has an element to pick. */
  lemma NonEmptyHasElement<T>(s: set<T>)
    requires s != {}
    ensures exists x :: x in s
  {
    if forall x :: x !in s {
      assert false;
    }
  }

  /** Python's iteration over a set: some element, with no promise about which. */
  method Pick<T>(s: set<T>) returns (x: T)
    requires s != {}
    ensures x in s
  {
    NonEmptyHasElement(s);
    x :| x in s;
  }

  /** Discovering more of a finite set of targets leaves fewer to discover. */
  lemma Shrink(T: set<Node>, E0: set<Node>, E: set<Node>)
    requires E0 < E <= T
    ensures |T - E| < |T - E0|
  {
    var A, B := T - E, E - E0;
    assert T - E0 == A + B;
    assert A !! B;
    assert B != {};
  }

  /** The measure of a sweep: either more nodes discovered, or as many and a shorter queue. */
  lemma Progress(T: set<Node>, E0: set<Node>, E: set<Node>, n0: nat, n: nat)
    requires E0 <= E <= T && (E == E0 ==> n < n0)
    ensures |T - E| < |T - E0| || (|T - E| == |T - E0| && n < n0)
  {
    if E != E0 {
      Shrink(T, E0, E);
    }
  }

  /** The two maps describe the same edges with the same markers. */
  ghost predicate Consistent(g: Graph)
  {
    && (forall a, b :: Step(g.callees, a, b) <==> Step(g.callers, b, a))
    && (forall a, b :: Step(g.callees, a, b) ==> g.callees[a][b] == g.callers[b][a])
  }

  /** Records one edge line of the dump: both maps get the same marker
      (last write wins for a repeated edge). */
  function AddEdge(g: Graph, caller: Node, callee: Node, m: Marker): (g': Graph)
    ensures Consistent(g) ==> Consistent(g')
    ensures Calls(g', caller, callee) && g'.callees[caller][callee] == m
    ensures forall a, b :: Calls(g', a, b) <==> Calls(g, a, b) || (a == caller && b == callee)
  {
    var outs := if caller in g.callees then g.callees[caller] else map[];
    var ins := if callee in g.callers then g.callers[callee] else map[];
    var g' := Graph(g.callees[caller := outs[callee := m]], g.callers[callee := ins[caller := m]]);
    AddEdgeKeepsConsistent(g, g', caller, callee, m);
    g'
  }

  lemma AddEdgeKeepsConsistent(g: Graph, g': Graph, caller: Node, callee: Node, m: Marker)
    requires g'.callees == g.callees[caller := (if caller in g.callees then g.callees[caller] else map[])[callee := m]]
    requires g'.callers == g.callers[callee := (if callee in g.callers then g.callers[callee] else map[])[caller := m]]
    ensures Consistent(g) ==> Consistent(g')
  {
    if Consistent(g) {
      forall a, b
        ensures Step(g'.callees, a, b) <==> Step(g'.callers, b, a)
      {
        if a == caller && b == callee {
        } else {
          assert Step(g'.callees, a, b) <==> Step(g.callees, a, b);
          assert Step(g'.callers, b, a) <==> Step(g.callers, b, a);
        }
      }
      forall a, b | Step(g'.callees, a, b)
        ensures g'.callees[a][b] == g'.callers[b][a]
      {
        if a == caller && b == callee {
        } else {
          assert Step(g.callees, a, b);
        }
      }
    }
  }

  /** Loads a whole list of edges, in order, into `g`. */
  function AddEdges(g: Graph, es: seq<(Node, Node, Marker)>): (g': Graph)
    ensures Consistent(g) ==> Consistent(g')
    ensures forall a, b :: Calls(g', a, b) <==> Calls(g, a, b) || (a, b) in EdgePairs(es)
    decreases |es|
  {
    if es == [] then g
    else AddEdges(AddEdge(g, es[0].0, es[0].1, es[0].2), es[1..])
  }

  function EdgePairs(es: seq<(Node, Node, Marker)>): set<(Node, Node)>
  {
    set i | 0 <= i < |es| :: (es[i].0, es[i].1)
  }

  // ---------------------------------------------------------------------------
  // Walks along one adjacency map.

  /** Every consecutive pair of `p` is a step of `adj`, read left to right. */
  ghost predicate Trail(adj: Adjacency, p: seq<Node>)
  {
    forall i :: 0 <= i < |p| - 1 ==> Step(adj, p[i], p[i + 1])
  }

  /** Every consecutive pair of `p` is a step of `adj`, read right to left. */
  ghost predicate BackTrail(adj: Adjacency, p: seq<Node>)
  {
    forall i :: 0 <= i < |p| - 1 ==> Step(adj, p[i + 1], p[i])
  }

  /** A call path: each node calls the next one. */
  ghost predicate CallPath(g: Graph, p: seq<Node>)
  {
    forall i :: 0 <= i < |p| - 1 ==> Calls(g, p[i], p[i + 1])
  }

  function Reverse(s: seq<Node>): (r: seq<Node>)
    ensures |r| == |s|
    ensures forall i :: 0 <= i < |s| ==> r[i] == s[|s| - 1 - i]
  {
    if s == [] then [] else Reverse(s[1..]) + [s[0]]
  }

  /** No node occurs twice. */
  ghost predicate NoDup(s: seq<Node>)
  {
    forall i, j {:trigger s[i], s[j]} :: 0 <= i < j < |s| ==> s[i] != s[j]
  }

  /** A route found through `callers` is a call path. */
  lemma BackTrailOfCallersIsCallPath(g: Graph, p: seq<Node>)
    requires Consistent(g)
    requires BackTrail(g.callers, p)
    ensures CallPath(g, p)
  {
    forall i | 0 <= i < |p| - 1
      ensures Calls(g, p[i], p[i + 1])
    {
      assert Step(g.callers, p[i + 1], p[i]);
    }
  }

  /** A route found through `callees`, listed last node first, is a call path once reversed. */
  lemma BackTrailOfCalleesReversed(g: Graph, p: seq<Node>)
    requires BackTrail(g.callees, p)
    ensures CallPath(g, Reverse(p))
  {
    var r := Reverse(p);
    forall i | 0 <= i < |r| - 1
      ensures Calls(g, r[i], r[i + 1])
    {
      var j := |p| - 2 - i;
      assert r[i] == p[j + 1] && r[i + 1] == p[j];
    }
  }
}

=== FILE: gdbtype.dfy ===
/**
 The slice of gdb's type objects the layout commands read: a type is either a typedef
 naming another type, or a type with its own code, size in bytes and fields.
 */
module GdbType {

  /** `gdb.TYPE_CODE_STRUCT`, `gdb.TYPE_CODE_UNION`, or any other code (scalars, pointers,
      arrays, enums, ...). A typedef has its own constructor below. */
  datatype Code = StructCode | UnionCode | OtherCode

  datatype Type =
    | Typedef(name: string, target: Type)
    | Named(name: string, code: Code, sizeof: nat, fields: seq<Field>)

  /** A field: its name (empty when anonymous), its declared type, its bit position
      (`None` for a static member, which has no `bitpos` attribute), its bit-field width
      (0 when not a bit-field) and whether it is a base class. */
  datatype Field = Field(name: string, ftype: Type, bitpos: Option<nat>, bitsize: nat, isBase: bool)

  datatype Option<T> = None | Some(value: T)

  /** `strip_typedefs`: follows typedefs to the type they name. */
  function Strip(t: Type): (s: Type)
    ensures s.Named?
    ensures t.Named? ==> s == t
  {
    match t
    case Typedef(_, target) => Strip(target)
    case Named(_, _, _, _) => t
  }

  /** `sizeof`, which a typedef takes from the type it names. */
  function Sizeof(t: Type): nat
  {
    Strip(t).sizeof
  }

  /** A struct or union once typedefs are stripped. */
  predicate IsAggregate(t: Type)
  {
    Strip(t).code != OtherCode
  }

  /** `calc_sizeof`: `sizeof`, except that a struct gdb sizes at one byte is measured as
      the sum of its fields' measures, so an empty struct measures 0 rather than 1. */
  function CalcSizeof(t: Type): (n: nat)
    ensures Strip(t).sizeof != 1 || Strip(t).code != StructCode ==> n == Sizeof(t)
    ensures Strip(t).code == StructCode && Strip(t).sizeof == 1 && Strip(t).fields == [] ==> n == 0
    decreases t, 1
  {
    match t
    case Typedef(_, target) => CalcSizeof(target)
    case Named(_, code, sizeof, fields) =>
      if sizeof != 1 || code != StructCode then sizeof else SumFrom(t, 0)
  }

  /** The measures of the fields of `owner` from index `i` on. */
  function SumFrom(owner: Type, i: nat): nat
    requires owner.Named? && i <= |owner.fields|
    decreases owner, 0, |owner.fields| - i
  {
    if i == |owner.fields| then 0
    else CalcSizeof(owner.fields[i].ftype) + SumFrom(owner, i + 1)
  }

  /** A one-byte struct measures 0 exactly when every field does. */
  lemma {:induction false} SumFromZero(owner: Type, i: nat)
    requires owner.Named? && i <= |owner.fields|
    ensures SumFrom(owner, i) == 0 <==> forall j :: i <= j < |owner.fields| ==> CalcSizeof(owner.fields[j].ftype) == 0
    decreases |owner.fields| - i
  {
    if i < |owner.fields| {
      SumFromZero(owner, i + 1);
    }
  }

  /** A struct gdb sizes at one byte measures 0 exactly when all its fields measure 0;
      otherwise it measures what gdb says. */
  lemma EmptyStructMeasure(t: Type)
    requires Strip(t).code == StructCode && Strip(t).sizeof == 1
    ensures CalcSizeof(t) == 0 <==> forall j :: 0 <= j < |Strip(t).fields| ==> CalcSizeof(Strip(t).fields[j].ftype) == 0
    decreases t
  {
    match t
    case Typedef(_, target) =>
      EmptyStructMeasure(target);
    case Named(_, _, _, _) =>
      SumFromZero(t, 0);
  }

  /** `s` begins with `p`. */
  predicate StartsWith(s: string, p: string)
  {
    |p| <= |s| && s[..|p|] == p
  }

  /** The keyword `type_to_string` puts in front: `struct` for a type whose own code is a
      struct, `union` for anything else, a typedef or a scalar included. */
  function Csu(t: Type): string
  {
    if t.Named? && t.code == StructCode then "struct" else "union"
  }

  /** `type_to_string`: the type's name, with `struct ` or `union ` put in front unless
      it already starts that way. */
  function TypeToString(t: Type): (r: string)
    ensures StartsWith(r, Csu(t) + " ")
    ensures r == t.name || r == Csu(t) + " " + t.name
    ensures StartsWith(t.name, Csu(t) + " ") ==> r == t.name
  {
    var p := Csu(t) + " ";
    if StartsWith(t.name, p) then t.name else p + t.name
  }

  /** Naming a type with what `type_to_string` printed for it and printing again changes
      nothing. */
  lemma TypeToStringIdempotent(t: Type, t': Type)
    requires Csu(t') == Csu(t) && t'.name == TypeToString(t)
    ensures TypeToString(t') == TypeToString(t)
  {
  }
}

=== FILE: manyroutes.dfy ===
/**
 `getManyRoutes`: several routes from `src` to `dst`, spread over the callees
 of `src` they leave through, without one search per callee. Step 1 sweeps
 forward from every callee of `src` (a "branch") and records, for each node
 met, one caller per branch that reached it. Step 2 walks those records backwards from every
 caller of `dst`, forking a walk committed to a branch at each node where
 branches meet.
 */
module ManyRoutes {
  import opened CallGraph

  /** The branches of `src`: its callees other than itself and the avoided nodes. */
  function Branches(g: Graph, src: Node, avoid: set<Node>): (bs: set<Node>)
    ensures forall b :: b in bs <==> Calls(g, src, b) && b != src && b !in avoid
  {
    Succ(g.callees, src) - {src} - avoid
  }

  /** Step 1's record: node -> branch -> the caller from which that branch's sweep met it. */
  type Labels = map<Node, map<Node, Node>>

  /** `p` is a recorded caller of `n`: a real caller, neither `src` nor avoided, and
      itself recorded or a branch. */
  ghost predicate BackEdge(g: Graph, src: Node, avoid: set<Node>, branches: set<Node>, lab: Labels, n: Node, p: Node)
  {
    Calls(g, p, n) && p != src && p !in avoid && (p in lab || p in branches)
  }

  /** What step 1's record always satisfies. */
  ghost predicate LabelFacts(g: Graph, src: Node, avoid: set<Node>, branches: set<Node>, lab: Labels)
  {
    && lab.Keys <= Targets(g.callees)
    && src !in branches && branches !! avoid
    && (forall n {:trigger lab[n]} :: n in lab ==> n != src && n !in avoid && lab[n] != map[])
    && (forall n, b {:trigger lab[n][b]} :: n in lab && b in lab[n] ==>
          b in branches && BackEdge(g, src, avoid, branches, lab, n, lab[n][b]))
  }

  /** `lab` keeps every entry of `lab0`: an entry, once written, is never overwritten. */
  ghost predicate Extends(lab0: Labels, lab: Labels)
  {
    forall n, b {:trigger lab0[n][b]} :: n in lab0 && b in lab0[n] ==> n in lab && b in lab[n] && lab[n][b] == lab0[n][b]
  }

  // ---------------------------------------------------------------------------
  // Ranks: why following one branch's entries always comes back to that branch.

  /** A rank for each recorded node: the sweep that first recorded it, counted down so
      that later sweeps rank lower, then the order in which nodes were recorded. */
  type Ranks = map<Node, (nat, nat)>

  /** `p` ranks strictly below `n`. */
  ghost predicate Lower(rk: Ranks, p: Node, n: Node)
  {
    p in rk && n in rk && (rk[p].0 < rk[n].0 || (rk[p].0 == rk[n].0 && rk[p].1 < rk[n].1))
  }

  /** Every entry for branch `b` leads to `b` itself, or to a node that also carries `b`
      and ranks lower. */
  ghost predicate Ranked(lab: Labels, rk: Ranks)
  {
    && lab.Keys == rk.Keys
    && forall n, b {:trigger lab[n][b]} :: n in lab && b in lab[n] ==>
         lab[n][b] == b || (lab[n][b] in lab && b in lab[lab[n][b]] && Lower(rk, lab[n][b], n))
  }

  /** Every rank was stamped before `t`, at sweep level `s` or above. */
  ghost predicate Settled(rk: Ranks, s: nat, t: nat)
  {
    forall n {:trigger rk[n]} :: n in rk ==> rk[n].1 < t && rk[n].0 >= s
  }

  /** `x` is the branch `b`, or was recorded by `b`'s sweep (level `s`) and carries `b`. */
  ghost predicate Carries(lab: Labels, rk: Ranks, b: Node, s: nat, x: Node)
  {
    x == b || (x in lab && b in lab[x] && x in rk && rk[x].0 == s)
  }

  /** The ranks during the sweep of `b` at level `s`, `t` being the next stamp: the nodes
      of this sweep carry `b`, and so does every queued node. */
  ghost predicate Stamping(lab: Labels, rk: Ranks, b: Node, s: nat, t: nat, work: seq<Node>)
  {
    && Ranked(lab, rk) && Settled(rk, s, t)
    && (forall n {:trigger rk[n]} :: n in rk && rk[n].0 == s ==> n in lab && b in lab[n])
    && (forall i {:trigger work[i]} :: 0 <= i < |work| ==> Carries(lab, rk, b, s, work[i]))
  }

  /** A sweep at level `s` starts from its branch, after every earlier sweep ranked above `s`. */
  lemma StampStart(lab: Labels, rk: Ranks, b: Node, s: nat, t: nat)
    requires Ranked(lab, rk) && Settled(rk, s + 1, t)
    ensures Stamping(lab, rk, b, s, t, [b])
  {
  }

  lemma StampPop(lab: Labels, rk: Ranks, b: Node, s: nat, t: nat, work: seq<Node>)
    requires Stamping(lab, rk, b, s, t, work) && |work| > 0
    ensures Carries(lab, rk, b, s, work[0]) && Stamping(lab, rk, b, s, t, work[1..])
  {
    forall i | 0 <= i < |work[1..]|
      ensures Carries(lab, rk, b, s, work[1..][i])
    {
      assert work[1..][i] == work[i + 1];
    }
  }

  /** A node met for the first time is stamped at this sweep's level with the next stamp;
      its entry leads to `x`, which is `b` or ranks lower. */
  lemma StampFresh(lab: Labels, rk: Ranks, b: Node, s: nat, t: nat, work: seq<Node>, x: Node, c: Node)
    requires Stamping(lab, rk, b, s, t, work) && Carries(lab, rk, b, s, x) && c !in lab
    ensures Stamping(lab[c := map[b := x]], rk[c := (s, t)], b, s, t + 1, work + [c])
    ensures Carries(lab[c := map[b := x]], rk[c := (s, t)], b, s, x)
  {
    var lab', rk' := lab[c := map[b := x]], rk[c := (s, t)];
    forall n, b' | n in lab' && b' in lab'[n]
      ensures lab'[n][b'] == b' || (lab'[n][b'] in lab' && b' in lab'[lab'[n][b']] && Lower(rk', lab'[n][b'], n))
    {
      if n != c {
        var p := lab[n][b'];
        if p != b' {
          assert p in lab && p != c && lab'[p] == lab[p];
        }
      } else if x != b {
        assert x != c && lab'[x] == lab[x];
      }
    }
    forall i | 0 <= i < |work + [c]|
      ensures Carries(lab', rk', b, s, (work + [c])[i])
    {
      if i < |work| {
        assert (work + [c])[i] == work[i];
        if work[i] != b {
          assert work[i] != c;
        }
      }
    }
    if x != b {
      assert x != c;
    }
  }

  /** A node already recorded by an earlier sweep gains an entry for `b`, leading to `x`:
      `x` is `b` or was stamped at this sweep's level, below the node's own level. */
  lemma StampJoin(lab: Labels, rk: Ranks, b: Node, s: nat, t: nat, work: seq<Node>, x: Node, c: Node)
    requires Stamping(lab, rk, b, s, t, work) && Carries(lab, rk, b, s, x) && c in lab && b !in lab[c]
    ensures Stamping(lab[c := lab[c][b := x]], rk, b, s, t, work)
    ensures Carries(lab[c := lab[c][b := x]], rk, b, s, x)
  {
    var lab' := lab[c := lab[c][b := x]];
    assert rk[c].0 != s;
    forall n, b' | n in lab' && b' in lab'[n]
      ensures lab'[n][b'] == b' || (lab'[n][b'] in lab' && b' in lab'[lab'[n][b']] && Lower(rk, lab'[n][b'], n))
    {
      if n != c || b' != b {
        var p := lab[n][b'];
        assert lab'[n][b'] == p;
        if p != b' {
          assert b' in lab[p];
        }
      } else if x != b {
        assert x != c;
      }
    }
    forall i | 0 <= i < |work|
      ensures Carries(lab', rk, b, s, work[i])
    {
      assert Carries(lab, rk, b, s, work[i]);
    }
  }

  // ---------------------------------------------------------------------------
  // Step 1.

  /** The state of step 1 between two dequeues. `V` holds every node dequeued so far,
      by any branch's sweep. */
  ghost predicate Labelling(g: Graph, src: Node, avoid: set<Node>, branches: set<Node>,
                            work: seq<Node>, lab: Labels, V: set<Node>)
  {
    && LabelFacts(g, src, avoid, branches, lab)
    && (forall i {:trigger work[i]} :: 0 <= i < |work| ==> work[i] in lab || work[i] in branches)
    && (forall k {:trigger k in lab} :: k in lab ==> k in V || k in work)
    && V <= lab.Keys + branches
    && (forall v, c {:trigger c in Succ(g.callees, v)} ::
          v in V && c in Succ(g.callees, v) && c != src && c !in avoid ==> c in lab)
  }

  /** The state while the callees of `x` outside `rest` have been looked at. */
  ghost predicate LabelScanning(g: Graph, src: Node, avoid: set<Node>, branches: set<Node>, x: Node,
                                rest: set<Node>, work: seq<Node>, lab: Labels, V: set<Node>)
  {
    && rest <= Succ(g.callees, x) && x in V && (x in lab || x in branches)
    && LabelFacts(g, src, avoid, branches, lab)
    && (forall i {:trigger work[i]} :: 0 <= i < |work| ==> work[i] in lab || work[i] in branches)
    && (forall k {:trigger k in lab} :: k in lab ==> k in V || k in work)
    && V <= lab.Keys + branches
    && (forall v, c {:trigger c in Succ(g.callees, v)} ::
          v in V && v != x && c in Succ(g.callees, v) && c != src && c !in avoid ==> c in lab)
    && (forall c {:trigger c in Succ(g.callees, x)} ::
          c in Succ(g.callees, x) - rest && c != src && c !in avoid ==> c in lab)
  }

  lemma LabelPop(g: Graph, src: Node, avoid: set<Node>, branches: set<Node>,
                 work: seq<Node>, lab: Labels, V: set<Node>)
    requires Labelling(g, src, avoid, branches, work, lab, V) && |work| > 0
    ensures LabelScanning(g, src, avoid, branches, work[0], Succ(g.callees, work[0]), work[1..], lab, V + {work[0]})
  {
    var x := work[0];
    forall k | k in lab
      ensures k in V + {x} || k in work[1..]
    {
      if k !in V && k != x {
        var i :| 0 <= i < |work| && work[i] == k;
        assert work[1..][i - 1] == k;
      }
    }
    forall i | 0 <= i < |work[1..]|
      ensures work[1..][i] in lab || work[1..][i] in branches
    {
      assert work[1..][i] == work[i + 1];
    }
  }

  lemma LabelSkip(g: Graph, src: Node, avoid: set<Node>, branches: set<Node>, x: Node, rest: set<Node>, c: Node,
                  work: seq<Node>, lab: Labels, V: set<Node>)
    requires LabelScanning(g, src, avoid, branches, x, rest, work, lab, V) && c in rest
    requires c == src || c in avoid || c in lab
    ensures LabelScanning(g, src, avoid, branches, x, rest - {c}, work, lab, V)
  {
  }

  /** A callee met for the first time is recorded under branch `b` and queued. */
  lemma LabelFresh(g: Graph, src: Node, avoid: set<Node>, branches: set<Node>, b: Node, x: Node, rest: set<Node>,
                   c: Node, work: seq<Node>, lab: Labels, V: set<Node>, lab0: Labels)
    requires LabelScanning(g, src, avoid, branches, x, rest, work, lab, V) && b in branches
    requires c in rest && c != src && c !in avoid && c !in lab
    requires Extends(lab0, lab)
    ensures LabelScanning(g, src, avoid, branches, x, rest - {c}, work + [c], lab[c := map[b := x]], V)
    ensures Extends(lab0, lab[c := map[b := x]])
  {
    var lab' := lab[c := map[b := x]];
    SuccInTargets(g.callees, x);
    assert Calls(g, x, c);
    if x in lab {
      assert lab[x] != map[];
    }
    forall n, b' | n in lab' && b' in lab'[n]
      ensures b' in branches && BackEdge(g, src, avoid, branches, lab', n, lab'[n][b'])
    {
      if n != c {
        assert lab'[n][b'] == lab[n][b'];
      }
    }
    forall i | 0 <= i < |work + [c]|
      ensures (work + [c])[i] in lab' || (work + [c])[i] in branches
    {
      if i < |work| {
        assert (work + [c])[i] == work[i];
      }
    }
    ExtendsTrans(lab0, lab, lab');
  }

  /** A callee already recorded, but not yet under branch `b`, gains an entry for `b`. */
  lemma LabelJoin(g: Graph, src: Node, avoid: set<Node>, branches: set<Node>, b: Node, x: Node, rest: set<Node>,
                  c: Node, work: seq<Node>, lab: Labels, V: set<Node>, lab0: Labels)
    requires LabelScanning(g, src, avoid, branches, x, rest, work, lab, V) && b in branches
    requires c in rest && c in lab && b !in lab[c]
    requires Extends(lab0, lab)
    ensures LabelScanning(g, src, avoid, branches, x, rest - {c}, work, lab[c := lab[c][b := x]], V)
    ensures Extends(lab0, lab[c := lab[c][b := x]])
  {
    var lab' := lab[c := lab[c][b := x]];
    SuccInTargets(g.callees, x);
    assert Calls(g, x, c);
    if x in lab {
      assert lab[x] != map[];
    }
    forall n, b' | n in lab' && b' in lab'[n]
      ensures b' in branches && BackEdge(g, src, avoid, branches, lab', n, lab'[n][b'])
    {
      if n != c || b' != b {
        assert lab'[n][b'] == lab[n][b'];
      }
    }
    ExtendsTrans(lab0, lab, lab');
  }

  lemma LabelFinish(g: Graph, src: Node, avoid: set<Node>, branches: set<Node>, x: Node,
                    work: seq<Node>, lab: Labels, V: set<Node>)
    requires LabelScanning(g, src, avoid, branches, x, {}, work, lab, V)
    ensures Labelling(g, src, avoid, branches, work, lab, V)
  {
  }

  lemma ExtendsTrans(lab0: Labels, lab1: Labels, lab2: Labels)
    requires Extends(lab0, lab1) && Extends(lab1, lab2)
    ensures Extends(lab0, lab2)
  {
    forall n, b | n in lab0 && b in lab0[n]
      ensures n in lab2 && b in lab2[n] && lab2[n][b] == lab0[n][b]
    {
      assert lab1[n][b] == lab0[n][b];
      assert lab2[n][b] == lab1[n][b];
    }
  }

  /** One turn of the `for callee in ...` loop of step 1: the callee `c` of `x`, met in
      the sweep of branch `b`. `callers[callee] = {}` followed at once by the first label
      is written as one update. */
  method LabelOne(g: Graph, src: Node, avoid: set<Node>, branches: set<Node>, b: Node, x: Node, rest: set<Node>,
                  c: Node, work: seq<Node>, lab: Labels, ghost V: set<Node>, ghost lab0: Labels,
                  ghost rk: Ranks, ghost s: nat, ghost t: nat)
    returns (work': seq<Node>, lab': Labels, ghost rk': Ranks, ghost t': nat)
    requires LabelScanning(g, src, avoid, branches, x, rest, work, lab, V) && b in branches && c in rest
    requires Extends(lab0, lab)
    requires Stamping(lab, rk, b, s, t, work) && Carries(lab, rk, b, s, x)
    ensures LabelScanning(g, src, avoid, branches, x, rest - {c}, work', lab', V)
    ensures Extends(lab0, lab')
    ensures Stamping(lab', rk', b, s, t', work') && Carries(lab', rk', b, s, x)
    ensures lab.Keys <= lab'.Keys && |lab.Keys| <= |lab'.Keys| && (|lab'.Keys| == |lab.Keys| ==> work' == work)
  {
    if c == src || c in avoid {
      LabelSkip(g, src, avoid, branches, x, rest, c, work, lab, V);
      work', lab', rk', t' := work, lab, rk, t;
    } else if c !in lab {
      LabelFresh(g, src, avoid, branches, b, x, rest, c, work, lab, V, lab0);
      StampFresh(lab, rk, b, s, t, work, x, c);
      work', lab', rk', t' := work + [c], lab[c := map[b := x]], rk[c := (s, t)], t + 1;
    } else if b !in lab[c] {
      LabelJoin(g, src, avoid, branches, b, x, rest, c, work, lab, V, lab0);
      StampJoin(lab, rk, b, s, t, work, x, c);
      work', lab', rk', t' := work, lab[c := lab[c][b := x]], rk, t;
    } else {
      LabelSkip(g, src, avoid, branches, x, rest, c, work, lab, V);
      work', lab', rk', t' := work, lab, rk, t;
    }
  }

  /** The `for callee in ...` loop of step 1 for the dequeued node `work0[0]`, in the
      sweep of branch `b`. */
  method LabelScan(g: Graph, src: Node, avoid: set<Node>, branches: set<Node>, b: Node,
                   work0: seq<Node>, lab0: Labels, ghost V: set<Node>, ghost rk0: Ranks, ghost s: nat, ghost t0: nat)
    returns (work: seq<Node>, lab: Labels, ghost rk: Ranks, ghost t: nat)
    requires Labelling(g, src, avoid, branches, work0, lab0, V) && |work0| > 0 && b in branches
    requires Stamping(lab0, rk0, b, s, t0, work0)
    ensures Labelling(g, src, avoid, branches, work, lab, V + {work0[0]})
    ensures Stamping(lab, rk, b, s, t, work)
    ensures Extends(lab0, lab)
    ensures lab0.Keys <= lab.Keys && (lab.Keys == lab0.Keys ==> |work| < |work0|)
  {
    var x := work0[0];
    ghost var V' := V + {x};
    LabelPop(g, src, avoid, branches, work0, lab0, V);
    StampPop(lab0, rk0, b, s, t0, work0);
    work, lab, rk, t := work0[1..], lab0, rk0, t0;
    var rest := Succ(g.callees, x);
    while rest != {}
      invariant LabelScanning(g, src, avoid, branches, x, rest, work, lab, V')
      invariant Stamping(lab, rk, b, s, t, work) && Carries(lab, rk, b, s, x)
      invariant Extends(lab0, lab)
      invariant lab0.Keys <= lab.Keys && |lab0.Keys| <= |lab.Keys|
      invariant |lab.Keys| == |lab0.Keys| ==> work == work0[1..]
      decreases rest
    {
      var c := Pick(rest);
      work, lab, rk, t := LabelOne(g, src, avoid, branches, b, x, rest, c, work, lab, V', lab0, rk, s, t);
      rest := rest - {c};
    }
    LabelFinish(g, src, avoid, branches, x, work, lab, V');
  }

  /** The sweep of one branch `b`, at level `s`: starts from `b` and dequeues until the
      queue is empty; nodes recorded by earlier sweeps are labelled but not queued again. */
  method LabelBranch(g: Graph, src: Node, avoid: set<Node>, branches: set<Node>, b: Node,
                     lab0: Labels, ghost V0: set<Node>, ghost rk0: Ranks, ghost s: nat, ghost t0: nat)
    returns (lab: Labels, ghost V: set<Node>, ghost rk: Ranks, ghost t: nat)
    requires Labelling(g, src, avoid, branches, [], lab0, V0) && b in branches
    requires Ranked(lab0, rk0) && Settled(rk0, s + 1, t0)
    ensures Labelling(g, src, avoid, branches, [], lab, V) && b in V && V0 <= V
    ensures Ranked(lab, rk) && Settled(rk, s, t)
    ensures Extends(lab0, lab)
  {
    var work;
    StampStart(lab0, rk0, b, s, t0);
    work, lab, rk, t := LabelScan(g, src, avoid, branches, b, [b], lab0, V0, rk0, s, t0);
    V := V0 + {b};
    while |work| > 0
      invariant Labelling(g, src, avoid, branches, work, lab, V) && V0 <= V && b in V
      invariant Stamping(lab, rk, b, s, t, work)
      invariant Extends(lab0, lab)
      decreases |Targets(g.callees) - lab.Keys|, |work|
    {
      ghost var lab1, work1 := lab, work;
      work, lab, rk, t := LabelScan(g, src, avoid, branches, b, work, lab, V, rk, s, t);
      V := V + {work1[0]};
      ExtendsTrans(lab0, lab1, lab);
      Progress(Targets(g.callees), lab1.Keys, lab.Keys, |work1|, |work|);
    }
  }

  /**
   Step 1: one forward sweep per branch, in some order, sharing one record. Every
   recorded entry is a real call edge that avoids `src` and `avoid`, and every
   callee (other than `src` or an avoided node) of a branch or of a recorded node
   is itself recorded. `rk` ranks the recorded nodes so that following the entries
   of one branch always leads back to it.
   */
  method LabelAll(g: Graph, src: Node, avoid: set<Node>, branches: set<Node>) returns (lab: Labels, ghost rk: Ranks)
    requires src !in branches && branches !! avoid
    ensures LabelFacts(g, src, avoid, branches, lab) && Ranked(lab, rk)
    ensures forall v, c {:trigger c in Succ(g.callees, v)} ::
              (v in lab || v in branches) && c in Succ(g.callees, v) && c != src && c !in avoid ==> c in lab
  {
    lab := map[];
    rk := map[];
    ghost var V: set<Node> := {};
    ghost var t: nat := 0;
    var rest := branches;
    while rest != {}
      invariant rest <= branches
      invariant Labelling(g, src, avoid, branches, [], lab, V)
      invariant Ranked(lab, rk) && Settled(rk, |rest|, t)
      invariant branches - rest <= V
      decreases rest
    {
      var b := Pick(rest);
      lab, V, rk, t := LabelBranch(g, src, avoid, branches, b, lab, V, rk, |rest| - 1, t);
      rest := rest - {b};
    }
  }

  // ---------------------------------------------------------------------------
  // Step 2.

  /** The branch a backward walk is committed to, if any. */
  datatype Label = Unlabelled | Branch(b: Node)

  /** A queued backward walk: where it stands, its commitment, and the nodes passed so
      far, `dst` first. */
  datatype Job = Job(callee: Node, tag: Label, path: seq<Node>)

  /** How one backward walk ends. `NoBackEdge` is the `KeyError` a walk raises on
      reaching a node step 1 never recorded; no walk that is still going reaches one. */
  datatype WalkEnd = Arrived(route: seq<Node>) | DeadEnd | NoBackEdge

  /** Whether a walk with this commitment stops at `n` before stepping back from it:
      at `src`, at any branch if uncommitted, at its own branch if committed. */
  predicate StopsAt(src: Node, branches: set<Node>, tag: Label, n: Node)
  {
    n == src || (tag.Unlabelled? && n in branches) || (tag.Branch? && n == tag.b)
  }

  /** A walk committed to `b` stands on `b` or on a node carrying an entry for `b`. */
  ghost predicate Committed(lab: Labels, tag: Label, n: Node)
  {
    tag.Branch? ==> n == tag.b || (n in lab && tag.b in lab[n])
  }

  /** `log` names, in order, the branch each forked walk is committed to. */
  ghost predicate Logged(forks: seq<Job>, log: seq<Node>)
  {
    |forks| == |log| && forall k :: 0 <= k < |forks| ==> forks[k].tag == Branch(log[k])
  }

  lemma LoggedJoin(forks1: seq<Job>, log1: seq<Node>, forks2: seq<Job>, log2: seq<Node>)
    requires Logged(forks1, log1) && Logged(forks2, log2)
    ensures Logged(forks1 + forks2, log1 + log2)
  {
    forall k | 0 <= k < |forks1 + forks2|
      ensures (forks1 + forks2)[k].tag == Branch((log1 + log2)[k])
    {
      if k < |forks1| {
        assert (forks1 + forks2)[k] == forks1[k] && (log1 + log2)[k] == log1[k];
      } else {
        assert (forks1 + forks2)[k] == forks2[k - |forks1|] && (log1 + log2)[k] == log2[k - |log1|];
      }
    }
  }

  /** The rank of a node as a walk's measure; unrecorded nodes rank lowest. */
  ghost function Height(rk: Ranks, n: Node): (h: (nat, nat))
    ensures n in rk ==> h.0 > 0
  {
    if n in rk then (rk[n].0 + 1, rk[n].1) else (0, 0)
  }

  /** One step along the entry for branch `k` keeps a walk's commitment, and either
      stops the walk or goes down in rank. */
  lemma RankStep(src: Node, branches: set<Node>, lab: Labels, rk: Ranks, tag: Label, n: Node, k: Node)
    requires Ranked(lab, rk) && n in lab && k in lab[n] && k in branches
    requires tag.Branch? ==> k == tag.b
    ensures Committed(lab, tag, lab[n][k])
    ensures StopsAt(src, branches, tag, lab[n][k]) || Lower(rk, lab[n][k], n)
  {
  }

  /** The nodes a walk has passed, `dst` first, then back along recorded call edges;
      none of them but `dst` is `src` or avoided, and the last has a record or is a branch. */
  ghost predicate Trailing(g: Graph, src: Node, dst: Node, avoid: set<Node>, branches: set<Node>, lab: Labels,
                           q: seq<Node>)
  {
    && |q| >= 2 && q[0] == dst && Step(g.callers, dst, q[1])
    && (forall i {:trigger q[i]} :: 1 <= i < |q| ==> q[i] !in avoid && q[i] != src)
    && (forall i :: 1 <= i < |q| - 1 ==> Calls(g, q[i + 1], q[i]))
    && (q[|q| - 1] in lab || q[|q| - 1] in branches)
  }

  ghost predicate JobOk(g: Graph, src: Node, dst: Node, avoid: set<Node>, branches: set<Node>, lab: Labels, job: Job)
  {
    && Trailing(g, src, dst, avoid, branches, lab, job.path + [job.callee]) && (job.tag.Branch? ==> job.tag.b in branches)
    && Committed(lab, job.tag, job.callee)
  }

  /** A route `getManyRoutes` promises: from `src` through a branch to a caller of `dst`
      along call edges, then to `dst`, touching neither an avoided node nor `src` again
      in between. */
  ghost predicate BranchPath(g: Graph, src: Node, dst: Node, branches: set<Node>, avoid: set<Node>, p: seq<Node>)
  {
    && |p| >= 3 && p[0] == src && p[|p| - 1] == dst && p[1] in branches
    && (forall i :: 0 <= i < |p| - 2 ==> Calls(g, p[i], p[i + 1]))
    && Step(g.callers, dst, p[|p| - 2])
    && (forall i :: 0 < i < |p| - 1 ==> p[i] !in avoid && p[i] != src)
  }

  /** With the graph's two maps consistent, such a route is a call path. */
  lemma BranchPathIsCallPath(g: Graph, src: Node, dst: Node, branches: set<Node>, avoid: set<Node>, p: seq<Node>)
    requires Consistent(g) && BranchPath(g, src, dst, branches, avoid, p)
    ensures CallPath(g, p)
  {
    assert Step(g.callees, p[|p| - 2], p[|p| - 1]);
  }

  /** Following a recorded caller keeps a walk's nodes well formed. */
  lemma FollowEdge(g: Graph, src: Node, dst: Node, avoid: set<Node>, branches: set<Node>, lab: Labels,
                   q: seq<Node>, b: Node)
    requires LabelFacts(g, src, avoid, branches, lab) && Trailing(g, src, dst, avoid, branches, lab, q)
    requires q[|q| - 1] in lab && b in lab[q[|q| - 1]]
    ensures Trailing(g, src, dst, avoid, branches, lab, q + [lab[q[|q| - 1]][b]])
  {
    var n := q[|q| - 1];
    var p := lab[n][b];
    assert BackEdge(g, src, avoid, branches, lab, n, p);
    var q' := q + [p];
    forall i | 1 <= i < |q'| - 1
      ensures Calls(g, q'[i + 1], q'[i])
    {
      if i < |q| - 1 {
        assert q'[i] == q[i] && q'[i + 1] == q[i + 1];
      }
    }
    forall i | 1 <= i < |q'|
      ensures q'[i] !in avoid && q'[i] != src
    {
      if i < |q| {
        assert q'[i] == q[i];
      }
    }
  }

  /** A walk that stops at a branch gives a promised route once `src` is added and the
      nodes are put in call order. */
  lemma ArrivedPath(g: Graph, src: Node, dst: Node, avoid: set<Node>, branches: set<Node>, lab: Labels,
                    q: seq<Node>)
    requires branches == Branches(g, src, avoid)
    requires Trailing(g, src, dst, avoid, branches, lab, q) && q[|q| - 1] in branches
    ensures q[|q| - 1] != src
    ensures BranchPath(g, src, dst, branches, avoid, Reverse(q + [src]))
  {
    var s := q + [src];
    var p := Reverse(s);
    assert p[0] == src && p[1] == q[|q| - 1] && p[|p| - 1] == dst && p[|p| - 2] == q[1];
    forall i | 0 <= i < |p| - 2
      ensures Calls(g, p[i], p[i + 1])
    {
      var j := |s| - 2 - i;
      assert p[i] == s[j + 1] && p[i + 1] == s[j];
      if i > 0 {
        assert s[j + 1] == q[j + 1] && s[j] == q[j];
      }
    }
    forall i | 0 < i < |p| - 1
      ensures p[i] !in avoid && p[i] != src
    {
      assert p[i] == q[|s| - 1 - i];
    }
  }

  /** Fork bookkeeping: `log` lists, each once, the branches taken out of `todo0`
      to leave `todo`. */
  ghost predicate ForkLog(todo0: set<Node>, todo: set<Node>, log: seq<Node>)
  {
    && todo <= todo0 && |todo| + |log| == |todo0| && NoDup(log)
    && (forall k {:trigger log[k]} :: 0 <= k < |log| ==> log[k] in todo0 && log[k] !in todo)
  }

  lemma ForkLogChain(todo0: set<Node>, todo1: set<Node>, log1: seq<Node>, todo2: set<Node>, log2: seq<Node>)
    requires ForkLog(todo0, todo1, log1) && ForkLog(todo1, todo2, log2)
    ensures ForkLog(todo0, todo2, log1 + log2)
  {
    var log := log1 + log2;
    forall i, j | 0 <= i < j < |log|
      ensures log[i] != log[j]
    {
      if j < |log1| {
        assert log[i] == log1[i] && log[j] == log1[j];
      } else if i >= |log1| {
        assert log[i] == log2[i - |log1|] && log[j] == log2[j - |log1|];
      } else {
        assert log[i] == log1[i] && log[j] == log2[j - |log1|];
      }
    }
    forall k | 0 <= k < |log|
      ensures log[k] in todo0 && log[k] !in todo2
    {
      if k < |log1| {
        assert log[k] == log1[k];
      } else {
        assert log[k] == log2[k - |log1|];
      }
    }
  }

  /** The fork loop at a node where branches meet, for a walk not committed to any:
      one committed walk for each branch recorded at `callee` that is still to do, each
      branch taken off `todo` as it is forked. `path` already ends with `callee`. */
  method Fork(g: Graph, src: Node, dst: Node, avoid: set<Node>, branches: set<Node>, lab: Labels, ghost rk: Ranks,
              callee: Node, path: seq<Node>, todo0: set<Node>)
    returns (forks: seq<Job>, log: seq<Node>, todo: set<Node>)
    requires LabelFacts(g, src, avoid, branches, lab) && Ranked(lab, rk) && Trailing(g, src, dst, avoid, branches, lab, path)
    requires callee in lab && path[|path| - 1] == callee
    ensures ForkLog(todo0, todo, log) && todo == todo0 - lab[callee].Keys
    ensures |forks| == |log| && forall k :: 0 <= k < |forks| ==> JobOk(g, src, dst, avoid, branches, lab, forks[k])
    ensures forall k :: 0 <= k < |forks| ==> log[k] in lab[callee] && forks[k] == Job(lab[callee][log[k]], Branch(log[k]), path)
  {
    var my := lab[callee];
    var rest := my.Keys * todo0;
    forks, log, todo := [], [], todo0;
    while rest != {}
      invariant rest == my.Keys * todo && todo0 - todo <= my.Keys
      invariant ForkLog(todo0, todo, log)
      invariant |forks| == |log| && forall k :: 0 <= k < |forks| ==> JobOk(g, src, dst, avoid, branches, lab, forks[k])
      invariant forall k :: 0 <= k < |forks| ==> log[k] in my && forks[k] == Job(my[log[k]], Branch(log[k]), path)
      decreases rest
    {
      var b := Pick(rest);
      FollowEdge(g, src, dst, avoid, branches, lab, path, b);
      RankStep(src, branches, lab, rk, Branch(b), callee, b);
      ForkLogChain(todo0, todo, log, todo - {b}, [b]);
      forks := forks + [Job(my[b], Branch(b), path)];
      log := log + [b];
      todo := todo - {b};
      rest := rest - {b};
    }
    forall x | x in todo
      ensures x in todo0 && x !in my.Keys
    {
      assert x !in rest;
    }
  }

  /** Where one step of a backward walk leads: on to a caller, or to the end of the walk. */
  datatype Move = Follow(to: Node) | Stop(end: WalkEnd)

  /** The dst caller a job's walk started from. */
  function Origin(job: Job): Node
    requires |job.path| >= 1
  {
    (job.path + [job.callee])[1]
  }

  lemma OneKey<K, V>(m: map<K, V>, k: K, k': K)
    requires |m.Keys| == 1 && k in m && k' in m
    ensures k == k'
  {
    if k != k' {
      assert {k, k'} <= m.Keys;
      assert |{k, k'}| == 2;
      SubsetSize({k, k'}, m.Keys);
    }
  }

  lemma SubsetSize<T>(a: set<T>, b: set<T>)
    requires a <= b
    ensures |a| <= |b|
  {
    assert b == a + (b - a);
  }

  /** A non-empty map's keys make any set holding them non-empty. */
  lemma KeysWithin<K, V>(m: map<K, V>, s: set<K>)
    requires m != map[] && m.Keys <= s
    ensures s != {}
  {
    var k :| k in m.Keys;
  }

  /** A subset as large as the whole is the whole. */
  lemma SubsetSame<T>(a: set<T>, b: set<T>)
    requires a <= b && |a| == |b|
    ensures a == b
  {
    if b - a != {} {
      var x :| x in b - a;
      SubsetSize(a, b - {x});
    }
  }

  /** One step back from `callee`, the last node of `path` (already appended): the single
      recorded caller if there is only one; for a committed walk the caller recorded for
      its branch, or a dead end; otherwise fork a committed walk for every recorded branch
      still to do, then go on, uncommitted, to some recorded caller unless nothing is
      left to do. A walk that has not stopped at `callee` always finds it recorded, and
      when committed, always finds its branch's entry there. */
  method StepBack(g: Graph, src: Node, dst: Node, avoid: set<Node>, branches: set<Node>, lab: Labels, ghost rk: Ranks,
                  tag: Label, path: seq<Node>, callee: Node, todo0: set<Node>)
    returns (move: Move, forks: seq<Job>, log: seq<Node>, todo: set<Node>)
    requires LabelFacts(g, src, avoid, branches, lab) && Ranked(lab, rk)
    requires Trailing(g, src, dst, avoid, branches, lab, path) && path[|path| - 1] == callee
    requires (tag.Branch? ==> tag.b in branches) && Committed(lab, tag, callee)
    ensures move == Stop(NoBackEdge) <==> callee !in lab
    ensures move.Stop? ==> move.end == DeadEnd || move.end == NoBackEdge
    ensures callee in lab && |lab[callee].Keys| == 1 ==> move.Follow? && move.to in lab[callee].Values
    ensures callee in lab && |lab[callee].Keys| != 1 && tag.Branch? ==>
              move == if tag.b in lab[callee] then Follow(lab[callee][tag.b]) else Stop(DeadEnd)
    ensures callee in lab && |lab[callee].Keys| != 1 && tag.Unlabelled? ==>
              todo == todo0 - lab[callee].Keys && (move.Follow? <==> todo != {}) &&
              (move.Follow? ==> move.to in lab[callee].Values)
    ensures move.Follow? ==> Trailing(g, src, dst, avoid, branches, lab, path + [move.to])
    ensures !StopsAt(src, branches, tag, callee) ==> move != Stop(NoBackEdge) && (tag.Branch? ==> move.Follow?)
    ensures !StopsAt(src, branches, tag, callee) && move.Follow? ==>
              Committed(lab, tag, move.to) && (StopsAt(src, branches, tag, move.to) || Lower(rk, move.to, callee))
    ensures ForkLog(todo0, todo, log) && Logged(forks, log)
    ensures forall k :: 0 <= k < |forks| ==> JobOk(g, src, dst, avoid, branches, lab, forks[k]) && Origin(forks[k]) == path[1]
    ensures tag.Branch? ==> forks == [] && todo == todo0
    ensures move == Stop(DeadEnd) && tag.Unlabelled? ==> todo == {}
  {
    forks, log, todo := [], [], todo0;
    ForkLogChain(todo0, todo0, [], todo0, []);
    if callee !in lab {
      return Stop(NoBackEdge), forks, log, todo;
    }
    var my := lab[callee];
    if |my.Keys| == 1 {
      var k := Pick(my.Keys);
      FollowEdge(g, src, dst, avoid, branches, lab, path, k);
      if tag.Branch? && callee != tag.b {
        OneKey(my, k, tag.b);
      }
      if tag.Unlabelled? || callee != tag.b {
        RankStep(src, branches, lab, rk, tag, callee, k);
      }
      move := Follow(my[k]);
    } else if tag.Branch? {
      if tag.b in my {
        FollowEdge(g, src, dst, avoid, branches, lab, path, tag.b);
        RankStep(src, branches, lab, rk, tag, callee, tag.b);
        move := Follow(my[tag.b]);
      } else {
        move := Stop(DeadEnd);
      }
    } else {
      forks, log, todo := Fork(g, src, dst, avoid, branches, lab, rk, callee, path, todo0);
      forall k | 0 <= k < |forks|
        ensures Origin(forks[k]) == path[1] && forks[k].tag == Branch(log[k])
      {
        assert forks[k].path == path;
      }
      if todo != {} {
        assert my != map[];
        var k := Pick(my.Keys);
        FollowEdge(g, src, dst, avoid, branches, lab, path, k);
        RankStep(src, branches, lab, rk, tag, callee, k);
        move := Follow(my[k]);
      } else {
        move := Stop(DeadEnd);
      }
    }
  }

  /** One backward walk, from a queued job until it reaches a branch it may stop at (any
      branch for an uncommitted walk, its own for a committed one) or dies. It never meets
      a node without a record, and a committed walk always arrives. */
  method RunWalk(g: Graph, src: Node, dst: Node, avoid: set<Node>, branches: set<Node>, lab: Labels, ghost rk: Ranks,
                 job: Job, todo0: set<Node>)
    returns (end: WalkEnd, forks: seq<Job>, log: seq<Node>, todo: set<Node>)
    requires branches == Branches(g, src, avoid) && LabelFacts(g, src, avoid, branches, lab) && Ranked(lab, rk)
    requires JobOk(g, src, dst, avoid, branches, lab, job)
    ensures end != NoBackEdge && (job.tag.Branch? ==> end.Arrived?)
    ensures end == DeadEnd ==> todo == {}
    ensures end.Arrived? ==> BranchPath(g, src, dst, branches, avoid, end.route)
    ensures end.Arrived? ==> end.route[|end.route| - 2] == Origin(job)
    ensures end.Arrived? && job.tag.Branch? ==> end.route[1] == job.tag.b
    ensures job.tag.Unlabelled? && job.callee in branches ==>
              end == Arrived(Reverse(job.path + [job.callee, src])) && forks == [] && log == [] && todo == todo0
    ensures ForkLog(todo0, todo, log) && Logged(forks, log)
    ensures forall k :: 0 <= k < |forks| ==> JobOk(g, src, dst, avoid, branches, lab, forks[k]) && Origin(forks[k]) == Origin(job)
    ensures job.tag.Branch? ==> forks == [] && todo == todo0
  {
    if StopsAt(src, branches, job.tag, job.callee) {
      // The walk stops before its first step; `callee` is a branch, never `src`.
      ForkLogChain(todo0, todo0, [], todo0, []);
      ArrivedPath(g, src, dst, avoid, branches, lab, job.path + [job.callee]);
      assert job.path + [job.callee] + [src] == job.path + [job.callee, src];
      return Arrived(Reverse(job.path + [job.callee, src])), [], [], todo0;
    }
    end, forks, log, todo := WalkOn(g, src, dst, avoid, branches, lab, rk, job, todo0);
  }

  /** The state of a backward walk: where it stands, the nodes passed, the walks it forked
      (with their branches, in order), and the branches still to do. */
  datatype Walker = Walker(callee: Node, path: seq<Node>, forks: seq<Job>, log: seq<Node>, todo: set<Node>)

  ghost predicate WalkerOk(g: Graph, src: Node, dst: Node, avoid: set<Node>, branches: set<Node>, lab: Labels,
                           job: Job, todo0: set<Node>, w: Walker)
  {
    && |job.path| >= 1 && Trailing(g, src, dst, avoid, branches, lab, w.path + [w.callee]) && w.path[0] == dst
    && (w.path + [w.callee])[1] == Origin(job) && (job.tag.Branch? ==> job.tag.b in branches)
    && Committed(lab, job.tag, w.callee)
    && ForkLog(todo0, w.todo, w.log) && Logged(w.forks, w.log)
    && (forall k :: 0 <= k < |w.forks| ==> JobOk(g, src, dst, avoid, branches, lab, w.forks[k]) && Origin(w.forks[k]) == Origin(job))
    && (job.tag.Branch? ==> w.forks == [] && w.todo == todo0)
  }

  /** One step back of a walk that has not stopped: it dies only if uncommitted, and
      otherwise stops at its next node or goes down in rank. */
  method Stride(g: Graph, src: Node, dst: Node, avoid: set<Node>, branches: set<Node>, lab: Labels, ghost rk: Ranks,
                job: Job, todo0: set<Node>, w: Walker)
    returns (w': Walker, stop: Move)
    requires LabelFacts(g, src, avoid, branches, lab) && Ranked(lab, rk)
    requires WalkerOk(g, src, dst, avoid, branches, lab, job, todo0, w) && !StopsAt(src, branches, job.tag, w.callee)
    ensures WalkerOk(g, src, dst, avoid, branches, lab, job, todo0, w')
    ensures stop.Stop? ==> stop.end == DeadEnd && job.tag.Unlabelled? && w'.todo == {}
    ensures stop.Follow? ==>
              w'.callee == stop.to && (StopsAt(src, branches, job.tag, w'.callee) || Lower(rk, w'.callee, w.callee))
  {
    var path := w.path + [w.callee];
    var move, more, l, t := StepBack(g, src, dst, avoid, branches, lab, rk, job.tag, path, w.callee, w.todo);
    ForkLogChain(todo0, w.todo, w.log, t, l);
    LoggedJoin(w.forks, w.log, more, l);
    w' := w.(path := path, forks := w.forks + more, log := w.log + l, todo := t);
    match move {
      case Stop(e) =>
        // The walk ends here; its nodes are of no further use.
        stop := move;
        w' := w'.(path := w.path);
      case Follow(c) =>
        stop := move;
        w' := w'.(callee := c);
    }
  }

  /** A walk that reaches a node it stops at has found a promised route. */
  lemma WalkArrives(g: Graph, src: Node, dst: Node, avoid: set<Node>, branches: set<Node>, lab: Labels,
                    job: Job, todo0: set<Node>, w: Walker)
    requires branches == Branches(g, src, avoid)
    requires WalkerOk(g, src, dst, avoid, branches, lab, job, todo0, w) && StopsAt(src, branches, job.tag, w.callee)
    ensures BranchPath(g, src, dst, branches, avoid, Reverse(w.path + [w.callee] + [src]))
    ensures Reverse(w.path + [w.callee] + [src])[|w.path|] == Origin(job)
    ensures job.tag.Branch? ==> Reverse(w.path + [w.callee] + [src])[1] == job.tag.b
  {
    var q := w.path + [w.callee];
    assert q[|q| - 1] == w.callee;
    ArrivedPath(g, src, dst, avoid, branches, lab, q);
  }

  /** The loop of a backward walk: stop at `src` or at a branch the walk may stop at,
      otherwise take one step back. Each step goes down in rank, so the loop ends. */
  method WalkOn(g: Graph, src: Node, dst: Node, avoid: set<Node>, branches: set<Node>, lab: Labels, ghost rk: Ranks,
                job: Job, todo0: set<Node>)
    returns (end: WalkEnd, forks: seq<Job>, log: seq<Node>, todo: set<Node>)
    requires branches == Branches(g, src, avoid) && LabelFacts(g, src, avoid, branches, lab) && Ranked(lab, rk)
    requires JobOk(g, src, dst, avoid, branches, lab, job) && !StopsAt(src, branches, job.tag, job.callee)
    ensures end != NoBackEdge && (job.tag.Branch? ==> end.Arrived?)
    ensures end == DeadEnd ==> todo == {}
    ensures end.Arrived? ==> BranchPath(g, src, dst, branches, avoid, end.route)
    ensures end.Arrived? ==> end.route[|end.route| - 2] == Origin(job)
    ensures end.Arrived? && job.tag.Branch? ==> end.route[1] == job.tag.b
    ensures ForkLog(todo0, todo, log) && Logged(forks, log)
    ensures forall k :: 0 <= k < |forks| ==> JobOk(g, src, dst, avoid, branches, lab, forks[k]) && Origin(forks[k]) == Origin(job)
    ensures job.tag.Branch? ==> forks == [] && todo == todo0
  {
    var w, stop := Steps(g, src, dst, avoid, branches, lab, rk, job, todo0);
    if stop.Stop? {
      return stop.end, w.forks, w.log, w.todo;
    }
    // `callee` is a branch here, never `src`, so `src` is always appended.
    var q := w.path + [w.callee];
    WalkArrives(g, src, dst, avoid, branches, lab, job, todo0, w);
    end, forks, log, todo := Arrived(Reverse(q + [src])), w.forks, w.log, w.todo;
  }

  /** The steps of a backward walk, until it dies or reaches a node it stops at. */
  method Steps(g: Graph, src: Node, dst: Node, avoid: set<Node>, branches: set<Node>, lab: Labels, ghost rk: Ranks,
               job: Job, todo0: set<Node>)
    returns (w: Walker, stop: Move)
    requires LabelFacts(g, src, avoid, branches, lab) && Ranked(lab, rk)
    requires JobOk(g, src, dst, avoid, branches, lab, job) && !StopsAt(src, branches, job.tag, job.callee)
    ensures WalkerOk(g, src, dst, avoid, branches, lab, job, todo0, w)
    ensures stop.Stop? ==> stop.end == DeadEnd && job.tag.Unlabelled? && w.todo == {}
    ensures stop.Follow? ==> StopsAt(src, branches, job.tag, w.callee)
  {
    w := Walker(job.callee, job.path, [], [], todo0);
    ForkLogChain(todo0, todo0, [], todo0, []);
    while true
      invariant WalkerOk(g, src, dst, avoid, branches, lab, job, todo0, w) && !StopsAt(src, branches, job.tag, w.callee)
      decreases Height(rk, w.callee).0, Height(rk, w.callee).1
    {
      var w';
      w', stop := Stride(g, src, dst, avoid, branches, lab, rk, job, todo0, w);
      if stop.Stop? || StopsAt(src, branches, job.tag, w'.callee) {
        w := w';
        break;
      }
      w := w';
    }
  }

  /** Every route found ends with a step from `dc` to `dst`. */
  ghost predicate RoutesVia(g: Graph, src: Node, dst: Node, branches: set<Node>, avoid: set<Node>,
                            dc: Node, paths: seq<seq<Node>>)
  {
    forall i :: 0 <= i < |paths| ==> BranchPath(g, src, dst, branches, avoid, paths[i]) && paths[i][|paths[i]| - 2] == dc
  }

  /** Queued walks, each well formed and started from `dc`. */
  ghost predicate Queue(g: Graph, src: Node, dst: Node, avoid: set<Node>, branches: set<Node>, lab: Labels,
                        dc: Node, work: seq<Job>)
  {
    forall i :: 0 <= i < |work| ==> JobOk(g, src, dst, avoid, branches, lab, work[i]) && Origin(work[i]) == dc
  }

  lemma QueueJoin(g: Graph, src: Node, dst: Node, avoid: set<Node>, branches: set<Node>, lab: Labels,
                  dc: Node, work: seq<Job>, forks: seq<Job>)
    requires work != [] && Queue(g, src, dst, avoid, branches, lab, dc, work)
    requires forall k :: 0 <= k < |forks| ==> JobOk(g, src, dst, avoid, branches, lab, forks[k]) && Origin(forks[k]) == dc
    ensures Queue(g, src, dst, avoid, branches, lab, dc, work[1..] + forks)
  {
    var w := work[1..] + forks;
    forall i | 0 <= i < |w|
      ensures JobOk(g, src, dst, avoid, branches, lab, w[i]) && Origin(w[i]) == dc
    {
      if i < |work| - 1 {
        assert w[i] == work[i + 1];
      } else {
        assert w[i] == forks[i - |work| + 1];
      }
    }
  }

  /** Some route found goes through branch `b`. */
  ghost predicate Through(paths: seq<seq<Node>>, b: Node)
  {
    exists j :: 0 <= j < |paths| && |paths[j]| > 1 && paths[j][1] == b
  }

  /** Some queued walk is committed to branch `b`. */
  ghost predicate Queued(work: seq<Job>, b: Node)
  {
    exists i :: 0 <= i < |work| && work[i].tag == Branch(b)
  }

  /** No route found means no route through any branch. */
  lemma ThroughNone(b: Node)
    ensures !Through([], b)
  {
  }

  lemma ThroughAppend(a: seq<seq<Node>>, c: seq<seq<Node>>, b: Node)
    requires Through(a, b) || Through(c, b)
    ensures Through(a + c, b)
  {
    if Through(a, b) {
      var j :| 0 <= j < |a| && |a[j]| > 1 && a[j][1] == b;
      assert (a + c)[j] == a[j];
    } else {
      var j :| 0 <= j < |c| && |c[j]| > 1 && c[j][1] == b;
      assert (a + c)[|a| + j] == c[j];
    }
  }

  /** After one job is taken: every forked branch is still queued or has a route, given
      that the taken job's branch, if any, has one. */
  lemma Covering(work: seq<Job>, paths: seq<seq<Node>>, log: seq<Node>, forks: seq<Job>, l: seq<Node>,
                 paths': seq<seq<Node>>)
    requires work != [] && Logged(forks, l) && paths <= paths'
    requires forall k :: 0 <= k < |log| ==> Queued(work, log[k]) || Through(paths, log[k])
    requires work[0].tag.Branch? ==> Through(paths', work[0].tag.b)
    ensures forall k :: 0 <= k < |log + l| ==> Queued(work[1..] + forks, (log + l)[k]) || Through(paths', (log + l)[k])
  {
    var w := work[1..] + forks;
    forall k | 0 <= k < |log + l|
      ensures Queued(w, (log + l)[k]) || Through(paths', (log + l)[k])
    {
      var b := (log + l)[k];
      if k < |log| {
        assert b == log[k];
        if Through(paths, b) {
          var j :| 0 <= j < |paths| && |paths[j]| > 1 && paths[j][1] == b;
          assert paths'[j] == paths[j];
        } else {
          var i :| 0 <= i < |work| && work[i].tag == Branch(b);
          if i > 0 {
            assert w[i - 1] == work[i];
          }
        }
      } else {
        var i := k - |log|;
        assert b == l[i] && w[|work| - 1 + i] == forks[i];
      }
    }
  }

  /** After one job is taken: every queued committed walk was still forked from here. */
  lemma Retag(work: seq<Job>, log: seq<Node>, forks: seq<Job>, l: seq<Node>)
    requires work != [] && Logged(forks, l)
    requires forall i :: 0 <= i < |work| && work[i].tag.Branch? ==> work[i].tag.b in log
    ensures forall i :: 0 <= i < |work[1..] + forks| && (work[1..] + forks)[i].tag.Branch? ==>
              (work[1..] + forks)[i].tag.b in log + l
  {
    var w := work[1..] + forks;
    forall i | 0 <= i < |w| && w[i].tag.Branch?
      ensures w[i].tag.b in log + l
    {
      if i < |work| - 1 {
        assert w[i] == work[i + 1];
      } else {
        var k := i - |work| + 1;
        assert w[i] == forks[k] && (log + l)[|log| + k] == l[k];
      }
    }
  }

  /** A route kept stays kept as routes are added. */
  lemma DoneKept(done: set<Node>, paths: seq<seq<Node>>, paths': seq<seq<Node>>)
    requires paths <= paths' && forall b :: b in done ==> Through(paths, b)
    ensures forall b :: b in done ==> Through(paths', b)
  {
    forall b | b in done
      ensures Through(paths', b)
    {
      var j :| 0 <= j < |paths| && |paths[j]| > 1 && paths[j][1] == b;
      assert paths'[j] == paths[j];
    }
  }

  /** The state of the walks from one dst caller: the queue, the branches that already
      produced a route, the routes, and the forked branches and those still to do. */
  datatype Pending = Pending(work: seq<Job>, done: set<Node>, paths: seq<seq<Node>>, log: seq<Node>, todo: set<Node>)

  /** Every queued committed walk was forked from here, every branch done has a route, and
      every branch forked is still queued or has a route. */
  ghost predicate DrainOk(g: Graph, src: Node, dst: Node, avoid: set<Node>, branches: set<Node>, lab: Labels,
                          dc: Node, todo0: set<Node>, st: Pending)
  {
    && Queue(g, src, dst, avoid, branches, lab, dc, st.work)
    && ForkLog(todo0, st.todo, st.log)
    && RoutesVia(g, src, dst, branches, avoid, dc, st.paths)
    && (forall i :: 0 <= i < |st.work| && st.work[i].tag.Branch? ==> st.work[i].tag.b in st.log)
    && (forall b :: b in st.done ==> Through(st.paths, b))
    && (forall k :: 0 <= k < |st.log| ==> Queued(st.work, st.log[k]) || Through(st.paths, st.log[k]))
  }

  /** The walks from `dc` start with one uncommitted walk, nothing forked or found yet. */
  lemma DrainStart(g: Graph, src: Node, dst: Node, avoid: set<Node>, branches: set<Node>, lab: Labels,
                   dc: Node, todo0: set<Node>)
    requires LabelFacts(g, src, avoid, branches, lab)
    requires Step(g.callers, dst, dc) && (dc in lab || dc in branches) && dc !in avoid
    ensures DrainOk(g, src, dst, avoid, branches, lab, dc, todo0, Pending([Job(dc, Unlabelled, [dst])], {}, [], [], todo0))
  {
    var start := Job(dc, Unlabelled, [dst]);
    if dc in lab {
      assert lab[dc] != map[];
    }
    assert Trailing(g, src, dst, avoid, branches, lab, [dst, dc]);
    assert start.path + [start.callee] == [dst, dc];
    assert JobOk(g, src, dst, avoid, branches, lab, start) && Origin(start) == dc;
    ForkLogChain(todo0, todo0, [], todo0, []);
  }

  /** With the queue empty, every forked branch has a route. */
  lemma DrainEnd(g: Graph, src: Node, dst: Node, avoid: set<Node>, branches: set<Node>, lab: Labels,
                 dc: Node, todo0: set<Node>, st: Pending)
    requires DrainOk(g, src, dst, avoid, branches, lab, dc, todo0, st) && st.work == []
    ensures forall k :: 0 <= k < |st.log| ==> Through(st.paths, st.log[k])
  {
  }

  /** Takes the first queued walk: skipped if its branch already produced a route, else
      run; its forks are queued behind the rest, and a route it finds is kept. */
  method TakeJob(g: Graph, src: Node, dst: Node, avoid: set<Node>, branches: set<Node>, lab: Labels, ghost rk: Ranks,
                 dc: Node, todo0: set<Node>, st: Pending)
    returns (st': Pending, forks: seq<Job>, l: seq<Node>)
    requires branches == Branches(g, src, avoid) && LabelFacts(g, src, avoid, branches, lab) && Ranked(lab, rk)
    requires st.work != [] && DrainOk(g, src, dst, avoid, branches, lab, dc, todo0, st)
    ensures DrainOk(g, src, dst, avoid, branches, lab, dc, todo0, st')
    ensures |st'.todo| + |st'.work| < |st.todo| + |st.work|
    ensures st'.work == st.work[1..] + forks && st'.log == st.log + l && Logged(forks, l)
    ensures st.paths <= st'.paths && st'.todo <= st.todo
    ensures st.work[0].tag.Unlabelled? ==> |st'.paths| == |st.paths| + 1 || st'.todo == {}
    ensures st.work[0].tag.Branch? && st.work[0].tag.b in st.done ==> st' == st.(work := st.work[1..])
    ensures st.work[0].tag.Branch? && st.work[0].tag.b !in st.done ==>
              st'.done == st.done + {st.work[0].tag.b} && |st'.paths| == |st.paths| + 1 &&
              st'.paths[|st.paths|][1] == st.work[0].tag.b
    ensures st.work[0].tag.Unlabelled? && st.work[0].callee in branches ==>
              st' == st.(work := st.work[1..], paths := st.paths + [Reverse(st.work[0].path + [st.work[0].callee, src])])
  {
    var job := st.work[0];
    if job.tag.Branch? && job.tag.b in st.done {
      QueueJoin(g, src, dst, avoid, branches, lab, dc, st.work, []);
      Covering(st.work, st.paths, st.log, [], [], st.paths);
      Retag(st.work, st.log, [], []);
      assert st.work[1..] + [] == st.work[1..] && st.log + [] == st.log;
      st', forks, l := st.(work := st.work[1..]), [], [];
    } else {
      st', forks, l := RunJob(g, src, dst, avoid, branches, lab, rk, dc, todo0, st);
    }
  }

  /** The run half of `TakeJob`, for a first queued walk that is not skipped. */
  method RunJob(g: Graph, src: Node, dst: Node, avoid: set<Node>, branches: set<Node>, lab: Labels, ghost rk: Ranks,
                dc: Node, todo0: set<Node>, st: Pending)
    returns (st': Pending, forks: seq<Job>, l: seq<Node>)
    requires branches == Branches(g, src, avoid) && LabelFacts(g, src, avoid, branches, lab) && Ranked(lab, rk)
    requires st.work != [] && DrainOk(g, src, dst, avoid, branches, lab, dc, todo0, st)
    requires !(st.work[0].tag.Branch? && st.work[0].tag.b in st.done)
    ensures DrainOk(g, src, dst, avoid, branches, lab, dc, todo0, st')
    ensures |st'.todo| + |st'.work| < |st.todo| + |st.work|
    ensures st'.work == st.work[1..] + forks && st'.log == st.log + l && Logged(forks, l)
    ensures st.paths <= st'.paths && st'.todo <= st.todo
    ensures st.work[0].tag.Unlabelled? ==> |st'.paths| == |st.paths| + 1 || st'.todo == {}
    ensures st.work[0].tag.Branch? ==>
              st'.done == st.done + {st.work[0].tag.b} && |st'.paths| == |st.paths| + 1 &&
              st'.paths[|st.paths|][1] == st.work[0].tag.b
    ensures st.work[0].tag.Unlabelled? && st.work[0].callee in branches ==>
              st' == st.(work := st.work[1..], paths := st.paths + [Reverse(st.work[0].path + [st.work[0].callee, src])])
  {
    var job := st.work[0];
    var end, todo;
    end, forks, l, todo := RunWalk(g, src, dst, avoid, branches, lab, rk, job, st.todo);
    ForkLogChain(todo0, st.todo, st.log, todo, l);
    QueueJoin(g, src, dst, avoid, branches, lab, dc, st.work, forks);
    var paths, done := st.paths, st.done;
    if end.Arrived? {
      paths := st.paths + [end.route];
      assert paths[|st.paths|] == end.route;
      if job.tag.Branch? {
        done := st.done + {job.tag.b};
      }
    }
    assert st.paths <= paths;
    if job.tag.Branch? {
      assert Through(paths, job.tag.b) by {
        assert paths[|st.paths|] == end.route;
      }
    }
    Covering(st.work, st.paths, st.log, forks, l, paths);
    Retag(st.work, st.log, forks, l);
    DoneKept(st.done, st.paths, paths);
    st' := Pending(st.work[1..] + forks, done, paths, st.log + l, todo);
    assert forks == [] && l == [] ==> st.work[1..] + forks == st.work[1..] && st.log + l == st.log;
  }

  /** The walks started from one dst caller `dc`: the uncommitted walk from `dc`, then every
      walk forked along the way, skipping those whose branch already produced a route. Every
      branch forked here ends up with a route through it. */
  method Drain(g: Graph, src: Node, dst: Node, avoid: set<Node>, branches: set<Node>, lab: Labels, ghost rk: Ranks,
               dc: Node, todo0: set<Node>)
    returns (paths: seq<seq<Node>>, log: seq<Node>, todo: set<Node>)
    requires branches == Branches(g, src, avoid) && LabelFacts(g, src, avoid, branches, lab) && Ranked(lab, rk)
    requires Step(g.callers, dst, dc) && (dc in lab || dc in branches) && dc !in avoid
    ensures ForkLog(todo0, todo, log)
    ensures RoutesVia(g, src, dst, branches, avoid, dc, paths)
    ensures forall k :: 0 <= k < |log| ==> Through(paths, log[k])
    ensures dc in branches ==> paths == [[src, dc, dst]] && todo == todo0
    ensures todo0 != {} ==> paths != []
    ensures paths == [] ==> log == [] && todo == todo0
  {
    var start := Job(dc, Unlabelled, [dst]);
    assert Reverse(start.path + [start.callee, src]) == [src, dc, dst];
    var st := Pending([start], {}, [], [], todo0);
    DrainStart(g, src, dst, avoid, branches, lab, dc, todo0);
    while st.work != []
      invariant DrainOk(g, src, dst, avoid, branches, lab, dc, todo0, st)
      invariant dc in branches ==> ((st.work == [start] && st.paths == []) || (st.work == [] && st.paths == [[src, dc, dst]])) && st.todo == todo0
      invariant (st.work == [start] && st.paths == [] && st.todo == todo0) || st.paths != [] || st.todo == {}
      decreases |st.todo| + |st.work|
    {
      var forks, l;
      st, forks, l := TakeJob(g, src, dst, avoid, branches, lab, rk, dc, todo0, st);
    }
    DrainEnd(g, src, dst, avoid, branches, lab, dc, todo0, st);
    paths, log, todo := st.paths, st.log, st.todo;
    if paths == [] {
      // Every forked branch has a route, so none was forked.
      if log != [] {
        ThroughNone(log[0]);
        assert false;
      }
      SubsetSame(todo, todo0);
    }
  }

  /** Routes gathered from two dst callers cover the branches forked from either. */
  lemma Gather(paths: seq<seq<Node>>, ps: seq<seq<Node>>, log: seq<Node>, l: seq<Node>)
    requires forall k :: 0 <= k < |log| ==> Through(paths, log[k])
    requires forall k :: 0 <= k < |l| ==> Through(ps, l[k])
    ensures forall k :: 0 <= k < |log + l| ==> Through(paths + ps, (log + l)[k])
  {
    forall k | 0 <= k < |log + l|
      ensures Through(paths + ps, (log + l)[k])
    {
      if k < |log| {
        assert (log + l)[k] == log[k];
      } else {
        assert (log + l)[k] == l[k - |log|];
      }
      ThroughAppend(paths, ps, (log + l)[k]);
    }
  }

  /** A caller of `dst` that step 2 walks back from: not avoided, and recorded or a branch. */
  ghost predicate WalkStart(g: Graph, dst: Node, avoid: set<Node>, branches: set<Node>, lab: Labels, c: Node)
  {
    Step(g.callers, dst, c) && c !in avoid && (c in lab || c in branches)
  }

  /** A node recorded by step 1 is recorded for some branch, so there is one. */
  lemma RecordedBranch(g: Graph, src: Node, avoid: set<Node>, branches: set<Node>, lab: Labels, n: Node)
    requires LabelFacts(g, src, avoid, branches, lab)
    ensures n in lab ==> branches != {}
  {
    if n in lab {
      forall b | b in lab[n]
        ensures b in branches
      {
        assert BackEdge(g, src, avoid, branches, lab, n, lab[n][b]);
      }
      KeysWithin(lab[n], branches);
    }
  }

  /** What step 2 has gathered so far: routes of the promised kind, each branch forked at
      most once and with a route through it, and nothing forked while no route is found. */
  ghost predicate Gathered(g: Graph, src: Node, dst: Node, avoid: set<Node>, branches: set<Node>,
                           paths: seq<seq<Node>>, log: seq<Node>, todo: set<Node>)
  {
    && ForkLog(branches, todo, log)
    && (forall i :: 0 <= i < |paths| ==> BranchPath(g, src, dst, branches, avoid, paths[i]))
    && (forall k :: 0 <= k < |log| ==> Through(paths, log[k]))
    && (paths == [] ==> todo == branches)
  }

  /** The walks from one caller `dc` of `dst`, skipped unless step 1 reached `dc` (or it
      is a branch) and it is not avoided. Once a caller is walked from, some route has
      been found: the first one walked from has every branch still to do. */
  method FromCaller(g: Graph, src: Node, dst: Node, avoid: set<Node>, branches: set<Node>, lab: Labels, ghost rk: Ranks,
                    dc: Node, ghost paths: seq<seq<Node>>, ghost log: seq<Node>, todo: set<Node>)
    returns (ps: seq<seq<Node>>, l: seq<Node>, t: set<Node>)
    requires branches == Branches(g, src, avoid) && LabelFacts(g, src, avoid, branches, lab) && Ranked(lab, rk)
    requires Step(g.callers, dst, dc) && Gathered(g, src, dst, avoid, branches, paths, log, todo)
    ensures Gathered(g, src, dst, avoid, branches, paths + ps, log + l, t)
    ensures dc in branches && dc !in avoid ==> ps == [[src, dc, dst]]
    ensures WalkStart(g, dst, avoid, branches, lab, dc) ==> paths + ps != []
    ensures !WalkStart(g, dst, avoid, branches, lab, dc) ==> ps == [] && l == [] && t == todo
  {
    if (dc !in lab && dc !in branches) || dc in avoid {
      assert paths + [] == paths && log + [] == log;
      return [], [], todo;
    }
    RecordedBranch(g, src, avoid, branches, lab, dc);
    ps, l, t := Drain(g, src, dst, avoid, branches, lab, rk, dc, todo);
    ForkLogChain(branches, todo, log, t, l);
    Gather(paths, ps, log, l);
  }

  /** Every node after `src` on a promised route, up to the caller of `dst`, was recorded
      by step 1 or is a branch. */
  lemma {:induction false} OnRecord(g: Graph, src: Node, dst: Node, avoid: set<Node>, branches: set<Node>, lab: Labels,
                                    p: seq<Node>, i: nat)
    requires forall v, c {:trigger c in Succ(g.callees, v)} ::
               (v in lab || v in branches) && c in Succ(g.callees, v) && c != src && c !in avoid ==> c in lab
    requires BranchPath(g, src, dst, branches, avoid, p) && 1 <= i <= |p| - 2
    ensures p[i] in lab || p[i] in branches
    decreases i
  {
    if i > 1 {
      OnRecord(g, src, dst, avoid, branches, lab, p, i - 1);
      assert Calls(g, p[i - 1], p[i]);
      assert p[i] in Succ(g.callees, p[i - 1]);
    }
  }

  /** A promised route leaves `dst` through a caller that step 2 walks back from. */
  lemma PathStartsWalk(g: Graph, src: Node, dst: Node, avoid: set<Node>, branches: set<Node>, lab: Labels, p: seq<Node>)
    requires forall v, c {:trigger c in Succ(g.callees, v)} ::
               (v in lab || v in branches) && c in Succ(g.callees, v) && c != src && c !in avoid ==> c in lab
    requires BranchPath(g, src, dst, branches, avoid, p)
    ensures WalkStart(g, dst, avoid, branches, lab, p[|p| - 2])
  {
    OnRecord(g, src, dst, avoid, branches, lab, p, |p| - 2);
  }

  /** Step 2 of `getManyRoutes`: the walks back from each caller of `dst` that step 1
      reached (or that is a branch) and that is not avoided. `log` lists the forked
      branches. Some route is found whenever there is a caller to walk back from. */
  method WalkBack(g: Graph, src: Node, dst: Node, avoid: set<Node>, branches: set<Node>, lab: Labels, ghost rk: Ranks)
    returns (paths: seq<seq<Node>>, log: seq<Node>)
    requires branches == Branches(g, src, avoid) && LabelFacts(g, src, avoid, branches, lab) && Ranked(lab, rk)
    ensures NoDup(log) && forall k :: 0 <= k < |log| ==> log[k] in branches
    ensures forall i :: 0 <= i < |paths| ==> BranchPath(g, src, dst, branches, avoid, paths[i])
    ensures forall b :: b in branches && Step(g.callers, dst, b) ==> [src, b, dst] in paths
    ensures forall k :: 0 <= k < |log| ==> Through(paths, log[k])
    ensures (exists c :: WalkStart(g, dst, avoid, branches, lab, c)) ==> paths != []
  {
    var rest := Succ(g.callers, dst);
    var todo := branches;
    paths, log := [], [];
    ForkLogChain(branches, branches, [], branches, []);
    while rest != {}
      invariant rest <= Succ(g.callers, dst) && Gathered(g, src, dst, avoid, branches, paths, log, todo)
      invariant forall b :: b in branches && Step(g.callers, dst, b) && b !in rest ==> [src, b, dst] in paths
      invariant forall c :: WalkStart(g, dst, avoid, branches, lab, c) && c !in rest ==> paths != []
      decreases rest
    {
      var dc := Pick(rest);
      rest := rest - {dc};
      var ps, l, t := FromCaller(g, src, dst, avoid, branches, lab, rk, dc, paths, log, todo);
      paths, log, todo := paths + ps, log + l, t;
    }
  }

  /** `getManyRoutes`: routes from `src` to `dst`, each leaving `src` through a branch.
      Every branch forked off has a route through it, every branch calling `dst` directly
      gives its own route, and some route is found whenever one exists. */
  method GetManyRoutes(g: Graph, src: Node, dst: Node, avoid: set<Node>)
    returns (paths: seq<seq<Node>>, forked: seq<Node>)
    ensures src == dst ==> paths == [[src]] && forked == []
    ensures src != dst ==>
      forall i :: 0 <= i < |paths| ==> BranchPath(g, src, dst, Branches(g, src, avoid), avoid, paths[i])
    ensures src != dst ==>
      forall b :: Calls(g, src, b) && b != src && b !in avoid && Step(g.callers, dst, b) ==> [src, b, dst] in paths
    ensures Consistent(g) ==> forall i :: 0 <= i < |paths| ==> CallPath(g, paths[i])
    ensures NoDup(forked) && forall k :: 0 <= k < |forked| ==> forked[k] in Branches(g, src, avoid)
    ensures forall k :: 0 <= k < |forked| ==> Through(paths, forked[k])
    ensures src != dst ==> (paths == [] <==> !exists p :: BranchPath(g, src, dst, Branches(g, src, avoid), avoid, p))
  {
    if src == dst {
      return [[src]], [];
    }
    var branches := Branches(g, src, avoid);
    var lab, rk := LabelAll(g, src, avoid, branches);
    paths, forked := WalkBack(g, src, dst, avoid, branches, lab, rk);
    if exists p :: BranchPath(g, src, dst, branches, avoid, p) {
      var p :| BranchPath(g, src, dst, branches, avoid, p);
      PathStartsWalk(g, src, dst, avoid, branches, lab, p);
    }
    if paths != [] {
      assert BranchPath(g, src, dst, branches, avoid, paths[0]);
    }
    if Consistent(g) {
      forall i | 0 <= i < |paths|
        ensures CallPath(g, paths[i])
      {
        BranchPathIsCallPath(g, src, dst, branches, avoid, paths[i]);
      }
    }
  }
}

=== FILE: nearest.dfy ===
/**
 The debugger helpers that look up the entry nearest below an address: an entry with the
 greatest sort key not greater than the key searched for. Among entries sharing that key
 (in input order) the first one wins when the key equals the one searched for, and the
 last one wins when it is smaller.
 */
module Nearest {

  /** Every key in `s` is at least the one before it. */
  ghost predicate SortedBy<T>(s: seq<T>, key: T -> int)
  {
    forall i, j :: 0 <= i < j < |s| ==> key(s[i]) <= key(s[j])
  }

  /** A key no greater than the first of a sorted sequence can go in front. */
  lemma ConsSorted<T>(a: T, t: seq<T>, key: T -> int)
    requires SortedBy(t, key) && (t == [] || key(a) <= key(t[0]))
    ensures SortedBy([a] + t, key)
  {
    var u := [a] + t;
    forall i, j | 0 <= i < j < |u|
      ensures key(u[i]) <= key(u[j])
    {
      if i == 0 && j > 1 {
        assert key(t[0]) <= key(t[j - 1]);
      }
    }
  }

  /** Inserts `x` before the first element of the sorted `r` whose key is not smaller, so
      that among equal keys `x` comes first. */
  function InsertBy<T>(x: T, r: seq<T>, key: T -> int): (r': seq<T>)
    requires SortedBy(r, key)
    ensures |r'| == |r| + 1 && multiset(r') == multiset(r) + multiset{x}
    ensures r'[0] == x || (r != [] && r'[0] == r[0])
    ensures SortedBy(r', key)
  {
    if r == [] || key(x) <= key(r[0]) then
      ConsSorted(x, r, key);
      [x] + r
    else
      var t := InsertBy(x, r[1..], key);
      assert r == [r[0]] + r[1..];
      ConsSorted(r[0], t, key);
      [r[0]] + t
  }

  /** Python's stable `sorted(collection, key=key)`: insertion sort from the back, each
      element going before the later ones with the same key. */
  function SortBy<T>(s: seq<T>, key: T -> int): (r: seq<T>)
    ensures |r| == |s| && multiset(r) == multiset(s)
    ensures SortedBy(r, key)
  {
    if s == [] then []
    else
      assert s == [s[0]] + s[1..];
      InsertBy(s[0], SortBy(s[1..], key), key)
  }

  /** The elements of `s` whose key is `c`, in their order in `s`. */
  function Keyed<T>(s: seq<T>, key: T -> int, c: int): (ks: seq<T>)
    ensures |ks| <= |s|
  {
    if s == [] then [] else (if key(s[0]) == c then [s[0]] else []) + Keyed(s[1..], key, c)
  }

  /** Inserting `x` puts it in front of every element with the same key. */
  lemma {:induction false} InsertKeyed<T>(x: T, r: seq<T>, key: T -> int, c: int)
    requires SortedBy(r, key)
    ensures Keyed(InsertBy(x, r, key), key, c) == (if key(x) == c then [x] else []) + Keyed(r, key, c)
  {
    if r == [] || key(x) <= key(r[0]) {
      assert InsertBy(x, r, key) == [x] + r;
      assert ([x] + r)[1..] == r;
    } else {
      var t := InsertBy(x, r[1..], key);
      assert InsertBy(x, r, key) == [r[0]] + t;
      assert ([r[0]] + t)[1..] == t;
      var head := if key(r[0]) == c then [r[0]] else [];
      var mine := if key(x) == c then [x] else [];
      InsertKeyed(x, r[1..], key, c);
      assert Keyed([r[0]] + t, key, c) == head + (mine + Keyed(r[1..], key, c));
      assert Keyed(r, key, c) == head + Keyed(r[1..], key, c);
      if key(x) == c {
        assert head == [];
      } else {
        assert mine == [];
      }
    }
  }

  /** `SortBy` is stable: the elements sharing a key keep their relative order. */
  lemma {:induction false} SortKeyed<T>(s: seq<T>, key: T -> int, c: int)
    ensures Keyed(SortBy(s, key), key, c) == Keyed(s, key, c)
  {
    if s != [] {
      SortKeyed(s[1..], key, c);
      InsertKeyed(s[0], SortBy(s[1..], key), key, c);
    }
  }

  /** No element has key `c`: none is kept. */
  lemma {:induction false} KeyedNone<T>(s: seq<T>, key: T -> int, c: int)
    requires forall j :: 0 <= j < |s| ==> key(s[j]) != c
    ensures Keyed(s, key, c) == []
  {
    if s != [] {
      KeyedNone(s[1..], key, c);
    }
  }

  /** The first element with key `c` heads the kept elements. */
  lemma {:induction false} KeyedFirst<T>(s: seq<T>, key: T -> int, c: int, r: nat)
    requires r < |s| && key(s[r]) == c && forall j :: 0 <= j < r ==> key(s[j]) != c
    ensures Keyed(s, key, c) != [] && Keyed(s, key, c)[0] == s[r]
  {
    if r > 0 {
      KeyedFirst(s[1..], key, c, r - 1);
    }
  }

  /** The last element with key `c` ends the kept elements. */
  lemma {:induction false} KeyedLast<T>(s: seq<T>, key: T -> int, c: int, r: nat)
    requires r < |s| && key(s[r]) == c && forall j :: r < j < |s| ==> key(s[j]) != c
    ensures var ks := Keyed(s, key, c); ks != [] && ks[|ks| - 1] == s[r]
  {
    if r == 0 {
      KeyedNone(s[1..], key, c);
    } else {
      KeyedLast(s[1..], key, c, r - 1);
    }
  }

  /** `x` is the element of `s` nearest below `k`: its key is the greatest not above `k`;
      among the elements with that key it is the first if the key is `k` itself, and the
      last otherwise. */
  ghost predicate IsNearest<T>(k: int, s: seq<T>, key: T -> int, x: T)
  {
    && x in s && key(x) <= k
    && (forall j :: 0 <= j < |s| && key(s[j]) <= k ==> key(s[j]) <= key(x))
    && var ks := Keyed(s, key, key(x));
       ks != [] && x == (if key(x) == k then ks[0] else ks[|ks| - 1])
  }

  /** At most one element is nearest below `k`. */
  lemma NearestUnique<T>(k: int, s: seq<T>, key: T -> int, x: T, y: T)
    requires IsNearest(k, s, key, x) && IsNearest(k, s, key, y)
    ensures x == y
  {
    var i :| 0 <= i < |s| && s[i] == x;
    var j :| 0 <= j < |s| && s[j] == y;
    assert key(s[i]) <= key(y) && key(s[j]) <= key(x);
  }

  /** The scan of `find_nearest_index` from position `i` on. */
  function ScanFrom<T>(k: int, s: seq<T>, key: T -> int, i: nat): (r: int)
    requires i <= |s|
    requires forall j :: 0 <= j < i ==> key(s[j]) < k
    ensures i - 1 <= r < |s|
    ensures forall j :: 0 <= j < r ==> key(s[j]) < k
    ensures 0 <= r ==> key(s[r]) <= k
    ensures r + 1 < |s| && (r < 0 || key(s[r]) < k) ==> key(s[r + 1]) > k
    ensures r == |s| - 1 || key(s[r + 1]) > k || key(s[r]) == k
    decreases |s| - i
  {
    if i == |s| then |s| - 1
    else if key(s[i]) == k then i
    else if key(s[i]) > k then i - 1
    else ScanFrom(k, s, key, i + 1)
  }

  /** `find_nearest_index`: the index of the first element whose key equals `k`, or the one
      before the first whose key exceeds `k`, whichever comes first; the last index if
      neither occurs; -1 when the very first key exceeds `k`. The contract pins that index
      down: everything before it is smaller than `k`, it is not greater, and the next one,
      unless the result hit `k` itself, is greater. */
  function FindNearestIndex<T>(k: int, s: seq<T>, key: T -> int): (r: int)
    ensures -1 <= r < |s|
    ensures forall j :: 0 <= j < r ==> key(s[j]) < k
    ensures 0 <= r ==> key(s[r]) <= k
    ensures r + 1 < |s| && (r < 0 || key(s[r]) < k) ==> key(s[r + 1]) > k
  {
    ScanFrom(k, s, key, 0)
  }

  /** On sorted input the index is the one the helper's documentation describes: -1 exactly
      when every key exceeds `k`; otherwise an element with the greatest key not above `k`,
      the first of those whose key is `k` itself, else the last of those below `k`. */
  lemma SortedNearest<T>(k: int, s: seq<T>, key: T -> int)
    requires SortedBy(s, key)
    ensures var r := FindNearestIndex(k, s, key);
      && (r < 0 <==> forall j :: 0 <= j < |s| ==> key(s[j]) > k)
      && (0 <= r ==> forall j :: 0 <= j < |s| && key(s[j]) <= k ==> key(s[j]) <= key(s[r]))
      && (forall j :: 0 <= j < |s| && key(s[j]) == k ==> 0 <= r <= j && key(s[r]) == k)
      && (0 <= r && key(s[r]) < k ==> forall j :: r < j < |s| ==> key(s[j]) > k)
  {
    var r := FindNearestIndex(k, s, key);
    if 0 <= r {
      if key(s[r]) < k && r + 1 < |s| {
        assert key(s[r + 1]) > k;
      }
    } else if |s| > 0 {
      assert key(s[0]) > k;
    }
  }

  /** `find_nearest` over a list: the element nearest below `k`, or `default` when every
      key is above `k`. */
  function FindNearest<T>(k: int, items: seq<T>, key: T -> int, default: T): (r: T)
    ensures (forall j :: 0 <= j < |items| ==> key(items[j]) > k) ==> r == default
    ensures (exists j :: 0 <= j < |items| && key(items[j]) <= k) ==> IsNearest(k, items, key, r)
  {
    var s := SortBy(items, key);
    var i := FindNearestIndex(k, s, key);
    NearestOfSorted(k, items, s, key, i);
    if i < 0 then default else s[i]
  }

  /** The index found in the sorted copy picks the element nearest below `k`. */
  lemma NearestOfSorted<T>(k: int, items: seq<T>, s: seq<T>, key: T -> int, i: int)
    requires s == SortBy(items, key) && i == FindNearestIndex(k, s, key)
    ensures i < 0 <==> forall j :: 0 <= j < |items| ==> key(items[j]) > k
    ensures 0 <= i ==> IsNearest(k, items, key, s[i])
  {
    SortedNearest(k, s, key);
    SameKeys(items, s, key, k);
    if 0 <= i {
      var x := s[i];
      SortKeyed(items, key, key(x));
      if key(x) == k {
        KeyedFirst(s, key, k, i);
      } else {
        KeyedLast(s, key, key(x), i);
      }
      forall j | 0 <= j < |items| && key(items[j]) <= k
        ensures key(items[j]) <= key(x)
      {
        var m :| 0 <= m < |s| && s[m] == items[j];
      }
    } else {
      forall j | 0 <= j < |items|
        ensures key(items[j]) > k
      {
        var m :| 0 <= m < |s| && s[m] == items[j];
      }
    }
  }

  /** A permutation has the same elements, so the same keys on either side of `k`. */
  lemma SameKeys<T>(items: seq<T>, s: seq<T>, key: T -> int, k: int)
    requires multiset(items) == multiset(s)
    ensures forall j :: 0 <= j < |items| ==> exists m :: 0 <= m < |s| && s[m] == items[j]
    ensures forall m :: 0 <= m < |s| ==> s[m] in items
  {
    forall j | 0 <= j < |items|
      ensures exists m :: 0 <= m < |s| && s[m] == items[j]
    {
      assert items[j] in multiset(s);
    }
    forall m | 0 <= m < |s|
      ensures s[m] in items
    {
      assert s[m] in multiset(items);
    }
  }

  /** The value stored under `x` in a dict given by its entries in insertion order. */
  function Lookup<K(==), V>(entries: seq<(K, V)>, x: K): (v: V)
    requires exists j :: 0 <= j < |entries| && entries[j].0 == x
    ensures exists j :: 0 <= j < |entries| && entries[j] == (x, v)
  {
    if entries[0].0 == x then entries[0].1 else Lookup(entries[1..], x)
  }

  function KeysOf<K, V>(entries: seq<(K, V)>): (ks: seq<K>)
    ensures |ks| == |entries| && forall j :: 0 <= j < |entries| ==> ks[j] == entries[j].0
  {
    if entries == [] then [] else [entries[0].0] + KeysOf(entries[1..])
  }

  /** `find_nearest` over a dict: the same search over the dict's keys, answering with the
      value stored under the key nearest below `k`, or `default`. */
  function FindNearestInDict<K(==), V>(k: int, entries: seq<(K, V)>, key: K -> int, default: V): (r: V)
    ensures (forall j :: 0 <= j < |entries| ==> key(entries[j].0) > k) ==> r == default
    ensures (exists j :: 0 <= j < |entries| && key(entries[j].0) <= k) ==>
      exists j :: 0 <= j < |entries| && entries[j].1 == r && IsNearest(k, KeysOf(entries), key, entries[j].0)
  {
    var ks := KeysOf(entries);
    var s := SortBy(ks, key);
    var i := FindNearestIndex(k, s, key);
    NearestOfSorted(k, ks, s, key, i);
    if i < 0 then default
    else
      assert s[i] in ks;
      Lookup(entries, s[i])
  }
}

=== FILE: pahole.dfy ===
/**
 The layout walk behind the `pahole` and `offset` debugger commands: a type is flattened
 into a stream of events, one bracket pair per struct or union, one event per scalar
 member, and one event per gap ("hole") between consecutive members.
 */
module Pahole {
  import opened GdbType

  datatype Kind = Simple | StartStruct | EndStruct | Hole

  /** One event of the stream. `name` is the printed type name (or `<N-bit hole>`),
      `fieldName` the member's name (empty for the root and for holes), `topBitpos` the
      offset in bits from the start of the outermost type, `bitpos` the offset within the
      enclosing type, `nextField` the member a hole precedes, `parentName` the enclosing
      type's name (empty for the root). */
  datatype Event = Event(kind: Kind, name: string, fieldName: string, level: nat, topBitpos: int, bitpos: int,
                         sizeBits: int, path: string, truncated: bool, nextField: string, parentName: string)

  /** The walk's switches: the depth limit (0 for none) and whether anonymous members get
      `<union>`/`<struct>` path components. */
  datatype Options = Options(maxLevel: nat, nameAnon: bool)

  /** The enclosing node of a walk, as far as a child needs it. */
  datatype Parent = Root | Parent(path: string, name: string)

  function Truncated(opts: Options, level: nat): bool
  {
    opts.maxLevel > 0 && level >= opts.maxLevel
  }

  /** A node's path: `this` at the root, the parent's path and the member's name for a
      named member, and for an anonymous one either the parent's path itself or, when
      anonymous members are named, the parent's path and `<union>` or `<struct>` (chosen
      by the member's own, unstripped, type code). */
  function NodePath(opts: Options, t: Type, parent: Parent, fieldName: string): string
  {
    match parent
    case Root => "this"
    case Parent(p, _) =>
      if fieldName != "" then p + "." + fieldName
      else if opts.nameAnon then p + "." + (if t.Named? && t.code == UnionCode then "<union>" else "<struct>")
      else p
  }

  function DigitsOf(n: nat): (s: string)
    ensures |s| >= 1
  {
    var d := ['0', '1', '2', '3', '4', '5', '6', '7', '8', '9'][n % 10];
    if n < 10 then [d] else DigitsOf(n / 10) + [d]
  }

  /** `%d`. */
  function IntToString(n: int): (s: string)
    ensures |s| >= 1
  {
    if n < 0 then "-" + DigitsOf(-n) else DigitsOf(n)
  }

  // ---------------------------------------------------------------------------
  // Facts about event streams.

  function BracketValue(e: Event): int
  {
    match e.kind
    case StartStruct => 1
    case EndStruct => -1
    case _ => 0
  }

  /** Opened brackets minus closed ones. */
  function Balance(evs: seq<Event>): int
  {
    if evs == [] then 0 else BracketValue(evs[0]) + Balance(evs[1..])
  }

  lemma {:induction false} BalanceAppend(a: seq<Event>, b: seq<Event>)
    ensures Balance(a + b) == Balance(a) + Balance(b)
  {
    if a != [] {
      assert (a + b)[0] == a[0];
      assert (a + b)[1..] == a[1..] + b;
      BalanceAppend(a[1..], b);
    } else {
      assert a + b == b;
    }
  }

  /** The events a node at level `lvl - 1` emits for its members: holes and the first event
      of each member, in order. */
  function Direct(evs: seq<Event>, lvl: nat): (d: seq<Event>)
    ensures |d| <= |evs|
  {
    if evs == [] then []
    else if evs[0].level == lvl && evs[0].kind != EndStruct then [evs[0]] + Direct(evs[1..], lvl)
    else Direct(evs[1..], lvl)
  }

  lemma {:induction false} DirectAppend(a: seq<Event>, b: seq<Event>, lvl: nat)
    ensures Direct(a + b, lvl) == Direct(a, lvl) + Direct(b, lvl)
  {
    if a != [] {
      assert (a + b)[0] == a[0];
      assert (a + b)[1..] == a[1..] + b;
      DirectAppend(a[1..], b, lvl);
    } else {
      assert a + b == b;
    }
  }

  /** Every event lies below level `lvl`. */
  ghost predicate Deeper(evs: seq<Event>, lvl: nat)
  {
    forall k :: 0 <= k < |evs| ==> evs[k].level > lvl
  }

  lemma DeeperAppend(a: seq<Event>, b: seq<Event>, lvl: nat)
    requires Deeper(a, lvl) && Deeper(b, lvl)
    ensures Deeper(a + b, lvl)
  {
    forall k | 0 <= k < |a + b|
      ensures (a + b)[k].level > lvl
    {
      if k < |a| {
        assert (a + b)[k] == a[k];
      } else {
        assert (a + b)[k] == b[k - |a|];
      }
    }
  }

  lemma {:induction false} DirectDeeper(evs: seq<Event>, lvl: nat)
    requires Deeper(evs, lvl)
    ensures Direct(evs, lvl) == []
  {
    if evs != [] {
      DirectDeeper(evs[1..], lvl);
    }
  }

  /** Each member event sits at the enclosing node's offset plus its own. */
  ghost predicate Placed(d: seq<Event>, top: int)
  {
    forall k :: 0 <= k < |d| ==> d[k].topBitpos == top + d[k].bitpos
  }

  lemma PlacedAppend(d: seq<Event>, e: seq<Event>, top: int)
    requires Placed(d, top) && Placed(e, top)
    ensures Placed(d + e, top)
  {
    forall k | 0 <= k < |d + e|
      ensures (d + e)[k].topBitpos == top + (d + e)[k].bitpos
    {
      if k < |d| {
        assert (d + e)[k] == d[k];
      } else {
        assert (d + e)[k] == e[k - |d|];
      }
    }
  }

  /** Consecutive member events follow each other: each starts where the one before it
      ends (hole sizes taken as signed), and the first starts at `start`. */
  ghost predicate Tiles(d: seq<Event>, start: int)
  {
    d == [] || (d[0].bitpos == start && forall k :: 0 <= k < |d| - 1 ==> d[k + 1].bitpos == d[k].bitpos + d[k].sizeBits)
  }

  lemma TilesAppend(d: seq<Event>, e: seq<Event>, start: int, next: int)
    requires d != [] && Tiles(d, start) && Tiles(e, next)
    requires d[|d| - 1].bitpos + d[|d| - 1].sizeBits == next
    ensures Tiles(d + e, start)
  {
    var de := d + e;
    forall k | 0 <= k < |de| - 1
      ensures de[k + 1].bitpos == de[k].bitpos + de[k].sizeBits
    {
      if k < |d| - 1 {
        assert de[k] == d[k] && de[k + 1] == d[k + 1];
      } else if k == |d| - 1 {
        assert de[k] == d[k] && de[k + 1] == e[0];
      } else {
        assert de[k] == e[k - |d|] && de[k + 1] == e[k - |d| + 1];
      }
    }
  }

  /** The shape of the events of one node at `level`: its own event first; for a struct or
      union, a matching closing event last and only deeper events between, none at all
      when the node is cut off by the depth limit; and brackets balance. */
  ghost predicate NodeShape(opts: Options, t: Type, level: nat, r: seq<Event>)
  {
    && |r| >= 1 && r[0].level == level
    && r[0].kind == (if IsAggregate(t) then StartStruct else Simple)
    && (!IsAggregate(t) ==> |r| == 1)
    && (IsAggregate(t) ==> |r| >= 2 && r[|r| - 1] == r[0].(kind := EndStruct))
    && (|r| >= 2 ==> Deeper(r[1..|r| - 1], level))
    && (IsAggregate(t) && Truncated(opts, level) ==> |r| == 2)
    && Balance(r) == 0
  }

  /** A node's member events: all deeper than the node, none when it is cut off, brackets
      balanced; each member event placed at the node's offset plus its own, and in a
      struct the members and holes tiling it from `running` on. */
  ghost predicate MembersShape(info: Event, structLayout: bool, running: int, r: seq<Event>)
  {
    && Deeper(r, info.level)
    && (info.truncated ==> r == [])
    && Balance(r) == 0
    && Placed(Direct(r, info.level + 1), info.topBitpos)
    && (structLayout ==> Tiles(Direct(r, info.level + 1), running))
  }

  /** The name a member's events carry: `<base>` for a base class, its own otherwise. */
  function Label(f: Field): string
  {
    if f.isBase then "<base>" else f.name
  }

  /** The members the loop walks from field `i` on: the non-static ones, in field order. */
  function Live(owner: Type, i: nat): seq<Field>
    requires owner.Named? && i <= |owner.fields|
    decreases |owner.fields| - i
  {
    if i == |owner.fields| then []
    else if owner.fields[i].bitpos.Some? then [owner.fields[i]] + Live(owner, i + 1)
    else Live(owner, i + 1)
  }

  /** `e` is the own event of member `f` of the node `info`, starting at bit `s`: it
      names the member's type, carries the member's label and the path below the node's,
      and spans the member's width. */
  ghost predicate MemberEvent(opts: Options, info: Event, f: Field, s: int, e: Event)
  {
    && e.kind == (if IsAggregate(f.ftype) then StartStruct else Simple)
    && e.name == TypeToString(f.ftype) && e.fieldName == Label(f)
    && e.path == NodePath(opts, f.ftype, Parent(info.path, info.name), Label(f))
    && e.bitpos == s && e.sizeBits == Width(f)
  }

  /** `d` lists, for each member of `fs` in order, a hole when the member does not start at
      the running position, spanning the difference on the node's own path and naming the
      member that follows it, then the
      member's own event. */
  ghost predicate Layout(opts: Options, owner: Type, info: Event, fs: seq<Field>, running: int, d: seq<Event>)
    requires owner.Named?
    decreases |fs|
  {
    if fs == [] then d == []
    else
      && fs[0].bitpos.Some?
      && var s := Start(fs[0], running);
         var h := if s != running then 1 else 0;
         && |d| > h
         && (h == 1 ==> d[0].kind == Hole && d[0].bitpos == running && d[0].sizeBits == s - running
                        && d[0].path == info.path && d[0].nextField == fs[0].name)
         && MemberEvent(opts, info, fs[0], s, d[h])
         && Layout(opts, owner, info, fs[1..], Next(owner, fs[0], running), d[h + 1..])
  }

  /** The layout of one member followed by that of the members after it, starting where
      the first leaves the running position, is the layout of all of them. */
  lemma LayoutCons(opts: Options, owner: Type, info: Event, f: Field, fs: seq<Field>, running: int,
                   step: seq<Event>, rest: seq<Event>, lvl: nat)
    requires owner.Named? && f.bitpos.Some?
    requires Layout(opts, owner, info, [f], running, Direct(step, lvl))
    requires Layout(opts, owner, info, fs, Next(owner, f, running), Direct(rest, lvl))
    ensures Layout(opts, owner, info, [f] + fs, running, Direct(step + rest, lvl))
  {
    DirectAppend(step, rest, lvl);
    var a, b := Direct(step, lvl), Direct(rest, lvl);
    var h := if Start(f, running) != running then 1 else 0;
    assert [f][1..] == [];
    assert |a| == h + 1;
    assert ([f] + fs)[0] == f && ([f] + fs)[1..] == fs;
    assert (a + b)[0] == a[0] && (a + b)[h] == a[h] && (a + b)[h + 1..] == b;
  }

  /** Every member event of a laid-out node, holes included, sits on a path that extends
      the node's own. */
  lemma {:induction false} LayoutPaths(opts: Options, owner: Type, info: Event, fs: seq<Field>, running: int, d: seq<Event>)
    requires owner.Named? && Layout(opts, owner, info, fs, running, d)
    ensures forall k :: 0 <= k < |d| ==> StartsWith(d[k].path, info.path)
    decreases |fs|
  {
    if fs != [] {
      var s := Start(fs[0], running);
      var h := if s != running then 1 else 0;
      var rest := d[h + 1..];
      LayoutPaths(opts, owner, info, fs[1..], Next(owner, fs[0], running), rest);
      ChildPath(opts, fs[0].ftype, info.path, info.name, Label(fs[0]));
      StartsWithExtend(info.path, "");
      assert info.path + "" == info.path;
      forall k | 0 <= k < |d|
        ensures StartsWith(d[k].path, info.path)
      {
        if k > h {
          assert d[k] == rest[k - h - 1];
        }
      }
    }
  }

  lemma StartsWithExtend(p: string, x: string)
    ensures StartsWith(p + x, p)
  {
    assert (p + x)[..|p|] == p;
  }

  /** A member's path extends the enclosing node's path. */
  lemma ChildPath(opts: Options, t: Type, p: string, pname: string, name: string)
    ensures StartsWith(NodePath(opts, t, Parent(p, pname), name), p)
  {
    var q := NodePath(opts, t, Parent(p, pname), name);
    if name != "" {
      assert q == p + ("." + name);
      StartsWithExtend(p, "." + name);
    } else if opts.nameAnon {
      var anon := if t.Named? && t.code == UnionCode then "<union>" else "<struct>";
      assert q == p + ("." + anon);
      StartsWithExtend(p, "." + anon);
    } else {
      assert q == p + "";
      StartsWithExtend(p, "");
    }
  }

  // ---------------------------------------------------------------------------
  // The walk.

  /** `traverse`: the events of the node of type `t` reached through a member named
      `fieldName` of `parent` at depth `level`. */
  function Traverse(opts: Options, t: Type, parent: Parent, level: nat, fieldName: string,
                    top: int, sizeBits: int, bitpos: int): (r: seq<Event>)
    ensures NodeShape(opts, t, level, r)
    ensures r[0].path == NodePath(opts, t, parent, fieldName)
    ensures r[0].topBitpos == top && r[0].bitpos == bitpos && r[0].sizeBits == sizeBits
    ensures r[0].name == TypeToString(t) && r[0].fieldName == fieldName
    decreases t, 3, 0
  {
    TraverseAt(opts, t, t, parent, level, fieldName, top, sizeBits, bitpos)
  }

  /** `traverse` once typedefs are followed from `t` down to `cur`. */
  function TraverseAt(opts: Options, t: Type, cur: Type, parent: Parent, level: nat, fieldName: string,
                      top: int, sizeBits: int, bitpos: int): (r: seq<Event>)
    requires Strip(cur) == Strip(t)
    ensures NodeShape(opts, t, level, r)
    ensures r[0].path == NodePath(opts, t, parent, fieldName)
    ensures r[0].topBitpos == top && r[0].bitpos == bitpos && r[0].sizeBits == sizeBits
    ensures r[0].name == TypeToString(t) && r[0].fieldName == fieldName
    decreases cur, 2, 0
  {
    match cur
    case Typedef(_, target) => TraverseAt(opts, t, target, parent, level, fieldName, top, sizeBits, bitpos)
    case Named(_, code, _, fields) =>
      var info := Event(StartStruct, TypeToString(t), fieldName, level, top, bitpos, sizeBits,
                        NodePath(opts, t, parent, fieldName), Truncated(opts, level), "",
                        if parent.Root? then "" else parent.name);
      if code == OtherCode then [info.(kind := Simple)]
      else Bracket(info, Members(opts, cur, 0, info, 0))
  }

  /** Between the brackets of a struct or union that is not cut off lie, as its member
      events, exactly the layout of its non-static members from bit 0 on. */
  lemma {:induction false} TraverseLayout(opts: Options, t: Type, cur: Type, parent: Parent, level: nat, fieldName: string,
                                          top: int, sizeBits: int, bitpos: int)
    requires Strip(cur) == Strip(t) && IsAggregate(t) && !Truncated(opts, level)
    ensures var r := TraverseAt(opts, t, cur, parent, level, fieldName, top, sizeBits, bitpos);
      Layout(opts, Strip(t), r[0], Live(Strip(t), 0), 0, Direct(r[1..|r| - 1], level + 1))
    decreases cur
  {
    match cur
    case Typedef(_, target) =>
      TraverseLayout(opts, t, target, parent, level, fieldName, top, sizeBits, bitpos);
    case Named(_, code, _, _) =>
      var r := TraverseAt(opts, t, cur, parent, level, fieldName, top, sizeBits, bitpos);
      var info := r[0];
      assert code != OtherCode && !info.truncated;
      var m := Members(opts, cur, 0, info, 0);
      assert r == Bracket(info, m);
      MembersLayout(opts, cur, 0, info, 0);
      BracketLayout(opts, cur, info, m, level + 1);
  }

  lemma BracketLayout(opts: Options, owner: Type, info: Event, m: seq<Event>, lvl: nat)
    requires owner.Named? && info.kind == StartStruct && Deeper(m, info.level) && Balance(m) == 0
    requires Layout(opts, owner, info, Live(owner, 0), 0, Direct(m, lvl))
    ensures var r := Bracket(info, m); Layout(opts, owner, r[0], Live(owner, 0), 0, Direct(r[1..|r| - 1], lvl))
  {
  }

  /** A struct or union's events: its opening event, its members', its closing event. */
  function Bracket(info: Event, members: seq<Event>): (r: seq<Event>)
    requires info.kind == StartStruct && Deeper(members, info.level) && Balance(members) == 0
    ensures |r| == |members| + 2 && r[0] == info && r[|r| - 1] == info.(kind := EndStruct)
    ensures r[1..|r| - 1] == members && Balance(r) == 0
  {
    BalanceAppend([info], members);
    BalanceAppend([info] + members, [info.(kind := EndStruct)]);
    [info] + members + [info.(kind := EndStruct)]
  }

  /** The member loop of `traverse` from field `i` on, at running position `running`
      (in bits, within `owner`). Static members and members below the depth limit emit
      nothing; a member whose start differs from the running position is preceded by a
      hole event covering the difference. */
  function Members(opts: Options, owner: Type, i: nat, info: Event, running: int): (r: seq<Event>)
    requires owner.Named? && owner.code != OtherCode && i <= |owner.fields|
    ensures MembersShape(info, owner.code == StructCode, running, r)
    decreases owner, 1, |owner.fields| - i
  {
    if i == |owner.fields| then []
    else
      var f := owner.fields[i];
      if f.bitpos.None? || info.truncated then Members(opts, owner, i + 1, info, running)
      else
        var step := MemberEvents(opts, owner, i, info, running);
        var rest := Members(opts, owner, i + 1, info, Next(owner, f, running));
        JoinMembers(info, owner.code == StructCode, running, step, Next(owner, f, running), rest);
        step + rest
  }

  /** A node cut off by the depth limit, or a type whose remaining members are all
      static, emits nothing between its brackets. */
  lemma {:induction false} AllStaticSilent(opts: Options, owner: Type, i: nat, info: Event, running: int)
    requires owner.Named? && owner.code != OtherCode && i <= |owner.fields|
    requires info.truncated || forall j :: i <= j < |owner.fields| ==> owner.fields[j].bitpos.None?
    ensures Members(opts, owner, i, info, running) == []
    decreases |owner.fields| - i
  {
    if i < |owner.fields| {
      AllStaticSilent(opts, owner, i + 1, info, running);
    }
  }

  /** A node that is not cut off lays out every non-static member from field `i` on, in
      field order: a hole where one is due, then the member's own event. */
  lemma {:induction false} MembersLayout(opts: Options, owner: Type, i: nat, info: Event, running: int)
    requires owner.Named? && owner.code != OtherCode && i <= |owner.fields| && !info.truncated
    ensures Layout(opts, owner, info, Live(owner, i), running, Direct(Members(opts, owner, i, info, running), info.level + 1))
    decreases |owner.fields| - i
  {
    if i < |owner.fields| {
      var f := owner.fields[i];
      MembersUnfold(opts, owner, i, info, running);
      if f.bitpos.Some? {
        var next := Next(owner, f, running);
        MembersLayout(opts, owner, i + 1, info, next);
        assert Live(owner, i) == [f] + Live(owner, i + 1);
        LayoutCons(opts, owner, info, f, Live(owner, i + 1), running,
                   MemberEvents(opts, owner, i, info, running), Members(opts, owner, i + 1, info, next), info.level + 1);
      } else {
        MembersLayout(opts, owner, i + 1, info, running);
      }
    }
  }

  /** One turn of the member loop: a static or cut-off member adds nothing, any other
      adds its own events before those of the members after it. */
  lemma MembersUnfold(opts: Options, owner: Type, i: nat, info: Event, running: int)
    requires owner.Named? && owner.code != OtherCode && i < |owner.fields|
    ensures owner.fields[i].bitpos.None? || info.truncated ==>
              Members(opts, owner, i, info, running) == Members(opts, owner, i + 1, info, running)
    ensures owner.fields[i].bitpos.Some? && !info.truncated ==>
              Members(opts, owner, i, info, running) ==
              MemberEvents(opts, owner, i, info, running) + Members(opts, owner, i + 1, info, Next(owner, owner.fields[i], running))
  {
  }

  ghost predicate NoHoles(d: seq<Event>)
  {
    forall k :: 0 <= k < |d| ==> d[k].kind != Hole
  }

  /** In a union the running position never moves past a member, so a union whose members
      all sit at bit 0 has no holes. */
  lemma UnionNoHoles(opts: Options, owner: Type, i: nat, info: Event)
    requires owner.Named? && owner.code == UnionCode && i <= |owner.fields|
    requires forall j :: i <= j < |owner.fields| && owner.fields[j].bitpos.Some? ==> owner.fields[j].bitpos.value == 0
    ensures NoHoles(Direct(Members(opts, owner, i, info, 0), info.level + 1))
  {
    if info.truncated {
      AllStaticSilent(opts, owner, i, info, 0);
    } else {
      MembersLayout(opts, owner, i, info, 0);
      LiveAtZero(owner, i);
      LayoutUnion(opts, owner, info, Live(owner, i), Direct(Members(opts, owner, i, info, 0), info.level + 1));
    }
  }

  lemma {:induction false} LiveAtZero(owner: Type, i: nat)
    requires owner.Named? && i <= |owner.fields|
    requires forall j :: i <= j < |owner.fields| && owner.fields[j].bitpos.Some? ==> owner.fields[j].bitpos.value == 0
    ensures forall k :: 0 <= k < |Live(owner, i)| ==> Live(owner, i)[k].bitpos == Some(0)
    decreases |owner.fields| - i
  {
    if i < |owner.fields| {
      LiveAtZero(owner, i + 1);
      if owner.fields[i].bitpos.Some? {
        var fs := Live(owner, i);
        forall k | 0 <= k < |fs|
          ensures fs[k].bitpos == Some(0)
        {
          if k > 0 {
            assert fs[k] == Live(owner, i + 1)[k - 1];
          }
        }
      }
    }
  }

  /** In a union whose members all sit at bit 0, every member starts at the running
      position 0 and leaves it there, so no hole is ever due. */
  lemma {:induction false} LayoutUnion(opts: Options, owner: Type, info: Event, fs: seq<Field>, d: seq<Event>)
    requires owner.Named? && owner.code == UnionCode && Layout(opts, owner, info, fs, 0, d)
    requires forall k :: 0 <= k < |fs| ==> fs[k].bitpos == Some(0)
    ensures NoHoles(d)
    decreases |fs|
  {
    if fs != [] {
      assert Start(fs[0], 0) == 0 && Next(owner, fs[0], 0) == 0;
      assert forall k :: 0 <= k < |fs[1..]| ==> fs[1..][k] == fs[k + 1];
      LayoutUnion(opts, owner, info, fs[1..], d[1..]);
      NoHolesAppend([d[0]], d[1..]);
      assert [d[0]] + d[1..] == d;
    }
  }

  lemma NoHolesAppend(ds: seq<Event>, dr: seq<Event>)
    requires NoHoles(ds) && NoHoles(dr)
    ensures NoHoles(ds + dr)
  {
    forall k | 0 <= k < |ds + dr|
      ensures (ds + dr)[k].kind != Hole
    {
      if k < |ds| {
        assert (ds + dr)[k] == ds[k];
      } else {
        assert (ds + dr)[k] == dr[k - |ds|];
      }
    }
  }

  /** Where a member starts: its bit position, except that a member measuring 0 bytes
      starts at the running position. */
  function Start(f: Field, running: int): int
    requires f.bitpos.Some?
  {
    if CalcSizeof(Strip(f.ftype)) > 0 then f.bitpos.value else running
  }

  /** A member's width in bits: its bit-field width, or 8 bits per byte of its measure. */
  function Width(f: Field): int
  {
    if f.bitsize > 0 then f.bitsize else 8 * CalcSizeof(Strip(f.ftype))
  }

  /** The running position after a member: its end in a struct, its start in a union. */
  function Next(owner: Type, f: Field, running: int): int
    requires owner.Named? && f.bitpos.Some?
  {
    if owner.code == StructCode then Start(f, running) + Width(f) else Start(f, running)
  }

  /** The hole event before member `f`, if its start is not the running position. */
  function HoleBefore(f: Field, info: Event, running: int): (h: seq<Event>)
    requires f.bitpos.Some?
    ensures |h| <= 1
    ensures h != [] <==> Start(f, running) != running
    ensures h != [] ==> h[0].kind == Hole && h[0].bitpos == running && h[0].sizeBits == Start(f, running) - running
    ensures h != [] ==> h[0].topBitpos == info.topBitpos + running && h[0].level == info.level + 1
    ensures h != [] ==> h[0].path == info.path && h[0].nextField == f.name && h[0].parentName == info.name
  {
    var s := Start(f, running);
    if s == running then []
    else [Event(Hole, "<" + IntToString(s - running) + "-bit hole>", "", info.level + 1, info.topBitpos + running,
                running, s - running, info.path, false, f.name, info.name)]
  }

  /** A struct gdb sizes at one byte but whose two 4-bit `char` members each measure a
      byte is measured at 2 bytes; a member placed after it at byte 1 then starts before
      the running position, so the hole reported before that member is -8 bits wide. */
  lemma NegativeHole(info: Event)
    ensures var ch := Named("char", OtherCode, 1, []);
      var b := Named("struct B", StructCode, 1, [Field("a", ch, Some(0), 4, false), Field("b", ch, Some(4), 4, false)]);
      var fb, fc := Field("b", b, Some(0), 0, false), Field("c", ch, Some(8), 0, false);
      var h := HoleBefore(fc, info, Next(Named("struct S", StructCode, 2, [fb, fc]), fb, 0));
      && CalcSizeof(b) == 2 && Sizeof(b) == 1
      && |h| == 1 && h[0].kind == Hole && h[0].sizeBits == -8
  {
    var ch := Named("char", OtherCode, 1, []);
    var b := Named("struct B", StructCode, 1, [Field("a", ch, Some(0), 4, false), Field("b", ch, Some(4), 4, false)]);
    assert SumFrom(b, 2) == 0;
    assert SumFrom(b, 1) == 1;
    assert CalcSizeof(b) == 2;
  }

  /** The events of one member that is walked: a hole if needed, then the member's own. */
  function MemberEvents(opts: Options, owner: Type, i: nat, info: Event, running: int): (r: seq<Event>)
    requires owner.Named? && i < |owner.fields| && owner.fields[i].bitpos.Some? && !info.truncated
    ensures MembersShape(info, true, running, r)
    ensures var d := Direct(r, info.level + 1); var s := Start(owner.fields[i], running);
      && |d| == (if s != running then 2 else 1) && d[|d| - 1].kind != Hole
      && (|d| == 2 ==> d[0].kind == Hole && d[0].sizeBits == s - running)
      && d[|d| - 1].bitpos == s && d[|d| - 1].sizeBits == Width(owner.fields[i])
    ensures Layout(opts, owner, info, [owner.fields[i]], running, Direct(r, info.level + 1))
    decreases owner, 0, 0
  {
    var f := owner.fields[i];
    var s := Start(f, running);
    var child := Traverse(opts, f.ftype, Parent(info.path, info.name), info.level + 1,
                          Label(f), info.topBitpos + s, Width(f), s);
    var hole := HoleBefore(f, info, running);
    MemberFacts(opts, f.ftype, info, running, s, Width(f), hole, child);
    OneLayout(opts, owner, info, f, running, hole, child[0]);
    hole + child
  }

  /** The member-stream facts for a hole (if any) and a member's events. */
  lemma MemberFacts(opts: Options, t: Type, info: Event, running: int, s: int, w: int, hole: seq<Event>, child: seq<Event>)
    requires NodeShape(opts, t, info.level + 1, child) && !info.truncated
    requires child[0].topBitpos == info.topBitpos + s && child[0].bitpos == s && child[0].sizeBits == w
    requires |hole| <= 1 && (hole != [] <==> s != running)
    requires hole != [] ==> hole[0].kind == Hole && hole[0].bitpos == running && hole[0].sizeBits == s - running
    requires hole != [] ==> hole[0].topBitpos == info.topBitpos + running && hole[0].level == info.level + 1
    ensures MembersShape(info, true, running, hole + child)
    ensures var d := Direct(hole + child, info.level + 1);
      && |d| == (if s != running then 2 else 1) && d[|d| - 1].kind != Hole
      && (|d| == 2 ==> d[0].kind == Hole && d[0].sizeBits == s - running)
      && d[|d| - 1].bitpos == s && d[|d| - 1].sizeBits == w
    ensures Direct(hole + child, info.level + 1) == hole + [child[0]]
  {
    var lvl := info.level + 1;
    ChildDirect(opts, t, lvl, child);
    DirectAppend(hole, child, lvl);
    BalanceAppend(hole, child);
    forall k | 0 <= k < |child|
      ensures child[k].level > info.level
    {
      if 0 < k < |child| - 1 {
        assert child[1..|child| - 1][k - 1] == child[k];
      }
    }
    DeeperAppend(hole, child, info.level);
    if hole != [] {
      assert Direct(hole, lvl) == hole by {
        assert hole[1..] == [];
      }
    } else {
      assert Direct(hole, lvl) == [];
    }
  }

  /** A member's hole (if any) and own event lay out that one member. */
  lemma OneLayout(opts: Options, owner: Type, info: Event, f: Field, running: int, hole: seq<Event>, e: Event)
    requires owner.Named? && f.bitpos.Some?
    requires hole == HoleBefore(f, info, running)
    requires MemberEvent(opts, info, f, Start(f, running), e)
    ensures Layout(opts, owner, info, [f], running, hole + [e])
  {
    var h := |hole|;
    assert (hole + [e])[h] == e && (hole + [e])[h + 1..] == [];
    assert [f][0] == f && [f][1..] == [];
    if h == 1 {
      assert (hole + [e])[0] == hole[0];
    }
  }

  /** Of a member's events, only its first is a member event of the enclosing node. */
  lemma ChildDirect(opts: Options, t: Type, lvl: nat, child: seq<Event>)
    requires NodeShape(opts, t, lvl, child)
    ensures Direct(child, lvl) == [child[0]]
  {
    if |child| == 1 {
      assert child[1..] == [];
    } else {
      var mid := child[1..|child| - 1];
      DirectDeeper(mid, lvl);
      assert child == [child[0]] + mid + [child[|child| - 1]];
      DirectAppend([child[0]] + mid, [child[|child| - 1]], lvl);
      DirectAppend([child[0]], mid, lvl);
      assert [child[0]][1..] == [];
      assert [child[|child| - 1]][1..] == [];
    }
  }

  /** One member's events followed by the rest keep the member-stream facts. */
  lemma JoinMembers(info: Event, structLayout: bool, running: int, step: seq<Event>, next: int, rest: seq<Event>)
    requires MembersShape(info, true, running, step) && MembersShape(info, structLayout, next, rest)
    requires var d := Direct(step, info.level + 1); |d| >= 1 && (structLayout ==> d[|d| - 1].bitpos + d[|d| - 1].sizeBits == next)
    ensures MembersShape(info, structLayout, running, step + rest)
  {
    var lvl := info.level + 1;
    DirectAppend(step, rest, lvl);
    BalanceAppend(step, rest);
    DeeperAppend(step, rest, info.level);
    PlacedAppend(Direct(step, lvl), Direct(rest, lvl), info.topBitpos);
    if structLayout {
      TilesAppend(Direct(step, lvl), Direct(rest, lvl), running, next);
    }
  }

  /** `traverse_type`: the events of a whole type, its root at level 0 and offset 0 with
      the type's full size in bits. */
  function TraverseType(opts: Options, t: Type): (r: seq<Event>)
    ensures NodeShape(opts, t, 0, r)
    ensures r[0].path == "this" && r[0].topBitpos == 0 && r[0].bitpos == 0 && r[0].sizeBits == 8 * Sizeof(t)
  {
    Traverse(opts, t, Root, 0, "", 0, Sizeof(t) * 8, 0)
  }

  /** The root of a struct or union is never cut off: between its brackets lies the layout
      of all its non-static members from bit 0 on. */
  lemma TypeLayout(opts: Options, t: Type)
    requires IsAggregate(t)
    ensures var r := TraverseType(opts, t);
      Layout(opts, Strip(t), r[0], Live(Strip(t), 0), 0, Direct(r[1..|r| - 1], 1))
  {
    var r := TraverseAt(opts, t, t, Root, 0, "", 0, Sizeof(t) * 8, 0);
    assert TraverseType(opts, t) == r;
    TraverseLayout(opts, t, t, Root, 0, "", 0, Sizeof(t) * 8, 0);
  }

  // ---------------------------------------------------------------------------
  // The `offset` command: which events overlap a byte range.

  /** Python's `int(x / 8)`: the quotient truncated toward zero. */
  function TruncDiv8(x: int): (q: int)
    ensures x >= 0 ==> q == x / 8
    ensures x < 0 ==> q == -((-x) / 8)
  {
    if x >= 0 then x / 8 else -((-x) / 8)
  }

  /** The byte range the command computes for an event: from its offset in whole bytes,
      as many bytes as its size in whole bytes. */
  function FirstByte(e: Event): int
  {
    TruncDiv8(e.topBitpos)
  }

  function LastByte(e: Event): int
  {
    TruncDiv8(e.topBitpos) + TruncDiv8(e.sizeBits) - 1
  }

  /** The event filter as written: every event but closing ones and the root, unless its
      computed byte range ends before `begin` or starts after `end`. */
  predicate ReportedAsWritten(e: Event, begin: int, end: int)
  {
    e.kind != EndStruct && e.level != 0 && !(LastByte(e) < begin) && !(FirstByte(e) > end)
  }

  /** `lo <= x <= hi`, named so that quantifiers over `x` have something to hang on. */
  predicate Within(x: int, lo: int, hi: int)
  {
    lo <= x <= hi
  }

  /** As written, an event whose computed byte range is not empty is reported exactly when
      that range and the scanned range share a byte. */
  lemma AsWrittenIff(e: Event, begin: int, end: int)
    requires begin <= end && FirstByte(e) <= LastByte(e)
    ensures ReportedAsWritten(e, begin, end) <==>
      e.kind != EndStruct && e.level != 0 &&
      exists b :: Within(b, FirstByte(e), LastByte(e)) && Within(b, begin, end)
  {
    if ReportedAsWritten(e, begin, end) {
      var b := if FirstByte(e) < begin then begin else FirstByte(e);
      assert Within(b, FirstByte(e), LastByte(e)) && Within(b, begin, end);
    }
  }

  /** As written, the filter works on whole bytes rounded toward zero: a 4-bit member at
      the start of the type is missed by a scan of bytes 0..7 although its bits lie in
      byte 0, the same member one byte further on is reported with the range 1..0, a 12-bit
      member from bit 4 is missed by a scan of byte 1 where its last 8 bits lie, and a
      scan of width 0 at byte 1 still reports a member that spans bytes 0..1. */
  lemma SubByteMissed()
    ensures var e := Event(Simple, "unsigned int", "a", 1, 0, 0, 4, "this.a", false, "", "struct S");
      !ReportedAsWritten(e, 0, 7) && Reported(e, 0, 7)
    ensures var e := Event(Simple, "unsigned int", "b", 1, 8, 8, 4, "this.b", false, "", "struct S");
      ReportedAsWritten(e, 0, 7) && RowFor(AsWritten, e).first == 1 && RowFor(AsWritten, e).last == 0
    ensures var e := Event(Simple, "unsigned int", "c", 1, 4, 4, 12, "this.c", false, "", "struct S");
      !ReportedAsWritten(e, 1, 1) && Reported(e, 1, 1)
    ensures var e := Event(Simple, "short", "d", 1, 0, 0, 16, "this.d", false, "", "struct S");
      ReportedAsWritten(e, 1, 0) && !Reported(e, 1, 0)
  {
  }

  /** The filter as evidently intended: an event is reported when some bit it covers lies
      in one of the scanned bytes, i.e. the bytes holding its first and last bits reach
      into a non-empty scanned range. */
  predicate Reported(e: Event, begin: int, end: int)
  {
    && e.kind != EndStruct && e.level != 0 && e.sizeBits > 0 && begin <= end
    && e.topBitpos / 8 <= end && (e.topBitpos + e.sizeBits - 1) / 8 >= begin
  }

  /** The byte `x / 8` holds bit `x`. */
  lemma ByteOfBit(x: int)
    ensures 8 * (x / 8) <= x < 8 * (x / 8) + 8
  {
  }

  /** Bit `bit` (counted from the start of the outermost type) belongs to event `e`. */
  predicate Covers(e: Event, bit: int)
  {
    e.topBitpos <= bit < e.topBitpos + e.sizeBits
  }

  /** An event is reported exactly when one of its bits lies in the scanned bytes. */
  lemma ReportedIff(e: Event, begin: int, end: int)
    ensures Reported(e, begin, end) <==>
      e.kind != EndStruct && e.level != 0 && exists bit :: Covers(e, bit) && 8 * begin <= bit < 8 * end + 8
  {
    var lo, hi := e.topBitpos, e.topBitpos + e.sizeBits - 1;
    ByteOfBit(lo);
    ByteOfBit(hi);
    if Reported(e, begin, end) {
      var bit := if lo < 8 * begin then 8 * begin else lo;
      assert Covers(e, bit) && 8 * begin <= bit < 8 * end + 8;
    }
    if e.kind != EndStruct && e.level != 0 && exists bit :: Covers(e, bit) && 8 * begin <= bit < 8 * end + 8 {
      var bit :| Covers(e, bit) && 8 * begin <= bit < 8 * end + 8;
      ByteOfBit(bit);
      DivMono(lo, bit);
      DivMono(bit, hi);
    }
  }

  lemma DivMono(a: int, b: int)
    requires a <= b
    ensures a / 8 <= b / 8
  {
  }

  /** One line of the command's report: the byte range, the path, and what sits there. */
  datatype Row = Row(first: int, last: int, path: string, what: string)

  /** The event filter and byte range the `offset` command applies: as written, or as
      evidently intended. */
  datatype Filter = AsWritten | Intended

  predicate Keeps(f: Filter, e: Event, begin: int, end: int)
  {
    match f
    case AsWritten => ReportedAsWritten(e, begin, end)
    case Intended => Reported(e, begin, end)
  }

  /** What sits at a reported event: its type name, or for a hole, where it is and which
      member follows it. */
  function What(e: Event): (s: string)
    ensures e.kind != Hole ==> s == e.name
    ensures e.kind == Hole ==>
              && |s| >= |e.name| + 4 + |e.parentName|
              && s[..|e.name| + 4 + |e.parentName|] == e.name + " in " + e.parentName
              && (|s| == |e.name| + 4 + |e.parentName| <==> e.nextField == "")
              && (e.nextField != "" ==> s[|e.name| + 4 + |e.parentName|..] == " before field '" + e.nextField + "'")
  {
    if e.kind == Hole then
      e.name + " in " + e.parentName + (if e.nextField != "" then " before field '" + e.nextField + "'" else "")
    else e.name
  }

  /** The row for an event: as written, its computed whole-byte range; as intended, the
      bytes holding its first and last bits. */
  function RowFor(f: Filter, e: Event): (r: Row)
    ensures r.path == e.path && r.what == What(e)
    ensures f == AsWritten ==> r.first == FirstByte(e) && r.last == LastByte(e)
    ensures f == Intended ==>
      8 * r.first <= e.topBitpos < 8 * r.first + 8 &&
      8 * r.last <= e.topBitpos + e.sizeBits - 1 < 8 * r.last + 8
  {
    match f
    case AsWritten => Row(FirstByte(e), LastByte(e), e.path, What(e))
    case Intended =>
      var lo, hi := e.topBitpos, e.topBitpos + e.sizeBits - 1;
      ByteOfBit(lo);
      ByteOfBit(hi);
      Row(lo / 8, hi / 8, e.path, What(e))
  }

  /** For members that start on a byte boundary and fill whole bytes, the intended filter
      agrees with the one as written, and so do their rows. */
  lemma WholeBytesAgree(e: Event, begin: int, end: int)
    requires begin <= end
    requires e.topBitpos >= 0 && e.topBitpos % 8 == 0 && e.sizeBits > 0 && e.sizeBits % 8 == 0
    ensures Keeps(Intended, e, begin, end) <==> Keeps(AsWritten, e, begin, end)
    ensures RowFor(Intended, e) == RowFor(AsWritten, e)
  {
    var q, m := e.topBitpos / 8, e.sizeBits / 8;
    assert e.topBitpos + e.sizeBits - 1 == 8 * (q + m - 1) + 7;
  }

  /** The rows for the kept events, in stream order. */
  function Overlaps(f: Filter, evs: seq<Event>, begin: int, end: int): (rows: seq<Row>)
    ensures |rows| <= |evs|
    ensures forall r :: r in rows ==> exists e :: e in evs && Keeps(f, e, begin, end) && r == RowFor(f, e)
    ensures forall e :: e in evs && Keeps(f, e, begin, end) ==> RowFor(f, e) in rows
  {
    if evs == [] then []
    else
      var rest := Overlaps(f, evs[1..], begin, end);
      assert forall e :: e in evs ==> e == evs[0] || e in evs[1..];
      if Keeps(f, evs[0], begin, end) then [RowFor(f, evs[0])] + rest else rest
  }

  /** `offset`: the members and holes of type `t` (typedefs stripped, anonymous members
      named) that overlap the `width` bytes from byte `offset` on; `None` when `t` is not a
      struct or union, which the command rejects with a `TypeError`. With `AsWritten` this
      is the command's own filter and byte ranges; with `Intended`, the corrected ones. */
  function OffsetScan(f: Filter, t: Type, offset: int, width: nat): (rows: Option<seq<Row>>)
    ensures rows.None? <==> !IsAggregate(t)
    ensures rows.Some? ==> var evs := TraverseType(Options(0, true), Strip(t));
      forall e :: e in evs && Keeps(f, e, offset, offset + width - 1) ==> RowFor(f, e) in rows.value
    ensures rows.Some? ==> var evs := TraverseType(Options(0, true), Strip(t));
      forall r :: r in rows.value ==> exists e :: e in evs && Keeps(f, e, offset, offset + width - 1) && r == RowFor(f, e)
  {
    if !IsAggregate(t) then None
    else Some(Overlaps(f, TraverseType(Options(0, true), Strip(t)), offset, offset + width - 1))
  }
}

=== FILE: shortest.dfy ===
/**
 `findRoute`: breadth-first search from one source over `callees`, stopping as
 soon as the destination shows up as a callee of the node being expanded.
 */
module ShortestRoute {
  import opened CallGraph

  /** A call path from `src` that the search is allowed to extend: every node
      after the first is neither avoided nor the destination itself. */
  ghost predicate Open(g: Graph, src: Node, dst: Node, av: set<Node>, p: seq<Node>)
  {
    && |p| >= 1
    && p[0] == src
    && CallPath(g, p)
    && (forall i :: 1 <= i < |p| ==> p[i] !in av && p[i] != dst)
  }

  /** A route from `src` to `dst` of at least one call whose inner nodes are not avoided. */
  ghost predicate Route(g: Graph, src: Node, dst: Node, av: set<Node>, p: seq<Node>)
  {
    && |p| >= 2
    && p[0] == src
    && p[|p| - 1] == dst
    && CallPath(g, p)
    && (forall i :: 1 <= i < |p| - 1 ==> p[i] !in av)
  }

  ghost predicate HasRoute(g: Graph, src: Node, dst: Node, av: set<Node>)
  {
    exists q :: Route(g, src, dst, av, q)
  }

  /** The back-edge map `edges` and the ghost map `R` of reconstructed routes agree:
      following `edges` from any discovered node leads to `src` along `R`. */
  ghost predicate Chain(src: Node, edges: map<Node, Node>, R: map<Node, seq<Node>>)
  {
    && R.Keys == edges.Keys + {src}
    && R[src] == [src]
    && (forall k {:trigger edges[k]} :: k in edges && k != src ==> edges[k] in R && R[k] == R[edges[k]] + [k])
  }

  ghost predicate RoutesOpen(g: Graph, src: Node, dst: Node, av: set<Node>, R: map<Node, seq<Node>>)
  {
    // The first half is only used where a proof names `Open(.., R[k])` itself.
    && (forall k {:trigger Open(g, src, dst, av, R[k])} :: k in R ==> Open(g, src, dst, av, R[k]))
    && (forall k {:trigger R[k]} :: k in R ==> |R[k]| >= 1 && R[k][|R[k]| - 1] == k)
  }

  /** Every expanded node has had all its callees looked at. */
  ghost predicate Closed(g: Graph, dst: Node, av: set<Node>, edges: map<Node, Node>, P: set<Node>)
  {
    forall p, c {:trigger c in Succ(g.callees, p)} :: p in P && c in Succ(g.callees, p) ==> c != dst && (c in av || c in edges)
  }

  ghost function AtDepth(work: seq<Node>, wd: seq<nat>, d: nat): set<Node>
    requires |work| == |wd|
  {
    set i | 0 <= i < |work| && wd[i] == d :: work[i]
  }

  lemma AtDepthAppend(work: seq<Node>, wd: seq<nat>, d: nat, c: Node, e: nat)
    requires |work| == |wd| && e != d
    ensures AtDepth(work + [c], wd + [e], d) == AtDepth(work, wd, d)
  {
    var w', wd' := work + [c], wd + [e];
    forall v | v in AtDepth(w', wd', d)
      ensures v in AtDepth(work, wd, d)
    {
      var i :| 0 <= i < |w'| && wd'[i] == d && w'[i] == v;
      assert i < |work|;
    }
    forall v | v in AtDepth(work, wd, d)
      ensures v in AtDepth(w', wd', d)
    {
      var i :| 0 <= i < |work| && wd[i] == d && work[i] == v;
      assert w'[i] == v && wd'[i] == d;
    }
  }

  lemma AtDepthPop(work: seq<Node>, wd: seq<nat>, d: nat)
    requires |work| == |wd| > 0 && wd[0] == d
    ensures work[0] in AtDepth(work, wd, d)
    ensures AtDepth(work, wd, d) <= AtDepth(work[1..], wd[1..], d) + {work[0]}
  {
    forall v | v in AtDepth(work, wd, d)
      ensures v in AtDepth(work[1..], wd[1..], d) + {work[0]}
    {
      var i :| 0 <= i < |work| && wd[i] == d && work[i] == v;
      if i > 0 {
        assert work[1..][i - 1] == v && wd[1..][i - 1] == d;
      }
    }
  }

  /** Queue depths lie in {d, d+1} and never decrease along the queue. */
  ghost predicate Layered(wd: seq<nat>, d: nat)
  {
    && (forall i :: 0 <= i < |wd| ==> d <= wd[i] <= d + 1)
    && (forall i, j :: 0 <= i < j < |wd| ==> wd[i] <= wd[j])
  }

  lemma OpenPrefix(g: Graph, src: Node, dst: Node, av: set<Node>, p: seq<Node>)
    requires Open(g, src, dst, av, p) && |p| >= 2
    ensures Open(g, src, dst, av, p[..|p| - 1])
  {
  }

  /** Extending a discovered node's route by one callee keeps the route maps consistent. */
  lemma Discover(g: Graph, src: Node, dst: Node, av: set<Node>,
                 edges: map<Node, Node>, R: map<Node, seq<Node>>, x: Node, c: Node)
    requires Chain(src, edges, R) && RoutesOpen(g, src, dst, av, R)
    requires x in R && c in Succ(g.callees, x) && c !in edges && c !in av && c != dst && c != src
    ensures Chain(src, edges[c := x], R[c := R[x] + [c]])
    ensures RoutesOpen(g, src, dst, av, R[c := R[x] + [c]])
  {
    var p := R[x] + [c];
    var R' := R[c := p];
    assert Open(g, src, dst, av, R[x]);
    assert Calls(g, x, c);
    assert Open(g, src, dst, av, p) by {
      assert CallPath(g, p) by {
        forall i | 0 <= i < |p| - 1
          ensures Calls(g, p[i], p[i + 1])
        {
          if i < |p| - 2 {
            assert p[i] == R[x][i] && p[i + 1] == R[x][i + 1];
          }
        }
      }
    }
    forall k | k in R'
      ensures Open(g, src, dst, av, R'[k])
    {
      if k != c {
        assert R'[k] == R[k];
        assert Open(g, src, dst, av, R[k]);
      }
    }
  }

  /** `src` seen again as a callee: only the back-edge map changes. */
  lemma DiscoverAgain(g: Graph, src: Node, edges: map<Node, Node>, R: map<Node, seq<Node>>, x: Node)
    requires Chain(src, edges, R) && x in R
    ensures Chain(src, edges[src := x], R)
  {
  }

  /** When every queued node has depth d+1, the layer-d invariant becomes a layer-(d+1) one. */
  lemma NextLayer(g: Graph, src: Node, dst: Node, av: set<Node>, edges: map<Node, Node>,
                  R: map<Node, seq<Node>>, P: set<Node>, work: seq<Node>, wd: seq<nat>, d: nat)
    requires |work| == |wd| && Layered(wd, d) && |wd| > 0 && wd[0] == d + 1
    requires Closed(g, dst, av, edges, P)
    requires R.Keys == edges.Keys + {src}
    requires forall k {:trigger k in R} :: k in R ==> k in P || k in work
    requires forall p {:trigger Open(g, src, dst, av, p)} :: Open(g, src, dst, av, p) && |p| - 1 < d ==> p[|p| - 1] in P
    requires forall p {:trigger Open(g, src, dst, av, p)} :: Open(g, src, dst, av, p) && |p| - 1 == d ==> p[|p| - 1] in P + AtDepth(work, wd, d)
    ensures forall p {:trigger Open(g, src, dst, av, p)} :: Open(g, src, dst, av, p) && |p| - 1 < d + 1 ==> p[|p| - 1] in P
    ensures forall p {:trigger Open(g, src, dst, av, p)} :: Open(g, src, dst, av, p) && |p| - 1 == d + 1 ==> p[|p| - 1] in P + AtDepth(work, wd, d + 1)
  {
    assert AtDepth(work, wd, d) == {};
    forall p | Open(g, src, dst, av, p) && |p| - 1 == d + 1
      ensures p[|p| - 1] in P + AtDepth(work, wd, d + 1)
    {
      OpenPrefix(g, src, dst, av, p);
      var u := p[|p| - 2];
      assert Calls(g, u, p[|p| - 1]);
      var v := p[|p| - 1];
      assert v in Succ(g.callees, u);
      if v !in P {
        assert v in work;
        var i :| 0 <= i < |work| && work[i] == v;
        assert wd[i] == d + 1;
      }
    }
  }

  /** A callee of an expanded node is not `dst` and has been either avoided or discovered. */
  lemma ClosedStep(g: Graph, dst: Node, av: set<Node>, edges: map<Node, Node>, P: set<Node>, u: Node, c: Node)
    requires Closed(g, dst, av, edges, P) && u in P && Calls(g, u, c)
    ensures c != dst && (c in av || c in edges)
  {
    assert c in Succ(g.callees, u);
  }

  /** Once the search has expanded everything it discovered, every open path ends at an expanded node. */
  lemma {:induction false} ExhaustedReachesAll(g: Graph, src: Node, dst: Node, av: set<Node>,
                                               edges: map<Node, Node>, P: set<Node>, p: seq<Node>)
    requires Closed(g, dst, av, edges, P)
    requires src in P && edges.Keys <= P
    requires Open(g, src, dst, av, p)
    ensures p[|p| - 1] in P
    decreases |p|
  {
    if |p| > 1 {
      OpenPrefix(g, src, dst, av, p);
      ExhaustedReachesAll(g, src, dst, av, edges, P, p[..|p| - 1]);
      ClosedStep(g, dst, av, edges, P, p[|p| - 2], p[|p| - 1]);
    }
  }

  /** A route to `dst` starts with an open path of one call less that ends at a caller of `dst`. */
  lemma RouteHasOpenPrefix(g: Graph, src: Node, dst: Node, av: set<Node>, q: seq<Node>)
    returns (k: nat)
    requires Route(g, src, dst, av, q)
    ensures 1 <= k < |q| && q[k] == dst
    ensures Open(g, src, dst, av, q[..k]) && Calls(g, q[k - 1], dst)
  {
    k := 1;
    while q[k] != dst
      invariant 1 <= k < |q|
      invariant forall i :: 1 <= i < k ==> q[i] != dst
      decreases |q| - k
    {
      k := k + 1;
    }
    assert Calls(g, q[k - 1], q[k]);
  }

  /** Routes exist iff none of the expanded nodes reaches `dst` when `edges` covers all. */
  lemma NoRouteWhenExhausted(g: Graph, src: Node, dst: Node, av: set<Node>,
                             edges: map<Node, Node>, P: set<Node>)
    requires Closed(g, dst, av, edges, P)
    requires src in P && edges.Keys <= P
    ensures !HasRoute(g, src, dst, av)
  {
    forall q | Route(g, src, dst, av, q)
      ensures false
    {
      var k := RouteHasOpenPrefix(g, src, dst, av, q);
      ExhaustedReachesAll(g, src, dst, av, edges, P, q[..k]);
      ClosedStep(g, dst, av, edges, P, q[k - 1], dst);
    }
  }

  /** When `dst` is first seen from a node at depth d, no route has fewer than d+1 calls. */
  lemma NoShorterRoute(g: Graph, src: Node, dst: Node, av: set<Node>,
                       edges: map<Node, Node>, P: set<Node>, d: nat)
    requires Closed(g, dst, av, edges, P)
    requires forall p {:trigger Open(g, src, dst, av, p)} :: Open(g, src, dst, av, p) && |p| - 1 < d ==> p[|p| - 1] in P
    ensures forall q :: Route(g, src, dst, av, q) ==> |q| >= d + 2
  {
    forall q | Route(g, src, dst, av, q)
      ensures |q| >= d + 2
    {
      var k := RouteHasOpenPrefix(g, src, dst, av, q);
      assert k - 1 >= d by {
        if k - 1 < d {
          assert q[..k][k - 1] == q[k - 1];
          ClosedStep(g, dst, av, edges, P, q[k - 1], dst);
          assert false;
        }
      }
    }
  }

  /** Walks `edges` back from `dst`, which was just seen as a callee of `x`, to `src`. */
  method Backtrack(src: Node, dst: Node, x: Node, edges: map<Node, Node>, ghost R: map<Node, seq<Node>>)
    returns (route: seq<Node>)
    requires src != dst && dst !in edges && x in R
    requires Chain(src, edges, R)
    ensures route == R[x] + [dst]
  {
    var e := edges[dst := x];
    ghost var R' := R[dst := R[x] + [dst]];
    route := [dst];
    while route[0] != src
      invariant |route| >= 1 && route[0] in R'
      invariant R'[route[0]] + route[1..] == R'[dst]
      decreases |R'[route[0]]|
    {
      var n := route[0];
      assert n in e && n != src;
      var prev := e[n];
      assert R'[n] == R'[prev] + [n];
      route := [prev] + route;
      assert route[1..] == [n] + route[2..];
    }
  }

  /** The search state between two expansions. `P` holds the expanded nodes,
      `wd` the depth of each queued node and `d` the depth being expanded. */
  ghost predicate Searching(g: Graph, src: Node, dst: Node, av: set<Node>, work: seq<Node>, wd: seq<nat>,
                            edges: map<Node, Node>, R: map<Node, seq<Node>>, P: set<Node>, d: nat)
  {
    && Chain(src, edges, R) && RoutesOpen(g, src, dst, av, R)
    && dst !in edges
    && |wd| == |work| && Layered(wd, d)
    && (forall i {:trigger work[i]} :: 0 <= i < |work| ==> work[i] in R && |R[work[i]]| - 1 <= wd[i])
    && Closed(g, dst, av, edges, P)
    && P <= R.Keys
    && (forall k {:trigger k in R} :: k in R ==> k in P || k in work)
    && (forall p {:trigger Open(g, src, dst, av, p)} :: Open(g, src, dst, av, p) && |p| - 1 < d ==> p[|p| - 1] in P)
    && (forall p {:trigger Open(g, src, dst, av, p)} :: Open(g, src, dst, av, p) && |p| - 1 == d ==> p[|p| - 1] in P + AtDepth(work, wd, d))
    && edges.Keys <= Targets(g.callees)
  }

  /** The search state while the callees of `x` (depth `d`) not in `rest` have been looked at. */
  ghost predicate Expanding(g: Graph, src: Node, dst: Node, av: set<Node>, x: Node, rest: set<Node>,
                            work: seq<Node>, wd: seq<nat>,
                            edges: map<Node, Node>, R: map<Node, seq<Node>>, P: set<Node>, d: nat)
  {
    && rest <= Succ(g.callees, x)
    && Chain(src, edges, R) && RoutesOpen(g, src, dst, av, R)
    && dst !in edges && x in R && |R[x]| - 1 <= d
    && |wd| == |work| && Layered(wd, d)
    && (forall i {:trigger work[i]} :: 0 <= i < |work| ==> work[i] in R && |R[work[i]]| - 1 <= wd[i])
    && Closed(g, dst, av, edges, P)
    && (forall c {:trigger c in Succ(g.callees, x)} :: c in Succ(g.callees, x) - rest ==> c != dst && (c in av || c in edges))
    && P <= R.Keys
    && (forall k {:trigger k in R} :: k in R ==> k in P || k == x || k in work)
    && (forall p {:trigger Open(g, src, dst, av, p)} :: Open(g, src, dst, av, p) && |p| - 1 < d ==> p[|p| - 1] in P)
    && (forall p {:trigger Open(g, src, dst, av, p)} :: Open(g, src, dst, av, p) && |p| - 1 == d ==> p[|p| - 1] in P + {x} + AtDepth(work, wd, d))
    && edges.Keys <= Targets(g.callees)
  }

  lemma StartSearch(g: Graph, src: Node, dst: Node, av: set<Node>)
    ensures Searching(g, src, dst, av, [src], [0], map[], map[src := [src]], {}, 0)
  {
    assert Open(g, src, dst, av, [src]);
    assert AtDepth([src], [0], 0) == {src};
  }

  /** Dequeuing the head `x` of the queue at depth `d`. */
  lemma StartExpand(g: Graph, src: Node, dst: Node, av: set<Node>, work: seq<Node>, wd: seq<nat>,
                    edges: map<Node, Node>, R: map<Node, seq<Node>>, P: set<Node>, d: nat)
    requires Searching(g, src, dst, av, work, wd, edges, R, P, d) && |work| > 0 && wd[0] == d
    ensures Expanding(g, src, dst, av, work[0], Succ(g.callees, work[0]), work[1..], wd[1..], edges, R, P, d)
  {
    AtDepthPop(work, wd, d);
    var x := work[0];
    forall k | k in R
      ensures k in P || k == x || k in work[1..]
    {
      if k !in P && k != x {
        var i :| 0 <= i < |work| && work[i] == k;
        assert work[1..][i - 1] == k;
      }
    }
  }

  /** Looking at a callee of `x` that is neither `dst` nor newly discovered changes nothing. */
  lemma SkipCallee(g: Graph, src: Node, dst: Node, av: set<Node>, x: Node, rest: set<Node>, c: Node,
                   work: seq<Node>, wd: seq<nat>,
                   edges: map<Node, Node>, R: map<Node, seq<Node>>, P: set<Node>, d: nat)
    requires Expanding(g, src, dst, av, x, rest, work, wd, edges, R, P, d)
    requires c in rest && c != dst && (c in av || c in edges)
    ensures Expanding(g, src, dst, av, x, rest - {c}, work, wd, edges, R, P, d)
  {
  }

  /** Queueing `c` one level deeper keeps the queue facts. */
  lemma QueueGrows(src: Node, x: Node, c: Node, work: seq<Node>, wd: seq<nat>,
                   R: map<Node, seq<Node>>, R': map<Node, seq<Node>>, P: set<Node>, d: nat)
    requires |wd| == |work| && Layered(wd, d)
    requires forall i {:trigger work[i]} :: 0 <= i < |work| ==> work[i] in R && |R[work[i]]| - 1 <= wd[i]
    requires forall k {:trigger k in R} :: k in R ==> k in P || k == x || k in work
    requires x in R && |R[x]| - 1 <= d
    requires R' == if c == src then R else R[c := R[x] + [c]]
    requires c == src ==> src in R && |R[src]| == 1
    requires c == src || c !in R
    ensures |wd + [d + 1]| == |work + [c]| && Layered(wd + [d + 1], d)
    ensures forall i {:trigger (work + [c])[i]} :: 0 <= i < |work + [c]| ==> (work + [c])[i] in R' && |R'[(work + [c])[i]]| - 1 <= (wd + [d + 1])[i]
    ensures forall k {:trigger k in R'} :: k in R' ==> k in P || k == x || k in work + [c]
  {
    var work', wd' := work + [c], wd + [d + 1];
    forall i | 0 <= i < |work'|
      ensures work'[i] in R' && |R'[work'[i]]| - 1 <= wd'[i]
    {
      if i < |work| {
        assert work'[i] == work[i];
      }
    }
    forall k | k in R'
      ensures k in P || k == x || k in work'
    {
      if k != c {
        assert k in R;
      } else {
        assert work'[|work|] == c;
      }
    }
  }

  /** Discovering callee `c` of `x`: record the back-edge and queue `c` one level deeper. */
  lemma DiscoverFresh(g: Graph, src: Node, dst: Node, av: set<Node>, x: Node, rest: set<Node>, c: Node,
                      work: seq<Node>, wd: seq<nat>,
                      edges: map<Node, Node>, R: map<Node, seq<Node>>, P: set<Node>, d: nat)
    requires Expanding(g, src, dst, av, x, rest, work, wd, edges, R, P, d)
    requires c in rest && c != dst && c !in av && c !in edges && c != src
    ensures Expanding(g, src, dst, av, x, rest - {c}, work + [c], wd + [d + 1], edges[c := x], R[c := R[x] + [c]], P, d)
  {
    assert c !in R by {
      assert R.Keys == edges.Keys + {src};
    }
    QueueGrows(src, x, c, work, wd, R, R[c := R[x] + [c]], P, d);
    LayersKept(g, src, dst, av, P, x, work, wd, c, d);
    SuccInTargets(g.callees, x);
    Discover(g, src, dst, av, edges, R, x, c);
  }

  /** `src` itself showing up as a callee is queued again, as the source does; its route stays [src]. */
  lemma DiscoverSource(g: Graph, src: Node, dst: Node, av: set<Node>, x: Node, rest: set<Node>,
                       work: seq<Node>, wd: seq<nat>,
                       edges: map<Node, Node>, R: map<Node, seq<Node>>, P: set<Node>, d: nat)
    requires Expanding(g, src, dst, av, x, rest, work, wd, edges, R, P, d)
    requires src in rest && src != dst && src !in av && src !in edges
    ensures Expanding(g, src, dst, av, x, rest - {src}, work + [src], wd + [d + 1], edges[src := x], R, P, d)
  {
    QueueGrows(src, x, src, work, wd, R, R, P, d);
    LayersKept(g, src, dst, av, P, x, work, wd, src, d);
    SuccInTargets(g.callees, x);
    DiscoverAgain(g, src, edges, R, x);
  }

  /** Queueing a node at depth d+1 leaves the layer-d facts as they were. */
  lemma LayersKept(g: Graph, src: Node, dst: Node, av: set<Node>, P: set<Node>, x: Node,
                   work: seq<Node>, wd: seq<nat>, c: Node, d: nat)
    requires |work| == |wd|
    requires forall p {:trigger Open(g, src, dst, av, p)} :: Open(g, src, dst, av, p) && |p| - 1 == d ==> p[|p| - 1] in P + {x} + AtDepth(work, wd, d)
    ensures forall p {:trigger Open(g, src, dst, av, p)} :: Open(g, src, dst, av, p) && |p| - 1 == d ==> p[|p| - 1] in P + {x} + AtDepth(work + [c], wd + [d + 1], d)
  {
    AtDepthAppend(work, wd, d, c, d + 1);
  }

  /** Once every callee of `x` has been looked at, `x` counts as expanded. */
  lemma FinishExpand(g: Graph, src: Node, dst: Node, av: set<Node>, x: Node,
                     work: seq<Node>, wd: seq<nat>,
                     edges: map<Node, Node>, R: map<Node, seq<Node>>, P: set<Node>, d: nat)
    requires Expanding(g, src, dst, av, x, {}, work, wd, edges, R, P, d)
    ensures Searching(g, src, dst, av, work, wd, edges, R, P + {x}, d)
  {
  }

  /** When the head of the queue is one level deeper, the search moves on to that level. */
  lemma EnterNextLayer(g: Graph, src: Node, dst: Node, av: set<Node>, work: seq<Node>, wd: seq<nat>,
                       edges: map<Node, Node>, R: map<Node, seq<Node>>, P: set<Node>, d: nat)
    requires Searching(g, src, dst, av, work, wd, edges, R, P, d) && |work| > 0 && wd[0] == d + 1
    ensures Searching(g, src, dst, av, work, wd, edges, R, P, d + 1)
  {
    NextLayer(g, src, dst, av, edges, R, P, work, wd, d);
    forall i | 0 <= i < |wd|
      ensures d + 1 <= wd[i] <= d + 2
    {
      if i > 0 {
        assert wd[0] <= wd[i];
      }
    }
  }

  /** The depth being expanded is that of the queue head. */
  lemma AlignLayer(g: Graph, src: Node, dst: Node, av: set<Node>, work: seq<Node>, wd: seq<nat>,
                   edges: map<Node, Node>, R: map<Node, seq<Node>>, P: set<Node>, d0: nat)
    returns (d: nat)
    requires Searching(g, src, dst, av, work, wd, edges, R, P, d0) && |work| > 0
    ensures Searching(g, src, dst, av, work, wd, edges, R, P, d) && wd[0] == d
  {
    d := d0;
    if wd[0] == d0 + 1 {
      EnterNextLayer(g, src, dst, av, work, wd, edges, R, P, d0);
      d := d0 + 1;
    }
  }

  /** What `findRoute` promises about a route it returns. */
  ghost predicate Shortest(g: Graph, src: Node, dst: Node, av: set<Node>, route: seq<Node>)
  {
    && HasRoute(g, src, dst, av)
    && (src == dst ==> route == [src])
    && (src != dst ==> Route(g, src, dst, av, route) && forall q :: Route(g, src, dst, av, q) ==> |route| <= |q|)
  }

  lemma RouteWitness(g: Graph, src: Node, dst: Node, av: set<Node>, q: seq<Node>)
    requires Route(g, src, dst, av, q)
    ensures HasRoute(g, src, dst, av)
  {
  }

  /** `dst` has just shown up as a callee of `x`, a node at depth d: rebuild the route. */
  method Report(g: Graph, src: Node, dst: Node, av: set<Node>, x: Node, rest: set<Node>,
                ghost work: seq<Node>, ghost wd: seq<nat>,
                edges: map<Node, Node>, ghost R: map<Node, seq<Node>>, ghost P: set<Node>, ghost d: nat)
    returns (route: seq<Node>)
    requires Expanding(g, src, dst, av, x, rest, work, wd, edges, R, P, d) && dst in rest
    ensures route != [] && Shortest(g, src, dst, av, route)
  {
    RouteOfDiscovery(g, src, dst, av, R, x);
    RouteWitness(g, src, dst, av, R[x] + [dst]);
    if src == dst {
      route := [dst];
    } else {
      route := Backtrack(src, dst, x, edges, R);
      NoShorterRoute(g, src, dst, av, edges, P, d);
    }
  }

  /** The inner `for` loop over the callees of `x`: stops at `dst` with a shortest
      route, or records every callee not yet seen and not avoided. */
  method ScanCallees(g: Graph, src: Node, dst: Node, av: set<Node>, x: Node, work0: seq<Node>,
                     edges0: map<Node, Node>, ghost wd0: seq<nat>, ghost R0: map<Node, seq<Node>>,
                     ghost P: set<Node>, ghost d: nat)
    returns (route: seq<Node>, work: seq<Node>, edges: map<Node, Node>,
             ghost wd: seq<nat>, ghost R: map<Node, seq<Node>>)
    requires Expanding(g, src, dst, av, x, Succ(g.callees, x), work0, wd0, edges0, R0, P, d)
    ensures route != [] ==> Shortest(g, src, dst, av, route)
    ensures route == [] ==> Expanding(g, src, dst, av, x, {}, work, wd, edges, R, P, d)
    ensures route == [] ==> edges0.Keys <= edges.Keys && (edges.Keys == edges0.Keys ==> work == work0)
  {
    work, edges, wd, R := work0, edges0, wd0, R0;
    var rest := Succ(g.callees, x);
    while rest != {}
      invariant Expanding(g, src, dst, av, x, rest, work, wd, edges, R, P, d)
      invariant edges0.Keys <= edges.Keys
      invariant edges.Keys == edges0.Keys ==> work == work0
      decreases rest
    {
      var c := Pick(rest);
      if c == dst {
        route := Report(g, src, dst, av, x, rest, work, wd, edges, R, P, d);
        return;
      } else if c !in av && c !in edges {
        if c == src {
          DiscoverSource(g, src, dst, av, x, rest, work, wd, edges, R, P, d);
        } else {
          DiscoverFresh(g, src, dst, av, x, rest, c, work, wd, edges, R, P, d);
          R := R[c := R[x] + [c]];
        }
        edges := edges[c := x];
        work := work + [c];
        wd := wd + [d + 1];
      } else {
        SkipCallee(g, src, dst, av, x, rest, c, work, wd, edges, R, P, d);
      }
      rest := rest - {c};
    }
    route := [];
  }

  /** One turn of the outer loop: move on to the next layer if the queue head is deeper,
      then look at every callee of the head. Either `dst` is among them and a shortest
      route comes back, or the head counts as expanded and the search has made progress:
      more nodes discovered, or a shorter queue. */
  method ExpandHead(g: Graph, src: Node, dst: Node, av: set<Node>, work: seq<Node>,
                    edges: map<Node, Node>, ghost wd: seq<nat>, ghost R: map<Node, seq<Node>>,
                    ghost P: set<Node>, ghost d0: nat)
    returns (route: seq<Node>, work': seq<Node>, edges': map<Node, Node>,
             ghost wd': seq<nat>, ghost R': map<Node, seq<Node>>, ghost d: nat)
    requires Searching(g, src, dst, av, work, wd, edges, R, P, d0) && |work| > 0
    ensures route != [] ==> Shortest(g, src, dst, av, route)
    ensures route == [] ==> Searching(g, src, dst, av, work', wd', edges', R', P + {work[0]}, d)
    ensures route == [] ==> || |Targets(g.callees) - edges'.Keys| < |Targets(g.callees) - edges.Keys|
                            || (edges'.Keys == edges.Keys && |work'| < |work|)
  {
    d := AlignLayer(g, src, dst, av, work, wd, edges, R, P, d0);
    StartExpand(g, src, dst, av, work, wd, edges, R, P, d);
    route, work', edges', wd', R' := ScanCallees(g, src, dst, av, work[0], work[1..], edges, wd[1..], R, P, d);
    if route == [] {
      FinishExpand(g, src, dst, av, work[0], work', wd', edges', R', P, d);
      if edges'.Keys != edges.Keys {
        Shrink(Targets(g.callees), edges.Keys, edges'.Keys);
      }
    }
  }

  /** A route that visits a node twice can skip the loop between the two visits. */
  lemma Shortcut(g: Graph, src: Node, dst: Node, av: set<Node>, p: seq<Node>, i: nat, j: nat)
    requires src != dst && Route(g, src, dst, av, p) && i < j < |p| && p[i] == p[j]
    ensures Route(g, src, dst, av, p[..i] + p[j..]) && |p[..i] + p[j..]| < |p|
  {
    var q := p[..i] + p[j..];
    assert |q| == |p| - (j - i);
    forall k | 0 <= k < |q|
      ensures q[k] == if k < i then p[k] else p[k - i + j]
    {
    }
    forall k | 0 <= k < |q| - 1
      ensures Calls(g, q[k], q[k + 1])
    {
      if k + 1 < i {
        assert Calls(g, p[k], p[k + 1]);
      } else if k + 1 == i {
        assert Calls(g, p[i - 1], p[i]);
      } else {
        assert Calls(g, p[k - i + j], p[k - i + j + 1]);
      }
    }
  }

  /** A shortest route visits no node twice. */
  lemma ShortestNoDup(g: Graph, src: Node, dst: Node, av: set<Node>, p: seq<Node>)
    requires src != dst && Route(g, src, dst, av, p)
    requires forall q :: Route(g, src, dst, av, q) ==> |p| <= |q|
    ensures NoDup(p)
  {
    forall i, j | 0 <= i < j < |p|
      ensures p[i] != p[j]
    {
      if p[i] == p[j] {
        Shortcut(g, src, dst, av, p, i, j);
      }
    }
  }

  /**
   Finds one shortest route from `src` to `dst`, stepping over neither the
   standing avoid set nor the per-query one (`dst` itself is never tested
   against them). The empty sequence means there is no route.
   */
  method FindRoute(g: Graph, standing: set<Node>, src: Node, dst: Node, avoid: set<Node>)
    returns (route: seq<Node>)
    ensures route == [] <==> !HasRoute(g, src, dst, standing + avoid)
    ensures route != [] && src == dst ==> route == [src]
    ensures route != [] && src != dst ==> Route(g, src, dst, standing + avoid, route)
    ensures route != [] && src != dst ==>
              forall q :: Route(g, src, dst, standing + avoid, q) ==> |route| <= |q|
    ensures NoDup(route)
  {
    var av := standing + avoid;
    var work := [src];
    var edges: map<Node, Node> := map[];
    ghost var R: map<Node, seq<Node>> := map[src := [src]];
    ghost var P: set<Node> := {};
    ghost var wd: seq<nat> := [0];
    ghost var d: nat := 0;
    StartSearch(g, src, dst, av);
    while |work| > 0
      invariant Searching(g, src, dst, av, work, wd, edges, R, P, d)
      decreases |Targets(g.callees) - edges.Keys|, |work|
    {
      ghost var x := work[0];
      route, work, edges, wd, R, d := ExpandHead(g, src, dst, av, work, edges, wd, R, P, d);
      if route != [] {
        if src != dst {
          ShortestNoDup(g, src, dst, av, route);
        }
        return;
      }
      P := P + {x};
    }
    route := [];
    NoRouteWhenExhausted(g, src, dst, av, edges, P);
  }

  lemma RouteOfDiscovery(g: Graph, src: Node, dst: Node, av: set<Node>, R: map<Node, seq<Node>>, x: Node)
    requires RoutesOpen(g, src, dst, av, R) && x in R && dst in Succ(g.callees, x)
    ensures Route(g, src, dst, av, R[x] + [dst])
  {
    var p := R[x] + [dst];
    assert Open(g, src, dst, av, R[x]);
    assert Calls(g, x, dst);
    forall i | 0 <= i < |p| - 1
      ensures Calls(g, p[i], p[i + 1])
    {
      if i < |p| - 2 {
        assert p[i] == R[x][i] && p[i + 1] == R[x][i + 1];
      }
    }
  }
}

=== FILE: sweeps.dfy ===
/**
 The three whole-graph sweeps of the routing engine. `rootPaths` and
 `reachable` are the same breadth-first sweep run over `callers` from the
 destination and over `callees` from the source; both collect the nodes with
 no neighbours in that direction and walk the recorded back-edges home.
 `findRouteMulti` sweeps `callers` from the destination and collects the
 sources it meets, stopping early once it has met as many as it was given.
 */
module Sweeps {
  import opened CallGraph

  // ---------------------------------------------------------------------------
  // Reachability along one adjacency map.

  /** `p` follows `adj` from `a` to `b`. */
  ghost predicate Walk(adj: Adjacency, a: Node, b: Node, p: seq<Node>)
  {
    |p| >= 1 && p[0] == a && p[|p| - 1] == b && Trail(adj, p)
  }

  /** Following `adj` from `a` one can arrive at `b` (in zero or more steps). */
  ghost predicate Reaches(adj: Adjacency, a: Node, b: Node)
  {
    exists p :: Walk(adj, a, b, p)
  }

  /** A set that holds `a` and is closed under `adj` holds everything `a` reaches. */
  lemma {:induction false} ClosedHoldsWalk(adj: Adjacency, V: set<Node>, a: Node, b: Node, p: seq<Node>)
    requires a in V
    requires forall v, c {:trigger c in Succ(adj, v)} :: v in V && c in Succ(adj, v) ==> c in V
    requires Walk(adj, a, b, p)
    ensures b in V
    decreases |p|
  {
    if |p| > 1 {
      var q := p[..|p| - 1];
      assert Walk(adj, a, q[|q| - 1], q);
      ClosedHoldsWalk(adj, V, a, q[|q| - 1], q);
      assert Step(adj, p[|p| - 2], p[|p| - 1]);
      assert b in Succ(adj, p[|p| - 2]);
    }
  }

  lemma ClosedHoldsReach(adj: Adjacency, V: set<Node>, a: Node, b: Node)
    requires a in V
    requires forall v, c {:trigger c in Succ(adj, v)} :: v in V && c in Succ(adj, v) ==> c in V
    requires Reaches(adj, a, b)
    ensures b in V
  {
    var p :| Walk(adj, a, b, p);
    ClosedHoldsWalk(adj, V, a, b, p);
  }

  /** A route listed back to front along `adj` shows that its last node reaches its first. */
  lemma BackTrailReaches(adj: Adjacency, r: seq<Node>)
    requires |r| >= 1 && BackTrail(adj, r)
    ensures Reaches(adj, r[|r| - 1], r[0])
  {
    var p := Reverse(r);
    forall i | 0 <= i < |p| - 1
      ensures Step(adj, p[i], p[i + 1])
    {
      var j := |r| - 2 - i;
      assert p[i] == r[j + 1] && p[i + 1] == r[j];
    }
    assert Walk(adj, r[|r| - 1], r[0], p);
  }

  /** A walk one step longer. */
  lemma ReachesStep(adj: Adjacency, a: Node, b: Node, c: Node)
    requires Reaches(adj, a, b) && Step(adj, b, c)
    ensures Reaches(adj, a, c)
  {
    var p :| Walk(adj, a, b, p);
    var q := p + [c];
    forall i | 0 <= i < |q| - 1
      ensures Step(adj, q[i], q[i + 1])
    {
      if i < |q| - 2 {
        assert q[i] == p[i] && q[i + 1] == p[i + 1];
      }
    }
    assert Walk(adj, a, c, q);
  }

  // ---------------------------------------------------------------------------
  // The back-edge tree a sweep builds.

  /** `edges` maps every discovered node to the node it was discovered from;
      `R[k]` is the route from `k` back to `start` that following `edges` gives. */
  ghost predicate Tree(adj: Adjacency, start: Node, edges: map<Node, Node>, R: map<Node, seq<Node>>)
  {
    && R.Keys == edges.Keys + {start}
    && R[start] == [start]
    && (forall k {:trigger edges[k]} :: k in edges && k != start ==> edges[k] in R && R[k] == [k] + R[edges[k]])
    && (start in edges ==> edges[start] in R && Step(adj, edges[start], start))
    && (forall k {:trigger R[k]} :: k in R ==> |R[k]| >= 1 && R[k][0] == k && R[k][|R[k]| - 1] == start)
    // Only used where a proof names `BackTrail(adj, R[k])` itself.
    && (forall k {:trigger BackTrail(adj, R[k])} :: k in R ==> BackTrail(adj, R[k]))
  }

  /** Recording `c`, a neighbour of the discovered node `x`, extends the tree. */
  lemma TreeGrows(adj: Adjacency, start: Node, edges: map<Node, Node>, R: map<Node, seq<Node>>, x: Node, c: Node)
    requires Tree(adj, start, edges, R) && x in R && c in Succ(adj, x) && c !in edges && c != start
    ensures Tree(adj, start, edges[c := x], R[c := [c] + R[x]])
  {
    var R' := R[c := [c] + R[x]];
    assert BackTrail(adj, R[x]);
    assert BackTrail(adj, R'[c]) by {
      var p := R'[c];
      forall i | 0 <= i < |p| - 1
        ensures Step(adj, p[i + 1], p[i])
      {
        if i > 0 {
          assert p[i] == R[x][i - 1] && p[i + 1] == R[x][i];
        }
      }
    }
    forall k | k in R'
      ensures BackTrail(adj, R'[k])
    {
      if k != c {
        assert R'[k] == R[k];
        assert BackTrail(adj, R[k]);
      }
    }
  }

  /** Recording `start` itself as a neighbour of `x` leaves the routes alone. */
  lemma TreeMeetsStart(adj: Adjacency, start: Node, edges: map<Node, Node>, R: map<Node, seq<Node>>, x: Node)
    requires Tree(adj, start, edges, R) && x in R && start in Succ(adj, x)
    ensures Tree(adj, start, edges[start := x], R)
  {
  }

  /** Every discovered node is a neighbour of a node that `start` reaches. */
  lemma DiscoveredFeeds(adj: Adjacency, start: Node, edges: map<Node, Node>, R: map<Node, seq<Node>>, s: Node)
    requires Tree(adj, start, edges, R) && s in edges
    ensures Feeds(adj, start, s)
  {
    var u := edges[s];
    assert BackTrail(adj, R[u]);
    BackTrailReaches(adj, R[u]);
    if s != start {
      assert BackTrail(adj, R[s]);
      assert R[s][1] == u;
    }
  }

  /** `s` is one step beyond some node that `start` reaches: a walk of at least one step
      leads from `start` to `s`. */
  ghost predicate Feeds(adj: Adjacency, start: Node, s: Node)
  {
    exists u :: Reaches(adj, start, u) && Step(adj, u, s)
  }

  /** Follows the back-edges from `f` until `start` (the inner `while` of each sweep's
      route reconstruction). */
  method Trace(adj: Adjacency, start: Node, edges: map<Node, Node>, ghost R: map<Node, seq<Node>>, f: Node)
    returns (route: seq<Node>)
    requires Tree(adj, start, edges, R) && f in R
    ensures route == R[f]
  {
    route := [f];
    while route[|route| - 1] != start
      invariant |route| >= 1 && route[|route| - 1] in R && |R[route[|route| - 1]]| >= 1
      invariant route + R[route[|route| - 1]][1..] == R[f]
      decreases |R[route[|route| - 1]]|
    {
      var n := route[|route| - 1];
      assert n in edges;
      var prev := edges[n];
      TraceStep(route, R[n], R[prev], prev, R[f]);
      route := route + [prev];
    }
  }

  /** One step of `Trace`: the node before `n` moves from the rest of the route to the
      part already traced. */
  lemma TraceStep(route: seq<Node>, rn: seq<Node>, rp: seq<Node>, prev: Node, whole: seq<Node>)
    requires |rn| >= 1 && rn == [rn[0]] + rp && |rp| >= 1 && rp[0] == prev
    requires route + rn[1..] == whole
    ensures (route + [prev]) + rp[1..] == whole
  {
    assert rn[1..] == rp == [prev] + rp[1..];
  }

  /** Reconstructs the route of every found node, in order. */
  method TraceAll(adj: Adjacency, start: Node, edges: map<Node, Node>, ghost R: map<Node, seq<Node>>,
                  found: seq<Node>)
    returns (routes: seq<seq<Node>>)
    requires Tree(adj, start, edges, R)
    requires forall i :: 0 <= i < |found| ==> found[i] in R
    ensures |routes| == |found|
    ensures forall i :: 0 <= i < |found| ==> routes[i] == R[found[i]]
  {
    routes := [];
    while |routes| < |found|
      invariant |routes| <= |found|
      invariant forall i :: 0 <= i < |routes| ==> routes[i] == R[found[i]]
    {
      var route := Trace(adj, start, edges, R, found[|routes|]);
      routes := routes + [route];
    }
  }

  // ---------------------------------------------------------------------------
  // The queue of a breadth-first sweep.

  /** What every sweep keeps about its queue `work`, its back-edges and the set `V` of
      nodes already dequeued: each discovered node is dequeued or queued, and only
      `start`, met again, can be queued twice. */
  ghost predicate Frontier(adj: Adjacency, start: Node, work: seq<Node>, edges: map<Node, Node>,
                           R: map<Node, seq<Node>>, V: set<Node>)
  {
    && Tree(adj, start, edges, R)
    && edges.Keys <= Targets(adj)
    && V <= R.Keys
    && (forall i {:trigger work[i]} :: 0 <= i < |work| ==> work[i] in R && (work[i] in V ==> work[i] == start && start in edges))
    && (forall i, j {:trigger work[i], work[j]} :: 0 <= i < j < |work| && work[i] == work[j] ==> work[i] == start && start in edges)
    && (forall k {:trigger k in R} :: k in R ==> k in V || k in work)
  }

  lemma FrontierStart(adj: Adjacency, start: Node)
    ensures Frontier(adj, start, [start], map[], map[start := [start]], {})
  {
  }

  /** Dequeuing the head moves it to `V`. */
  lemma FrontierPop(adj: Adjacency, start: Node, work: seq<Node>, edges: map<Node, Node>,
                    R: map<Node, seq<Node>>, V: set<Node>)
    requires Frontier(adj, start, work, edges, R, V) && |work| > 0
    ensures Frontier(adj, start, work[1..], edges, R, V + {work[0]})
  {
    var x := work[0];
    forall k | k in R
      ensures k in V + {x} || k in work[1..]
    {
      if k !in V && k != x {
        var i :| 0 <= i < |work| && work[i] == k;
        assert work[1..][i - 1] == k;
      }
    }
    forall i | 0 <= i < |work[1..]|
      ensures work[1..][i] in R && (work[1..][i] in V + {x} ==> work[1..][i] == start && start in edges)
    {
      assert work[1..][i] == work[i + 1];
      if work[i + 1] == x {
        assert work[0] == work[i + 1];
      }
    }
    forall i, j | 0 <= i < j < |work[1..]| && work[1..][i] == work[1..][j]
      ensures work[1..][i] == start && start in edges
    {
      assert work[1..][i] == work[i + 1] && work[1..][j] == work[j + 1];
    }
  }

  /** Recording and queuing `c`, an undiscovered neighbour of `x` other than `start`. */
  lemma FrontierGrows(adj: Adjacency, start: Node, x: Node, c: Node, work: seq<Node>,
                      edges: map<Node, Node>, R: map<Node, seq<Node>>, V: set<Node>)
    requires Frontier(adj, start, work, edges, R, V) && x in R && c in Succ(adj, x) && c !in edges && c != start
    ensures Frontier(adj, start, work + [c], edges[c := x], R[c := [c] + R[x]], V)
  {
    TreeGrows(adj, start, edges, R, x, c);
    SuccInTargets(adj, x);
    Appended(adj, start, c, work, edges, R, V);
  }

  /** Recording and queuing `start`, met again as a neighbour of `x`. */
  lemma FrontierMeetsStart(adj: Adjacency, start: Node, x: Node, work: seq<Node>,
                           edges: map<Node, Node>, R: map<Node, seq<Node>>, V: set<Node>)
    requires Frontier(adj, start, work, edges, R, V) && x in R && start in Succ(adj, x) && start !in edges
    ensures Frontier(adj, start, work + [start], edges[start := x], R, V)
  {
    TreeMeetsStart(adj, start, edges, R, x);
    SuccInTargets(adj, x);
    Appended(adj, start, start, work, edges, R, V);
  }

  /** The queue facts after appending a node not yet in `edges`. */
  lemma Appended(adj: Adjacency, start: Node, c: Node, work: seq<Node>,
                 edges: map<Node, Node>, R: map<Node, seq<Node>>, V: set<Node>)
    requires Frontier(adj, start, work, edges, R, V) && c !in edges
    ensures forall i, j {:trigger (work + [c])[i], (work + [c])[j]} :: 0 <= i < j < |work + [c]| && (work + [c])[i] == (work + [c])[j] ==> (work + [c])[i] == start
    ensures forall i {:trigger (work + [c])[i]} :: 0 <= i < |work + [c]| && (work + [c])[i] in V ==> (work + [c])[i] == start
  {
    var w := work + [c];
    forall i, j | 0 <= i < j < |w| && w[i] == w[j]
      ensures w[i] == start
    {
      if j == |work| {
        assert work[i] in R;
      } else {
        assert w[i] == work[i] && w[j] == work[j];
      }
    }
    forall i | 0 <= i < |w| && w[i] in V
      ensures w[i] == start
    {
      if i < |work| {
        assert w[i] == work[i];
      }
    }
  }

  /** With the queue empty, everything discovered has been dequeued. */
  lemma FrontierDone(adj: Adjacency, start: Node, edges: map<Node, Node>, R: map<Node, seq<Node>>, V: set<Node>)
    requires Frontier(adj, start, [], edges, R, V)
    ensures V == edges.Keys + {start}
  {
  }

  // ---------------------------------------------------------------------------
  // The leaf-collecting sweep shared by `rootPaths` and `reachable`.

  /** The sweep state between two dequeues. */
  ghost predicate Sweeping(adj: Adjacency, start: Node, work: seq<Node>, edges: map<Node, Node>,
                           R: map<Node, seq<Node>>, V: set<Node>, found: seq<Node>)
  {
    && Frontier(adj, start, work, edges, R, V)
    && (forall v, c {:trigger c in Succ(adj, v)} :: v in V && c in Succ(adj, v) ==> c in edges)
    && (forall v {:trigger v in V} :: v in V && Succ(adj, v) == {} ==> v in found)
    && (forall i {:trigger found[i]} :: 0 <= i < |found| ==> found[i] in V && Succ(adj, found[i]) == {})
    && NoDup(found)
    && (edges.Keys != {} ==> Succ(adj, start) != {})
  }

  /** The sweep state while the neighbours of `x` outside `rest` have been looked at. */
  ghost predicate Scanning(adj: Adjacency, start: Node, x: Node, rest: set<Node>, work: seq<Node>,
                           edges: map<Node, Node>, R: map<Node, seq<Node>>, V: set<Node>, found: seq<Node>)
  {
    && rest <= Succ(adj, x) && x in V && Succ(adj, x) != {}
    && Frontier(adj, start, work, edges, R, V)
    && (forall v, c {:trigger c in Succ(adj, v)} :: v in V && v != x && c in Succ(adj, v) ==> c in edges)
    && (forall c {:trigger c in Succ(adj, x)} :: c in Succ(adj, x) - rest ==> c in edges)
    && (forall v {:trigger v in V} :: v in V && Succ(adj, v) == {} ==> v in found)
    && (forall i {:trigger found[i]} :: 0 <= i < |found| ==> found[i] in V && Succ(adj, found[i]) == {})
    && NoDup(found)
    && (edges.Keys != {} ==> Succ(adj, start) != {})
  }

  lemma StartSweep(adj: Adjacency, start: Node)
    ensures Sweeping(adj, start, [start], map[], map[start := [start]], {}, [])
  {
    FrontierStart(adj, start);
  }

  /** A dequeued node with no neighbours is a leaf seen for the first time. */
  lemma VisitLeaf(adj: Adjacency, start: Node, work: seq<Node>, edges: map<Node, Node>,
                  R: map<Node, seq<Node>>, V: set<Node>, found: seq<Node>)
    requires Sweeping(adj, start, work, edges, R, V, found) && |work| > 0 && Succ(adj, work[0]) == {}
    ensures Sweeping(adj, start, work[1..], edges, R, V + {work[0]}, found + [work[0]])
  {
    var x := work[0];
    FrontierPop(adj, start, work, edges, R, V);
    assert x !in found;
    var found' := found + [x];
    assert NoDup(found') by {
      forall i, j | 0 <= i < j < |found'|
        ensures found'[i] != found'[j]
      {
        if j == |found| {
          assert found'[i] == found[i];
        } else {
          assert found'[i] == found[i] && found'[j] == found[j];
        }
      }
    }
    forall i | 0 <= i < |found'|
      ensures found'[i] in V + {x} && Succ(adj, found'[i]) == {}
    {
      if i < |found| {
        assert found'[i] == found[i];
      }
    }
  }

  /** Dequeuing a node with neighbours starts its scan. */
  lemma StartScan(adj: Adjacency, start: Node, work: seq<Node>, edges: map<Node, Node>,
                  R: map<Node, seq<Node>>, V: set<Node>, found: seq<Node>)
    requires Sweeping(adj, start, work, edges, R, V, found) && |work| > 0 && Succ(adj, work[0]) != {}
    ensures Scanning(adj, start, work[0], Succ(adj, work[0]), work[1..], edges, R, V + {work[0]}, found)
  {
    FrontierPop(adj, start, work, edges, R, V);
  }

  /** Looking at a neighbour already discovered changes nothing. */
  lemma ScanKnown(adj: Adjacency, start: Node, x: Node, rest: set<Node>, c: Node, work: seq<Node>,
                  edges: map<Node, Node>, R: map<Node, seq<Node>>, V: set<Node>, found: seq<Node>)
    requires Scanning(adj, start, x, rest, work, edges, R, V, found) && c in rest && c in edges
    ensures Scanning(adj, start, x, rest - {c}, work, edges, R, V, found)
  {
  }

  /** Looking at an undiscovered neighbour other than `start` records and queues it. */
  lemma ScanFresh(adj: Adjacency, start: Node, x: Node, rest: set<Node>, c: Node, work: seq<Node>,
                  edges: map<Node, Node>, R: map<Node, seq<Node>>, V: set<Node>, found: seq<Node>)
    requires Scanning(adj, start, x, rest, work, edges, R, V, found) && c in rest && c !in edges && c != start
    ensures Scanning(adj, start, x, rest - {c}, work + [c], edges[c := x], R[c := [c] + R[x]], V, found)
  {
    FrontierGrows(adj, start, x, c, work, edges, R, V);
  }

  /** Meeting `start` again for the first time records a back-edge for it and queues it once more. */
  lemma ScanStart(adj: Adjacency, start: Node, x: Node, rest: set<Node>, work: seq<Node>,
                  edges: map<Node, Node>, R: map<Node, seq<Node>>, V: set<Node>, found: seq<Node>)
    requires Scanning(adj, start, x, rest, work, edges, R, V, found) && start in rest && start !in edges
    ensures Scanning(adj, start, x, rest - {start}, work + [start], edges[start := x], R, V, found)
  {
    FrontierMeetsStart(adj, start, x, work, edges, R, V);
  }

  /** Once every neighbour of `x` has been looked at, `x` is fully visited. */
  lemma FinishScan(adj: Adjacency, start: Node, x: Node, work: seq<Node>,
                   edges: map<Node, Node>, R: map<Node, seq<Node>>, V: set<Node>, found: seq<Node>)
    requires Scanning(adj, start, x, {}, work, edges, R, V, found)
    ensures Sweeping(adj, start, work, edges, R, V, found)
  {
  }

  /** The inner `for` loop over the neighbours of the dequeued node `work[0]`: records
      and queues every one not yet in `edges`. */
  method ScanSucc(adj: Adjacency, start: Node, work0: seq<Node>, edges0: map<Node, Node>,
                  ghost R0: map<Node, seq<Node>>, ghost V: set<Node>, ghost found: seq<Node>)
    returns (work: seq<Node>, edges: map<Node, Node>, ghost R: map<Node, seq<Node>>)
    requires Sweeping(adj, start, work0, edges0, R0, V, found) && |work0| > 0 && Succ(adj, work0[0]) != {}
    ensures Sweeping(adj, start, work, edges, R, V + {work0[0]}, found)
    ensures edges0.Keys <= edges.Keys && (edges.Keys == edges0.Keys ==> |work| < |work0|)
  {
    var x := work0[0];
    ghost var V' := V + {x};
    StartScan(adj, start, work0, edges0, R0, V, found);
    work, edges, R := work0[1..], edges0, R0;
    var rest := Succ(adj, x);
    while rest != {}
      invariant Scanning(adj, start, x, rest, work, edges, R, V', found)
      invariant edges0.Keys <= edges.Keys
      invariant edges.Keys == edges0.Keys ==> work == work0[1..]
      decreases rest
    {
      var c := Pick(rest);
      if c !in edges {
        if c == start {
          ScanStart(adj, start, x, rest, work, edges, R, V', found);
        } else {
          ScanFresh(adj, start, x, rest, c, work, edges, R, V', found);
          R := R[c := [c] + R[x]];
        }
        edges := edges[c := x];
        work := work + [c];
      } else {
        ScanKnown(adj, start, x, rest, c, work, edges, R, V', found);
      }
      rest := rest - {c};
    }
    FinishScan(adj, start, x, work, edges, R, V', found);
  }

  /** A dequeued node with no neighbours joins `found`. */
  method KeepLeaf(adj: Adjacency, start: Node, work: seq<Node>, edges: map<Node, Node>,
                  ghost R: map<Node, seq<Node>>, ghost V: set<Node>, found: seq<Node>)
    returns (work': seq<Node>, found': seq<Node>)
    requires Sweeping(adj, start, work, edges, R, V, found) && |work| > 0 && Succ(adj, work[0]) == {}
    ensures Sweeping(adj, start, work', edges, R, V + {work[0]}, found') && |work'| < |work|
  {
    VisitLeaf(adj, start, work, edges, R, V, found);
    work', found' := work[1..], found + [work[0]];
  }

  /** One turn of the outer loop: dequeue a node; keep it if it has no neighbours,
      otherwise scan them. */
  method Visit(adj: Adjacency, start: Node, work: seq<Node>, edges: map<Node, Node>,
               ghost R: map<Node, seq<Node>>, ghost V: set<Node>, found: seq<Node>)
    returns (work': seq<Node>, edges': map<Node, Node>, ghost R': map<Node, seq<Node>>,
             ghost V': set<Node>, found': seq<Node>)
    requires Sweeping(adj, start, work, edges, R, V, found) && |work| > 0
    ensures Sweeping(adj, start, work', edges', R', V', found')
    ensures edges.Keys <= edges'.Keys && (edges'.Keys == edges.Keys ==> |work'| < |work|)
  {
    var x := work[0];
    V' := V + {x};
    if Succ(adj, x) == {} {
      work', found' := KeepLeaf(adj, start, work, edges, R, V, found);
      edges', R' := edges, R;
    } else {
      work', edges', R' := ScanSucc(adj, start, work, edges, R, V, found);
      found' := found;
    }
  }

  /** The breadth-first sweep from `start` along `adj`, collecting in `found`, in the
      order they are dequeued, the nodes with no neighbours. */
  method Sweep(adj: Adjacency, start: Node)
    returns (found: seq<Node>, edges: map<Node, Node>, ghost R: map<Node, seq<Node>>)
    ensures Tree(adj, start, edges, R)
    ensures forall i :: 0 <= i < |found| ==> found[i] in R
    ensures NoDup(found)
    ensures forall v :: v in found <==> Succ(adj, v) == {} && Reaches(adj, start, v)
  {
    var work := [start];
    edges, R, found := map[], map[start := [start]], [];
    ghost var V: set<Node> := {};
    StartSweep(adj, start);
    while |work| > 0
      invariant Sweeping(adj, start, work, edges, R, V, found)
      decreases |Targets(adj) - edges.Keys|, |work|
    {
      ghost var edges0, work0 := edges, work;
      work, edges, R, V, found := Visit(adj, start, work, edges, R, V, found);
      Progress(Targets(adj), edges0.Keys, edges.Keys, |work0|, |work|);
    }
    SweepDone(adj, start, edges, R, V, found);
  }

  /** With the queue empty, `found` holds exactly the leaves `start` reaches. */
  lemma SweepDone(adj: Adjacency, start: Node, edges: map<Node, Node>,
                  R: map<Node, seq<Node>>, V: set<Node>, found: seq<Node>)
    requires Sweeping(adj, start, [], edges, R, V, found)
    ensures forall i :: 0 <= i < |found| ==> found[i] in R
    ensures forall v :: v in found <==> Succ(adj, v) == {} && Reaches(adj, start, v)
  {
    FrontierDone(adj, start, edges, R, V);
    forall v | v in found
      ensures Succ(adj, v) == {} && Reaches(adj, start, v)
    {
      var i :| 0 <= i < |found| && found[i] == v;
      assert BackTrail(adj, R[v]);
      BackTrailReaches(adj, R[v]);
    }
    forall v | Succ(adj, v) == {} && Reaches(adj, start, v)
      ensures v in found
    {
      ClosedHoldsReach(adj, V, start, v);
    }
  }

  // ---------------------------------------------------------------------------
  // `rootPaths` and `reachable`.

  /** A route listed back to front along `adj` that ends at `home`. */
  ghost predicate HomeRoute(adj: Adjacency, home: Node, r: seq<Node>)
  {
    |r| >= 1 && r[|r| - 1] == home && BackTrail(adj, r)
  }

  /** No two of the routes start at the same node. */
  ghost predicate DistinctHeads(routes: seq<seq<Node>>)
  {
    forall i, j {:trigger routes[i], routes[j]} ::
      0 <= i < j < |routes| && |routes[i]| >= 1 && |routes[j]| >= 1 ==> routes[i][0] != routes[j][0]
  }

  /** The first nodes of a list of routes. */
  ghost function Heads(routes: seq<seq<Node>>): set<Node>
  {
    set r | r in routes && |r| >= 1 :: r[0]
  }

  /** The routes traced for the found nodes start at those nodes and lead home. */
  lemma RoutesOfFound(adj: Adjacency, start: Node, edges: map<Node, Node>, R: map<Node, seq<Node>>,
                      found: seq<Node>, routes: seq<seq<Node>>)
    requires Tree(adj, start, edges, R)
    requires |routes| == |found| && forall i :: 0 <= i < |found| ==> found[i] in R && routes[i] == R[found[i]]
    ensures forall i :: 0 <= i < |routes| ==> HomeRoute(adj, start, routes[i]) && routes[i][0] == found[i]
    ensures forall v :: v in Heads(routes) <==> v in found
  {
    forall i | 0 <= i < |routes|
      ensures HomeRoute(adj, start, routes[i]) && routes[i][0] == found[i]
    {
      var k := found[i];
      assert k in R && routes[i] == R[k];
      assert BackTrail(adj, R[k]);
    }
    forall v | v in found
      ensures v in Heads(routes)
    {
      var i :| 0 <= i < |found| && found[i] == v;
      assert routes[i] in routes && |routes[i]| >= 1 && routes[i][0] == v;
    }
  }

  /** Sweeps from `start` and returns, for every node with no neighbours that `start`
      reaches, the route from it back to `start`. */
  method LeafRoutes(adj: Adjacency, start: Node) returns (routes: seq<seq<Node>>)
    ensures forall i :: 0 <= i < |routes| ==> HomeRoute(adj, start, routes[i]) && Succ(adj, routes[i][0]) == {}
    ensures DistinctHeads(routes)
    ensures forall v :: v in Heads(routes) <==> Succ(adj, v) == {} && Reaches(adj, start, v)
  {
    var found, edges, R := Sweep(adj, start);
    routes := TraceAll(adj, start, edges, R, found);
    RoutesOfFound(adj, start, edges, R, found, routes);
    forall i, j | 0 <= i < j < |routes|
      ensures routes[i][0] != routes[j][0]
    {
      assert found[i] != found[j];
    }
    assert DistinctHeads(routes);
  }

  /** The node before the last of a back-to-front route is a neighbour of the last. */
  lemma Penultimate(adj: Adjacency, q: seq<Node>)
    requires BackTrail(adj, q)
    ensures |q| >= 2 ==> q[|q| - 2] in Succ(adj, q[|q| - 1])
  {
    if |q| >= 2 {
      assert Step(adj, q[|q| - 1], q[|q| - 2]);
    }
  }

  /** Routes with distinct first nodes have as many first nodes as routes. */
  lemma {:induction false} HeadsCount(routes: seq<seq<Node>>)
    requires DistinctHeads(routes) && forall i :: 0 <= i < |routes| ==> |routes[i]| >= 1
    ensures |Heads(routes)| == |routes|
  {
    if routes != [] {
      var n := |routes| - 1;
      var prefix := routes[..n];
      assert DistinctHeads(prefix) by {
        forall i, j | 0 <= i < j < |prefix|
          ensures prefix[i][0] != prefix[j][0]
        {
          assert prefix[i] == routes[i] && prefix[j] == routes[j];
        }
      }
      HeadsCount(prefix);
      forall k | 0 <= k < |prefix|
        ensures prefix[k][0] != routes[n][0]
      {
        assert prefix[k] == routes[k];
      }
      assert routes == prefix + [routes[n]];
      assert Heads(routes) == Heads(prefix) + {routes[n][0]};
    }
  }

  /** A sweep from a node with no neighbours returns the single route `[start]`. */
  lemma LoneStart(adj: Adjacency, start: Node, routes: seq<seq<Node>>)
    requires Succ(adj, start) == {}
    requires forall i :: 0 <= i < |routes| ==> HomeRoute(adj, start, routes[i])
    requires DistinctHeads(routes)
    requires forall v :: v in Heads(routes) <==> Succ(adj, v) == {} && Reaches(adj, start, v)
    ensures routes == [[start]]
  {
    assert Walk(adj, start, start, [start]);
    assert start in Heads(routes);
    forall i | 0 <= i < |routes|
      ensures routes[i] == [start]
    {
      Penultimate(adj, routes[i]);
    }
    assert Heads(routes) == {start};
    HeadsCount(routes);
  }

  /**
   `rootPaths`: one route per node with no callers that can reach `dst`, each
   listed from that root to `dst`, each root once.
   */
  method RootPaths(g: Graph, dst: Node) returns (routes: seq<seq<Node>>)
    ensures forall i :: 0 <= i < |routes| ==>
              HomeRoute(g.callers, dst, routes[i]) && Succ(g.callers, routes[i][0]) == {}
    ensures DistinctHeads(routes)
    ensures forall v :: v in Heads(routes) <==> Succ(g.callers, v) == {} && Reaches(g.callers, dst, v)
    ensures Succ(g.callers, dst) == {} ==> routes == [[dst]]
  {
    routes := LeafRoutes(g.callers, dst);
    if Succ(g.callers, dst) == {} {
      LoneStart(g.callers, dst, routes);
    }
  }

  /**
   `reachable`: one route per node with no callees that `src` reaches, each
   listed from that leaf back to `src`; reversed, each is a call path.
   */
  method Reachable(g: Graph, src: Node) returns (routes: seq<seq<Node>>)
    ensures forall i :: 0 <= i < |routes| ==>
              HomeRoute(g.callees, src, routes[i]) && Succ(g.callees, routes[i][0]) == {}
    ensures forall i :: 0 <= i < |routes| ==> CallPath(g, Reverse(routes[i]))
    ensures DistinctHeads(routes)
    ensures forall v :: v in Heads(routes) <==> Succ(g.callees, v) == {} && Reaches(g.callees, src, v)
  {
    routes := LeafRoutes(g.callees, src);
    forall i | 0 <= i < |routes|
      ensures CallPath(g, Reverse(routes[i]))
    {
      BackTrailOfCalleesReversed(g, routes[i]);
    }
  }

  // ---------------------------------------------------------------------------
  // `findRouteMulti`.

  /** The backward search state between two dequeues: every caller of a dequeued node
      is discovered, and is in `found` if it is one of the sources. */
  ghost predicate Hunting(adj: Adjacency, dst: Node, srcset: set<Node>, work: seq<Node>, edges: map<Node, Node>,
                          R: map<Node, seq<Node>>, V: set<Node>, found: set<Node>)
  {
    && Frontier(adj, dst, work, edges, R, V)
    && (forall v, c {:trigger c in Succ(adj, v)} :: v in V && c in Succ(adj, v) ==> c in edges && (c in srcset ==> c in found))
    && found <= srcset && found <= edges.Keys
  }

  /** The search state while the neighbours of `x` outside `rest` have been looked at. */
  ghost predicate HuntScanning(adj: Adjacency, dst: Node, srcset: set<Node>, x: Node, rest: set<Node>,
                               work: seq<Node>, edges: map<Node, Node>, R: map<Node, seq<Node>>,
                               V: set<Node>, found: set<Node>)
  {
    && rest <= Succ(adj, x) && x in V
    && Frontier(adj, dst, work, edges, R, V)
    && (forall v, c {:trigger c in Succ(adj, v)} :: v in V && v != x && c in Succ(adj, v) ==> c in edges && (c in srcset ==> c in found))
    && (forall c {:trigger c in Succ(adj, x)} :: c in Succ(adj, x) - rest ==> c in edges && (c in srcset ==> c in found))
    && found <= srcset && found <= edges.Keys
  }

  lemma StartHunt(adj: Adjacency, dst: Node, srcset: set<Node>)
    ensures Hunting(adj, dst, srcset, [dst], map[], map[dst := [dst]], {}, {})
  {
    FrontierStart(adj, dst);
  }

  lemma HuntPop(adj: Adjacency, dst: Node, srcset: set<Node>, work: seq<Node>, edges: map<Node, Node>,
                R: map<Node, seq<Node>>, V: set<Node>, found: set<Node>)
    requires Hunting(adj, dst, srcset, work, edges, R, V, found) && |work| > 0
    ensures HuntScanning(adj, dst, srcset, work[0], Succ(adj, work[0]), work[1..], edges, R, V + {work[0]}, found)
  {
    FrontierPop(adj, dst, work, edges, R, V);
  }

  lemma HuntFresh(adj: Adjacency, dst: Node, srcset: set<Node>, x: Node, rest: set<Node>, c: Node,
                  work: seq<Node>, edges: map<Node, Node>, R: map<Node, seq<Node>>, V: set<Node>, found: set<Node>)
    requires HuntScanning(adj, dst, srcset, x, rest, work, edges, R, V, found) && c in rest && c !in edges && c != dst
    ensures HuntScanning(adj, dst, srcset, x, rest, work + [c], edges[c := x], R[c := [c] + R[x]], V, found)
  {
    FrontierGrows(adj, dst, x, c, work, edges, R, V);
  }

  lemma HuntMeetsStart(adj: Adjacency, dst: Node, srcset: set<Node>, x: Node, rest: set<Node>,
                       work: seq<Node>, edges: map<Node, Node>, R: map<Node, seq<Node>>, V: set<Node>, found: set<Node>)
    requires HuntScanning(adj, dst, srcset, x, rest, work, edges, R, V, found) && dst in rest && dst !in edges
    ensures HuntScanning(adj, dst, srcset, x, rest, work + [dst], edges[dst := x], R, V, found)
  {
    FrontierMeetsStart(adj, dst, x, work, edges, R, V);
  }

  /** A discovered source joins `found`. */
  lemma HuntMark(adj: Adjacency, dst: Node, srcset: set<Node>, x: Node, rest: set<Node>, c: Node,
                 work: seq<Node>, edges: map<Node, Node>, R: map<Node, seq<Node>>, V: set<Node>, found: set<Node>)
    requires HuntScanning(adj, dst, srcset, x, rest, work, edges, R, V, found) && c in edges && c in srcset
    ensures HuntScanning(adj, dst, srcset, x, rest, work, edges, R, V, found + {c})
  {
  }

  /** A neighbour that is discovered, and found if it is a source, is done with. */
  lemma HuntNext(adj: Adjacency, dst: Node, srcset: set<Node>, x: Node, rest: set<Node>, c: Node,
                 work: seq<Node>, edges: map<Node, Node>, R: map<Node, seq<Node>>, V: set<Node>, found: set<Node>)
    requires HuntScanning(adj, dst, srcset, x, rest, work, edges, R, V, found)
    requires c in edges && (c in srcset ==> c in found)
    ensures HuntScanning(adj, dst, srcset, x, rest - {c}, work, edges, R, V, found)
  {
  }

  lemma FinishHuntScan(adj: Adjacency, dst: Node, srcset: set<Node>, x: Node,
                       work: seq<Node>, edges: map<Node, Node>, R: map<Node, seq<Node>>, V: set<Node>, found: set<Node>)
    requires HuntScanning(adj, dst, srcset, x, {}, work, edges, R, V, found)
    ensures Hunting(adj, dst, srcset, work, edges, R, V, found)
  {
  }

  /** The inner `for` loop over the callers of the dequeued node `work0[0]`. It stops
      early, with `stop` set, as soon as `found` has as many elements as `srcs`. */
  method HuntVisit(adj: Adjacency, dst: Node, srcs: seq<Node>, srcset: set<Node>, work0: seq<Node>,
                   edges0: map<Node, Node>, ghost R0: map<Node, seq<Node>>, ghost V: set<Node>, found0: set<Node>)
    returns (work: seq<Node>, edges: map<Node, Node>, ghost R: map<Node, seq<Node>>, found: set<Node>, stop: bool)
    requires Hunting(adj, dst, srcset, work0, edges0, R0, V, found0) && |work0| > 0
    ensures stop ==> Tree(adj, dst, edges, R) && found <= srcset && found <= edges.Keys && |found| == |srcs|
    ensures !stop ==> Hunting(adj, dst, srcset, work, edges, R, V + {work0[0]}, found)
    ensures !stop ==> edges0.Keys <= edges.Keys && (edges.Keys == edges0.Keys ==> |work| < |work0|)
  {
    var x := work0[0];
    ghost var V' := V + {x};
    HuntPop(adj, dst, srcset, work0, edges0, R0, V, found0);
    work, edges, R, found, stop := work0[1..], edges0, R0, found0, false;
    var rest := Succ(adj, x);
    while rest != {}
      invariant HuntScanning(adj, dst, srcset, x, rest, work, edges, R, V', found)
      invariant edges0.Keys <= edges.Keys
      invariant edges.Keys == edges0.Keys ==> work == work0[1..]
      decreases rest
    {
      var c := Pick(rest);
      if c !in edges {
        if c == dst {
          HuntMeetsStart(adj, dst, srcset, x, rest, work, edges, R, V', found);
        } else {
          HuntFresh(adj, dst, srcset, x, rest, c, work, edges, R, V', found);
          R := R[c := [c] + R[x]];
        }
        edges := edges[c := x];
        work := work + [c];
      }
      if c in srcset {
        HuntMark(adj, dst, srcset, x, rest, c, work, edges, R, V', found);
        found := found + {c};
        if |found| == |srcs| {
          stop := true;
          return;
        }
      }
      HuntNext(adj, dst, srcset, x, rest, c, work, edges, R, V', found);
      rest := rest - {c};
    }
    FinishHuntScan(adj, dst, srcset, x, work, edges, R, V', found);
  }

  /** A sequence has at least as many positions as distinct elements. */
  lemma {:induction false} SetOfSeqSize(s: seq<Node>)
    ensures |set x | x in s| <= |s|
  {
    if s != [] {
      var t := s[..|s| - 1];
      SetOfSeqSize(t);
      assert s == t + [s[|s| - 1]];
      assert (set x | x in s) == (set x | x in t) + {s[|s| - 1]};
    }
  }

  /** Once `found` is as large as `srcs`, every source has been found. */
  lemma AllFound(srcs: seq<Node>, srcset: set<Node>, found: set<Node>)
    requires srcset == set s | s in srcs
    requires found <= srcset && |found| == |srcs|
    ensures found == srcset
  {
    SetOfSeqSize(srcs);
    if found != srcset {
      Shrink(srcset, found, srcset);
    }
  }

  /** With the queue empty, `found` holds exactly the sources that call into `dst`. */
  lemma HuntDone(adj: Adjacency, dst: Node, srcset: set<Node>, edges: map<Node, Node>,
                 R: map<Node, seq<Node>>, V: set<Node>, found: set<Node>)
    requires Hunting(adj, dst, srcset, [], edges, R, V, found)
    ensures forall s :: s in found <==> s in srcset && Feeds(adj, dst, s)
  {
    FrontierDone(adj, dst, edges, R, V);
    forall s | s in found
      ensures Feeds(adj, dst, s)
    {
      DiscoveredFeeds(adj, dst, edges, R, s);
    }
    forall s | s in srcset && Feeds(adj, dst, s)
      ensures s in found
    {
      var u :| Reaches(adj, dst, u) && Step(adj, u, s);
      ClosedHoldsReach(adj, V, dst, u);
      assert s in Succ(adj, u);
    }
  }

  /** The backward search of `findRouteMulti`, up to the route reconstruction. */
  method Hunt(adj: Adjacency, dst: Node, srcs: seq<Node>)
    returns (found: set<Node>, edges: map<Node, Node>, ghost R: map<Node, seq<Node>>)
    ensures Tree(adj, dst, edges, R) && found <= edges.Keys
    ensures forall s :: s in found <==> s in srcs && Feeds(adj, dst, s)
  {
    var srcset := set s | s in srcs;
    var work := [dst];
    edges, R, found := map[], map[dst := [dst]], {};
    ghost var V: set<Node> := {};
    StartHunt(adj, dst, srcset);
    while |work| > 0
      invariant Hunting(adj, dst, srcset, work, edges, R, V, found)
      decreases |Targets(adj) - edges.Keys|, |work|
    {
      ghost var edges0, work0 := edges, work;
      var stop;
      work, edges, R, found, stop := HuntVisit(adj, dst, srcs, srcset, work, edges, R, V, found);
      if stop {
        AllFound(srcs, srcset, found);
        forall s | s in found
          ensures Feeds(adj, dst, s)
        {
          DiscoveredFeeds(adj, dst, edges, R, s);
        }
        return;
      }
      V := V + {work0[0]};
      Progress(Targets(adj), edges0.Keys, edges.Keys, |work0|, |work|);
    }
    HuntDone(adj, dst, srcset, edges, R, V, found);
  }

  /** Python's iteration over a set, written out: its elements, each once, in some order. */
  method Enumerate(s: set<Node>) returns (xs: seq<Node>)
    ensures NoDup(xs)
    ensures forall v :: v in xs <==> v in s
  {
    xs := [];
    var rest := s;
    while rest != {}
      invariant rest <= s
      invariant NoDup(xs)
      invariant forall v :: v in xs <==> v in s && v !in rest
      decreases rest
    {
      var x := Pick(rest);
      xs := xs + [x];
      rest := rest - {x};
    }
  }

  /** Every element of a listing of `found` lies in a superset of `found`. */
  lemma ListedKnown(order: seq<Node>, found: set<Node>, known: set<Node>)
    requires forall v :: v in order <==> v in found
    requires found <= known
    ensures forall i :: 0 <= i < |order| ==> order[i] in known
  {
    forall i | 0 <= i < |order|
      ensures order[i] in known
    {
      var v := order[i];
      assert v in order;
      assert v in found;
    }
  }

  /**
   `findRouteMulti`: searches backwards from `dst` through `callers` and returns,
   for each source it meets, one route from that source to `dst`. The sources
   returned are exactly those that reach `dst` in one call or more.
   */
  method FindRouteMulti(g: Graph, srcs: seq<Node>, dst: Node) returns (routes: seq<seq<Node>>)
    ensures forall i :: 0 <= i < |routes| ==> HomeRoute(g.callers, dst, routes[i]) && routes[i][0] in srcs
    ensures DistinctHeads(routes)
    ensures forall s :: s in Heads(routes) <==> s in srcs && Feeds(g.callers, dst, s)
  {
    var found, edges, R := Hunt(g.callers, dst, srcs);
    var order := Enumerate(found);
    ListedKnown(order, found, R.Keys);
    routes := TraceAll(g.callers, dst, edges, R, order);
    RoutesOfFound(g.callers, dst, edges, R, order, routes);
    forall i, j | 0 <= i < j < |routes|
      ensures routes[i][0] != routes[j][0]
    {
      assert order[i] != order[j];
    }
    assert DistinctHeads(routes);
  }
}
